=== FILE: README.md ===
# Service-centre back office: a Dafny model

This project models the server side of a car-service back office. The office keeps:

- **work orders** ("заказ-наряды"), each made of works and parts;
- a **warehouse** of products, suppliers and stock receipts;
- **cashboxes** and the payments made into them;
- **employees**;
- **clients** and their cars;
- incoming **requests** ("заявки") from the website and from Avito chats;
- a **Telegram sender** that mails a work order to a customer.

The front end's work-order total (`getTotal`) and status table (`statusConfig`) are modelled as well.

Each HTTP handler is a pure function from a store and a decoded request to a new store and a response:

- **The store.** `Store.Store` is a record of tables. A `Tables.Table` maps row ids to immutable datatypes and holds the next id the sequence will hand out.
- **The response.** `Http.Response` is either `Ok(status, body)` or `Fail(status, message)`.
- **Error paths.** Every handler's contract says that an error leaves the store exactly as it was.
- **Absent ids.** Id fields are natural numbers, and `0` stands for an absent or falsy id, matching Python's `if not x`.
- **Sparse updates.** An optional field that the request may omit is an `Option`.
- **Strings** are `seq<char>`. Stripping and blankness follow Python's `str.strip()`, with the whitespace `str.isspace()` accepts (module `Text`).

Modules follow the source files:

| module | source file |
|---|---|
| `WorkOrders` | `backend/work-orders/index.py` |
| `Warehouse` | `backend/warehouse/index.py` |
| `Finance` | `backend/finance/index.py` |
| `Employees` | `backend/employees/index.py` |
| `Clients` | `backend/clients/index.py` |
| `Orders` | `backend/orders/index.py` |
| `AvitoSync` | `backend/avito-sync/index.py` |
| `TgSend` | `backend/tgsend/index.py` |
| `WorkTypes` | `src/components/work-orders/types.ts` |

Four modules hold shared, cross-cutting definitions:

- `Tables`, `Text` and `Http` hold the shared vocabulary.
- `Store` holds the record types of every table.
- `Ledger` states the stock ledger across the warehouse and work-order handlers.

**The stock ledger.** Products, receipts and work-order parts are coupled:

- a stock receipt adds to a product's quantity;
- a part linked to a product takes from it;
- updating or deleting that part gives quantity back.

`Ledger.Opening` computes, for each product: its quantity, plus the quantity held by parts linked to it, minus what receipts delivered. That value is the product's opening stock. `Ledger.StepConserves` and `Ledger.RunConserves` prove that every handler, and any sequence of them, leaves it unchanged. Two conditions are needed, and both come from the code:

- parts created together with a work order must have a non-negative quantity, because that path skips the decrement for `qty <= 0`;
- `update_product` must not write `quantity` directly.

`Finance.CashConserves` states the same kind of ledger for cashbox balances and payments.

## Model

| member | source | states |
|---|---|---|
| Http.Dispatch | backend/clients/index.py:146-173 | OPTIONS is the preflight and GET the listing. POST runs the parsed action or answers 400 for an unknown one, and every other method is 405 |
| Text.Strip | backend/clients/index.py:64-67 | the result is the input with its leading and trailing whitespace runs removed, and it neither starts nor ends with whitespace. Whitespace is what `str.isspace()` accepts: tab to carriage return, U+001C to U+001F, the space, and the Unicode spaces and separators |
| Text.BlankIffStripEmpty | backend/clients/index.py:69 | a field is blank (all whitespace) exactly when its stripped form is empty, which is Python's `not s.strip()` |
| Text.StripIdempotent | backend/clients/index.py:64-67 | stripping a stripped string changes nothing |
| Text.Upper | backend/clients/index.py:101 | upper-casing keeps the length. It maps a–z, the Latin-1 letters à–þ except ÷, and the Cyrillic а–я and ѐ–џ to their capitals, and no letter of those ranges remains. Every other character is left alone |
| Text.ZFill | backend/orders/index.py:37 | zero-padding yields the wider of the input and the width, and is zeros followed by the input |
| Text.LabelDecodes | backend/orders/index.py:76 | a prefix plus a zero-padded id has at least four digits after the prefix, and those digits parse back to the id |
| Text.LabelInjective | backend/orders/index.py:76 | two ids with the same label are the same id |
| Text.Take | backend/avito-sync/index.py:98 | slicing to `n` keeps a prefix of at most `n` characters, and the whole string when it is short enough |
| Text.GroupRoundTrip | backend/tgsend/index.py:29 | removing the thousands separators from a grouped digit string gives the digits back |
| Text.GroupShape | backend/tgsend/index.py:29 | a grouped number starts and ends with a digit, its first group holds one to three digits, and every separator is followed by exactly three digits and then a separator or the end |
| Text.GroupLeads | backend/tgsend/index.py:29 | the first group of a grouped number holds one to three digits, followed by a separator or the end |
| Text.GroupChars | backend/tgsend/index.py:29 | a grouped number is non-empty, made only of digits and separators, and starts and ends with a digit |
| Text.GroupSeparators | backend/tgsend/index.py:29 | every separator in a grouped number is followed by exactly three digits and then a separator or the end |
| Store.AdjustQuantity | backend/work-orders/index.py:295 | `quantity = quantity + delta` on one product changes only that product's quantity, and nothing when the id is not stored |
| Store.AdjustQuantityUndo | backend/work-orders/index.py:416-417 | taking `delta` out of a product and putting it back restores the table |
| WorkOrders.FormatWork | backend/work-orders/index.py:27-36 | the reported work keeps id, name, price, norm hours, norm-hour price and discount. A falsy quantity is reported as 1, and any other quantity as stored |
| WorkOrders.FormatWorkKeepsQty | backend/work-orders/index.py:32 | the reported quantity equals the stored one exactly when the stored one is non-zero, and it is never zero |
| WorkOrders.Number | backend/work-orders/index.py:53 | the display number is "ЗН-" followed by the id zero-filled to four digits |
| WorkOrders.NumberDecodes | backend/work-orders/index.py:53 | the number is "ЗН-" followed by at least four digits that parse back to the id |
| WorkOrders.ChildIds | backend/work-orders/index.py:94-103 | the children of an order are exactly the rows whose `work_order_id` is that order, in ascending id order |
| WorkOrders.GroupOfBatch | backend/work-orders/index.py:94-103 | picking one order's rows out of the batch fetched for all listed orders gives the same rows as a query for that order alone |
| WorkOrders.NewestFirstOrder | backend/work-orders/index.py:84 | the listing order holds every work order id once, strictly descending |
| WorkOrders.ListedEntryIsAggregate | backend/work-orders/index.py:100-107 | each listed entry is its order with exactly its own works and parts, each in ascending id order |
| WorkOrders.ListingGroupsChildren | backend/work-orders/index.py:73-111 | the listing shows every work order exactly once, newest first, each with exactly its own works and parts |
| WorkOrders.TakeStock | backend/work-orders/index.py:157-172 | opening an order lowers each product by the quantity of the named parts linked to it that have `qty > 0`, and changes no other field |
| WorkOrders.OpenWorkOrder | backend/work-orders/index.py:133-175 | the stored header carries the request's order, client, car, payer and employee ids, the trimmed client name, car, master and payer name, status "new" and no issue time, and the reply reports exactly that row with no employee name. Only named works and parts get rows, all under fresh ids, and existing rows are kept. Stock moves as TakeStock says, and no other table changes |
| WorkOrders.CreateWorkOrder | backend/work-orders/index.py:114-177 | a blank client is refused with 400 and no write; any other request opens the order and answers 201 |
| WorkOrders.OpenTakesStock | backend/work-orders/index.py:171-172 | after opening, each product's quantity is the old one minus what the new parts take |
| WorkOrders.UpdateWorkOrder | backend/work-orders/index.py:180-242 | it succeeds exactly when the id is given, any status is one of the four, something is to change and the order exists. Otherwise a missing id, a bad status or nothing to change is 400, an unknown id is 404, and nothing is written. On success the order gets the given status, the stripped master and payer name, and the given payer and employee ids, and every field not given keeps its value. Setting "issued" stamps `issued_at` with the clock, and any other update leaves it alone. Only that order changes, and the answer is its refreshed aggregate |
| WorkOrders.AddWork | backend/work-orders/index.py:245-269 | it fails with 400 exactly when the order id is missing or the name is blank; otherwise exactly one new work row is added under a fresh id, with the name stripped |
| WorkOrders.UpdateWork | backend/work-orders/index.py:311-348 | it succeeds exactly when the id is given, something is to change and the work exists. A missing id or nothing to change is 400, and an unknown id 404. A blank name is ignored, not applied; a non-blank one is stored stripped. Price, quantity, norm hours, norm-hour price and discount take the given values or keep their own. Only that work changes, and it stays on its order |
| WorkOrders.DeleteWork | backend/work-orders/index.py:351-362 | it fails with 400 exactly when the id is missing; otherwise the row is removed, every other row is kept, and a missing row still answers success |
| WorkOrders.LinkedProduct | backend/work-orders/index.py:286-290 | a part links to a product exactly when it names a non-zero id that is stored |
| WorkOrders.AddedPartRow | backend/work-orders/index.py:291-306 | the stored part takes the product's name when none is given, the product's purchase price when the given one is falsy, and quantity 1 by default |
| WorkOrders.AddPart | backend/work-orders/index.py:272-308 | success holds exactly when the order id is given and either the linked product exists or a name is given; the three failures are 400, 404 and 400 with no write; a linked product's quantity falls by exactly `qty`, with no lower bound |
| WorkOrders.UpdatePart | backend/work-orders/index.py:365-404 | it succeeds exactly when the id is given, the part exists and something is to change. A missing id is 400, an unknown id 404 and nothing to change 400. A non-blank name is stored stripped, and quantity, sell price and purchase price take the given values or keep their own. A quantity change on a linked part gives the product `old_qty - new_qty`. An unlinked part or an unchanged quantity leaves products alone, and the link never changes |
| WorkOrders.DeletePart | backend/work-orders/index.py:407-422 | it fails with 400 exactly when the id is missing; otherwise a linked part's whole quantity goes back to its product and the row is removed, and a missing row changes nothing |
| WorkOrders.ParseAction | backend/work-orders/index.py:439-452 | an action name is accepted exactly when it is one of the eight in the dispatch table, and maps to the handler of that name |
| WorkOrders.RouteRequest | backend/work-orders/index.py:425-454 | OPTIONS is the preflight, POST with an unknown action is 400, and a method other than OPTIONS, GET and POST falls through with no answer |
| Warehouse.CreateProduct | backend/warehouse/index.py:56-82 | a blank sku or name gives 400, as does a sku already stored; otherwise one product is added with the trimmed sku and name, active, and with the description, category, unit, purchase price, quantity and minimum as given, defaulting to "", "", "шт", 0, 0 and 0 |
| Warehouse.CreateProductKeepsSkusUnique | backend/warehouse/index.py:63-65 | creating a product never stores two products with the same sku |
| Warehouse.UpdateProduct | backend/warehouse/index.py:85-124 | it succeeds exactly when the id is given, something is to change and the product exists. A missing id or nothing to change is 400, and an unknown id 404. A blank sku or name is ignored. Description, category and unit are stored stripped, purchase price, quantity and minimum take the given values, `is_active` its truth value, and every field not given keeps its value. Only that product changes |
| Warehouse.UpdateProductKeepsSkusUnique | backend/warehouse/index.py:97-101 | an update whose new sku is not already taken keeps skus unique |
| Warehouse.CreateSupplier | backend/warehouse/index.py:141-162 | it fails with 400 exactly when the name is blank; otherwise one active supplier is added with the trimmed name and the contact person, phone, email, inn, address and notes as given, each "" by default |
| Warehouse.UpdateSupplier | backend/warehouse/index.py:165-198 | it succeeds exactly when the id is given, something is to change and the supplier exists. A missing id or nothing to change is 400, and an unknown id 404. A blank name is ignored. Contact person, phone, email, INN, address and notes are stored stripped, `is_active` as its truth value, and fields not given keep their values. Only that supplier changes |
| Warehouse.LastPriceIsLast | backend/warehouse/index.py:282-285 | the purchase price a receipt leaves on a product is the price of the last booked item for it, and there is none exactly when no item books it |
| Warehouse.ReceiptRows | backend/warehouse/index.py:269-280 | one receipt-item row per item that has a product and a positive quantity, in submission order |
| Warehouse.BookItem | backend/warehouse/index.py:282-285 | one booked item adds its quantity to its product and sets the product's purchase price; any other item changes nothing |
| Warehouse.Restock | backend/warehouse/index.py:269-285 | each product gains the sum of the quantities booked for it, and its purchase price becomes the last booked price, or stays when none is booked |
| Warehouse.ReceiptNumberIsNext | backend/warehouse/index.py:254-256 | the receipt number is "ПН-" and at least four digits that read back as one more than the highest receipt id, which is 1 for the first receipt. That highest id is itself stored, and the number exceeds every existing receipt id |
| Warehouse.ReceiptNumber | backend/warehouse/index.py:254-256 | the receipt number is "ПН-" followed by one more than the highest receipt id, zero-filled to four digits |
| Warehouse.CreateReceipt | backend/warehouse/index.py:243-288 | it fails with 400 and no write exactly when the item list is empty. Otherwise the stored receipt has the next receipt number, the given supplier, the trimmed document number, and the document date and notes as given. The total is taken over all submitted items, skipped ones included, and the items and stock move as ReceiptRows and Restock say |
| Warehouse.ParseAction | backend/warehouse/index.py:379-390 | an action name is accepted exactly when it is one of the five in the action map |
| Warehouse.RouteRequest | backend/warehouse/index.py:333-394 | OPTIONS is the preflight; a method other than OPTIONS, GET and POST is 405 |
| Ledger.PartRowsConsume | backend/work-orders/index.py:157-172 | what the parts of a new order hold of a product equals what opening the order took from its stock, provided linked quantities are non-negative |
| Ledger.OpenKeepsOpenings | backend/work-orders/index.py:157-172 | opening a work order keeps every product's opening stock |
| Ledger.OpenKeepsLinks | backend/work-orders/index.py:157-172 | after opening, every linked part still names a stored product |
| Ledger.CreateWorkOrderConserves | backend/work-orders/index.py:114-177 | creating a work order keeps every product's opening stock |
| Ledger.AddPartConserves | backend/work-orders/index.py:286-306 | adding a part keeps every product's opening stock: the decrement equals what the new row holds |
| Ledger.UpdatePartConserves | backend/work-orders/index.py:382-389 | changing a part's quantity keeps every product's opening stock |
| Ledger.DeletePartConserves | backend/work-orders/index.py:416-418 | deleting a part keeps every product's opening stock |
| Ledger.ReceiptRowsDeliver | backend/warehouse/index.py:269-280 | what a receipt's stored items hold of a product equals what the receipt added to its stock |
| Ledger.CreateReceiptConserves | backend/warehouse/index.py:243-288 | a stock receipt keeps every product's opening stock |
| Ledger.ReceiptKeepsOpenings | backend/warehouse/index.py:269-285 | a stock receipt keeps every product's opening stock, item by item |
| Ledger.ReceiptKeepsLinks | backend/warehouse/index.py:276-280 | after a receipt, every receipt item still names a stored product |
| Ledger.CreateProductConserves | backend/warehouse/index.py:67-79 | a new product starts with its own quantity as its opening stock, and the others keep theirs |
| Ledger.UpdateProductConserves | backend/warehouse/index.py:90-107 | an update that does not write `quantity` keeps every product's opening stock |
| Ledger.UpdateOrderConserves | backend/work-orders/index.py:180-242 | a header update keeps every product's opening stock |
| Ledger.AddWorkConserves | backend/work-orders/index.py:245-269 | adding a work keeps every product's opening stock |
| Ledger.UpdateWorkConserves | backend/work-orders/index.py:311-348 | updating a work keeps every product's opening stock |
| Ledger.DeleteWorkConserves | backend/work-orders/index.py:351-362 | deleting a work keeps every product's opening stock |
| Ledger.CreateSupplierConserves | backend/warehouse/index.py:141-162 | creating a supplier keeps every product's opening stock |
| Ledger.UpdateSupplierConserves | backend/warehouse/index.py:165-198 | updating a supplier keeps every product's opening stock |
| Ledger.StepConserves | backend/work-orders/index.py:439-452 | every stock-relevant handler of both services keeps the ledger `quantity = opening + received - held by linked parts`, given that links resolve, that create's linked parts have non-negative quantity, and that there is no direct quantity edit |
| Ledger.RunConserves | backend/warehouse/index.py:269-285 | any admissible sequence of handlers keeps the ledger, so each product's quantity is its opening stock plus receipts minus what linked parts hold |
| Ledger.AddThenDeletePartRestoresStock | backend/work-orders/index.py:407-422 | adding a part and then deleting it leaves every product's quantity as it was |
| Finance.Credit | backend/finance/index.py:148-151 | a payment raises its cashbox's balance by the amount and no other cashbox changes |
| Finance.CreatePayment | backend/finance/index.py:127-154 | a missing work order, a missing cashbox or a zero amount gives 400, and so does a payment method outside {cash, card, transfer, online}. Success is exactly the other case: it adds one payment row and credits only its cashbox |
| Finance.CreateCashbox | backend/finance/index.py:157-172 | it succeeds exactly when the name is not blank and the type, "cash" by default, is one of cash, bank, card or online; the two failures are 400 with no write |
| Finance.UpdateCashbox | backend/finance/index.py:175-207 | it succeeds exactly when the id is given, any type is valid, something is to change and the cashbox exists. A missing id, an invalid type before any write, or nothing to change is 400, and an unknown id 404. A blank name is ignored. The type and activity flag take the given values or keep their own, the balance never changes, and only that cashbox changes |
| Finance.PaymentCount | backend/finance/index.py:216-217 | the payment count is positive exactly when some payment refers to the cashbox |
| Finance.DeleteCashbox | backend/finance/index.py:210-222 | deletion succeeds exactly when the id is given and no payment refers to the cashbox, and then removes only that row; otherwise it is 400 with the count in the message |
| Finance.CreatePaymentConserves | backend/finance/index.py:141-151 | a payment keeps each cashbox's opening balance, which is its balance minus the payments into it |
| Finance.CreateCashboxConserves | backend/finance/index.py:157-172 | a new cashbox opens at balance 0, and every other cashbox keeps its opening balance |
| Finance.UpdateCashboxConserves | backend/finance/index.py:175-207 | a cashbox update keeps every opening balance |
| Finance.DeleteCashboxConserves | backend/finance/index.py:210-222 | deleting a cashbox keeps the opening balance of every remaining cashbox |
| Finance.StepConserves | backend/finance/index.py:247-260 | every finance handler keeps the cash ledger |
| Finance.RunConserves | backend/finance/index.py:148-151 | over any admissible sequence of finance handlers, each surviving cashbox's balance is its opening balance plus the payments into it |
| Finance.ParseAction | backend/finance/index.py:247-260 | an action name is accepted exactly when it is one of the four POST actions |
| Finance.RouteRequest | backend/finance/index.py:225-264 | OPTIONS is the preflight, GET a query, POST with an unknown action 400, and any other method 405 |
| Employees.RoleLabel | backend/employees/index.py:43 | a known role shows its Russian label, and an unknown role shows itself |
| Employees.RoleLabelsMatchRoles | backend/employees/index.py:27-35 | the label table has exactly the valid roles as keys, and no two roles share a label |
| Employees.FormatEmployee | backend/employees/index.py:38-48 | the reported employee keeps id, name, role, phone, email and active flag, and adds the role's label |
| Employees.FormatEmployeeLabel | backend/employees/index.py:43 | a valid role is shown as one of the role labels and never as itself; any other role is shown as stored |
| Employees.CreateEmployee | backend/employees/index.py:65-87 | it succeeds exactly when the name is not blank and the role, "mechanic" by default, is valid; each failure is 400 with no write |
| Employees.UpdateEmployee | backend/employees/index.py:90-137 | it succeeds exactly when the id is given, any name is non-blank, any role is valid, something is to change and the employee exists. An explicitly blank name is 400 and is not skipped; an invalid role, a missing id and nothing to change are 400 too, and an unknown id 404. Name, phone and email are stored stripped, role and activity as given, and fields not given keep their values. Only that employee changes |
| Employees.AssignmentCount | backend/employees/index.py:148-150 | the count is positive exactly when some work order is assigned to the employee |
| Employees.DeleteEmployee | backend/employees/index.py:140-163 | an assigned employee is deactivated and kept, and the answer says so. An unassigned one is deleted, and an unknown id is 404 |
| Employees.DeleteKeepsAssignments | backend/employees/index.py:148-154 | deletion never leaves a work order pointing at a missing employee |
| Employees.CreateKeepsStaffWellFormed | backend/employees/index.py:71-74 | after a create, every stored employee still has a non-blank name and a valid role |
| Employees.UpdateKeepsStaffWellFormed | backend/employees/index.py:101-112 | after an update, every stored employee still has a non-blank name and a valid role |
| Employees.DeleteKeepsStaffWellFormed | backend/employees/index.py:140-163 | after a delete, every stored employee still has a non-blank name and a valid role |
| Employees.ParseAction | backend/employees/index.py:178-187 | a POST without an action is a create, and otherwise the action must be create, update or delete |
| Employees.RouteRequest | backend/employees/index.py:166-189 | OPTIONS is the preflight, GET a query, POST with an unknown action 400, and any other method 405 |
| Clients.CreateClient | backend/clients/index.py:63-93 | it succeeds exactly when the stripped name and phone are non-empty; the new client is returned with an empty car list |
| Clients.CreateKeepsContacts | backend/clients/index.py:63-79 | if every stored client has a trimmed, non-blank name and phone, that still holds after `create_client` |
| Clients.NormalVin | backend/clients/index.py:101 | the stored VIN has the length of the stripped input, which it upper-cases character by character |
| Clients.NormalVinIsNormal | backend/clients/index.py:101 | a stored VIN holds no letter a–z, nor any other lower-case letter `Text.Upper` maps, and upper-casing it again changes nothing |
| Clients.AddCar | backend/clients/index.py:96-128 | it succeeds exactly when the client id, brand and model are given and the VIN is empty or 17 characters long; failures are 400 with no write |
| Clients.DeleteCar | backend/clients/index.py:131-143 | it fails exactly when the id is missing; otherwise only the car's active flag is cleared, and its row stays |
| Clients.DeleteCarIdempotent | backend/clients/index.py:139 | deleting a car a second time changes nothing |
| Clients.ActiveCars | backend/clients/index.py:34 | the listed cars are exactly the active ones, newest first |
| Clients.CarsOfMembers | backend/clients/index.py:39 | a client's listed cars are exactly the active cars whose `client_id` is that client |
| Clients.CarsOfOrder | backend/clients/index.py:34-39 | a client's cars come newest first |
| Clients.ListClients | backend/clients/index.py:27-60 | every client appears once, newest first |
| Clients.ListingAttachesActiveCars | backend/clients/index.py:37-57 | each listed client carries exactly its own active cars, newest first, as stored |
| Clients.ParseAction | backend/clients/index.py:164-169 | an action name is accepted exactly when it is create_client, add_car or delete_car |
| Clients.RouteRequest | backend/clients/index.py:146-173 | OPTIONS is the preflight, GET a query, POST with an unknown action 400, and any other method 405 |
| Orders.OrderNumberDecodes | backend/orders/index.py:37 | the number is "З-" followed by at least four digits that parse back to the id, so distinct ids have distinct numbers |
| Orders.OrderNumber | backend/orders/index.py:37 | the display number is "З-" followed by the id zero-filled to four digits |
| Orders.FormatOrder | backend/orders/index.py:35-46 | the reported request carries its id and its number, and the stored client name, client id, phone, car, service, status and comment |
| Orders.CreateOrder | backend/orders/index.py:52-88 | it succeeds exactly when the stripped client and phone are non-empty; the new request has status "new" |
| Orders.CreatedOrderHasContact | backend/orders/index.py:60-61 | a created request always has a non-blank client and phone |
| Orders.UpdateOrderStatus | backend/orders/index.py:91-105 | it succeeds exactly when the id is given and the status is new, contacted, approved or rejected; it reports success whether or not the id exists |
| Orders.CreateKeepsStatusesValid | backend/orders/index.py:67-68 | after a create, every stored request's status is still one of the four |
| Orders.UpdateKeepsStatusesValid | backend/orders/index.py:95-96 | after a status update, every stored request's status is still one of the four |
| Orders.UpdateStatusIdempotent | backend/orders/index.py:101 | setting the same status twice is the same as setting it once |
| Orders.ListOrders | backend/orders/index.py:27-49 | each listed entry is a stored request as formatted, newest first |
| Orders.ListingIsComplete | backend/orders/index.py:31 | every stored request is listed once, strictly newest first |
| Orders.ParseAction | backend/orders/index.py:122-125 | an action name is accepted exactly when it is create or update_status |
| Orders.RouteRequest | backend/orders/index.py:108-129 | OPTIONS is the preflight, GET a query, POST with an unknown action 400, and any other method 405 |
| AvitoSync.OnlyDigits | backend/avito-sync/index.py:32 | `re.sub(r'\D', '', s)` keeps only digits and never lengthens the text |
| AvitoSync.OnlyDigitsAppend | backend/avito-sync/index.py:32 | the digits of a concatenation are the digits of each part, in order |
| AvitoSync.OnlyDigitsOfDigits | backend/avito-sync/index.py:32 | a string of digits keeps every character |
| AvitoSync.OnlyDigitsOfNone | backend/avito-sync/index.py:32 | a string without digits gives the empty string |
| AvitoSync.NormalizePhone | backend/avito-sync/index.py:31-39 | with ten or eleven digits, the result is "+7 (XXX) XXX-XX-XX" whose digits are 7 and the last ten input digits; with any other count, the input is returned stripped |
| AvitoSync.NormalizeIdempotent | backend/avito-sync/index.py:31-39 | normalising a normalised number changes nothing |
| AvitoSync.NormalizeLeadingEight | backend/avito-sync/index.py:33-34 | "89261234567" becomes "+7 (926) 123-45-67" |
| AvitoSync.TrunkPrefixReplaced | backend/avito-sync/index.py:33-34 | eleven digits that start with 8 have that 8 replaced by 7 |
| AvitoSync.NormalizeOtherLeadingDigit | backend/avito-sync/index.py:33-39 | eleven digits that start with neither 7 nor 8 are still printed, and their first digit is dropped |
| AvitoSync.NormalizeNotAPhone | backend/avito-sync/index.py:37-38 | the worked example: "notaphone", which has no digits, comes back unchanged |
| AvitoSync.FormatPhoneIgnoresFirst | backend/avito-sync/index.py:39 | the printed number depends only on the last ten digits |
| AvitoSync.MatchAt | backend/avito-sync/index.py:87 | a match of the phone pattern anchored at a position starts with "+", 7 or 8, spans at least eleven characters within the text, and ends in two digits |
| AvitoSync.MatchHasElevenDigits | backend/avito-sync/index.py:89 | any text the phone pattern matches holds eleven digits, the first a 7 or an 8 |
| AvitoSync.SearchFrom | backend/avito-sync/index.py:89 | the search finds the leftmost position where the pattern matches, and finds nothing exactly when no position matches |
| AvitoSync.FindPhone | backend/avito-sync/index.py:89-91 | the result is empty exactly when the pattern matches nowhere, and otherwise it is a matched slice of the text |
| AvitoSync.FoundPhoneNormalizes | backend/avito-sync/index.py:89-144 | a found phone normalises to "+7 (…" with eleven digits |
| AvitoSync.ExtractPhone | backend/avito-sync/index.py:86-92 | the result is empty exactly when no message holds a phone; otherwise it is the first match in the first message that has one |
| AvitoSync.FirstUserMessage | backend/avito-sync/index.py:95-99 | the result is the text of the last message not written by the account, cut to 500 characters, or empty when there is none |
| AvitoSync.Counterpart | backend/avito-sync/index.py:121-128 | the client is the first chat user other than the account, or "Клиент Авито" with an empty id |
| AvitoSync.ChatComment | backend/avito-sync/index.py:135-139 | the comment is the first message, if any, then "[Авито чат #id]" on its own line |
| AvitoSync.ChatOrder | backend/avito-sync/index.py:134-145 | a synced request has status "new", source "avito", no client id and no car. Its client is the counterpart's name, and its service the item title or "Запрос с Авито". Its phone is empty exactly when no number was found, and otherwise the found number normalised to the 18-character "+7 (" form. Its comment is the other party's last message in list order, if any, then the chat tag |
| AvitoSync.LedgerRow | backend/avito-sync/index.py:149-154 | the ledger row names the chat, the other participant's id and the request created for it, and records the id of the first message in the list, or "" when there are none |
| AvitoSync.SyncChat | backend/avito-sync/index.py:108-156 | a chat without an id, or one already in the ledger, changes nothing; any other chat adds exactly one request and one ledger row |
| AvitoSync.SyncChats | backend/avito-sync/index.py:102-158 | `created + skipped` is at most the number of chats, and each table grows by `created` ids |
| AvitoSync.SyncKeepsRows | backend/avito-sync/index.py:141-154 | syncing never changes or removes an existing request or ledger row |
| AvitoSync.SyncMarksChats | backend/avito-sync/index.py:149-154 | after a run, every chat with an id is in the ledger |
| AvitoSync.SyncAddsRequests | backend/avito-sync/index.py:141-145 | the new requests are exactly the ids after the old ones, each with status "new" and source "avito" |
| AvitoSync.SyncOfSyncedIsNoop | backend/avito-sync/index.py:113-116 | when every chat is already in the ledger, a run changes nothing and creates nothing |
| AvitoSync.SyncIdempotent | backend/avito-sync/index.py:102-158 | running the same chats a second time creates nothing and changes nothing |
| AvitoSync.DuplicateChatCreatesOnce | backend/avito-sync/index.py:113-116 | a chat listed twice creates at most one request, and the second copy is skipped |
| AvitoSync.SyncKeepsStatusesValid | backend/avito-sync/index.py:142-143 | syncing keeps every request's status among the four valid ones |
| AvitoSync.SyncKeepsLedgerResolves | backend/avito-sync/index.py:149-154 | every ledger row still names a stored request |
| AvitoSync.HandleSync | backend/avito-sync/index.py:168-185 | no token or no account id gives 400 with no write; otherwise the chats are synced and the counts reported |
| AvitoSync.RouteRequest | backend/avito-sync/index.py:161-207 | OPTIONS is the preflight, POST syncs, GET reads the summary, and any other method is 405 |
| TgSend.AmountDigits | backend/tgsend/index.py:28-29 | dropping the separators from a printed amount gives the plain decimal integer |
| TgSend.Price | backend/tgsend/index.py:28-29 | a price is a printed amount of at least one character followed by " ₽" |
| TgSend.PriceReadsBack | backend/tgsend/index.py:28-29 | dropping the rouble sign and the group separators from a price gives back the integer |
| TgSend.AmountGroupsDigits | backend/tgsend/index.py:28-29 | a non-negative amount prints as groups of three digits separated by spaces, the first group holding one to three |
| TgSend.Section | backend/tgsend/index.py:72-90 | a section is absent when it has no items; otherwise it is the heading, the items in order, the subtotal, and a closing empty line |
| TgSend.MessageLines | backend/tgsend/index.py:67-94 | the message lines are the header lines, then the works and parts sections, then three footer lines, with nothing else in between |
| TgSend.MessageFrame | backend/tgsend/index.py:67-96 | the message has five header lines with the title first and three footer lines with the signature last; each section appears only when non-empty |
| TgSend.MessageGrandTotal | backend/tgsend/index.py:92 | the line after the sections is the grand total: works subtotal plus parts subtotal |
| TgSend.MessageWorksSection | backend/tgsend/index.py:72-79 | with works, the works heading follows the header and the works subtotal follows their lines |
| TgSend.MessageWorkLine | backend/tgsend/index.py:74-77 | work i sits on its own line, numbered i + 1 |
| TgSend.MessagePartsSection | backend/tgsend/index.py:82-90 | with parts, the parts heading follows the works section and the parts subtotal follows their lines |
| TgSend.MessagePartLine | backend/tgsend/index.py:84-88 | part i sits on its own line, numbered i + 1 |
| TgSend.OrderWorks | backend/tgsend/index.py:60-61 | the works sent are the order's own works in ascending id order |
| TgSend.OrderParts | backend/tgsend/index.py:62-63 | the parts sent are the order's own parts in ascending id order |
| TgSend.WorkChargesMatchClient | backend/tgsend/index.py:71-78 | the works subtotal on the message equals the works part of the front end's total for the same order |
| TgSend.PartChargesMatchClient | backend/tgsend/index.py:81-89 | the parts subtotal on the message equals the parts part of the front end's total |
| TgSend.GrandTotalMatchesClient | backend/tgsend/index.py:92 | the grand total sent to the customer equals `getTotal` of the order the listing shows |
| TgSend.AnswerResponse | backend/tgsend/index.py:103-115 | only an accepted message answers 200; every refusal or HTTP error is 400 |
| TgSend.Send | backend/tgsend/index.py:32-115 | a missing order id or a blank chat id gives 400, a missing token 500, and an unknown order 404, all with nothing sent. Otherwise exactly one message is sent: it goes to the stripped chat id, its text is the lines joined, and the bot's answer decides the response |
| TgSend.RouteRequest | backend/tgsend/index.py:34-38 | OPTIONS is the preflight, only POST sends, and anything else is 405 |
| WorkTypes.StatusConfigMatchesStatuses | src/components/work-orders/types.ts:42-47 | the status table has exactly the four statuses the back end accepts, each with its own caption |
| WorkTypes.GetTotal | src/components/work-orders/types.ts:49-53 | an order with no works and no parts totals 0 |
| WorkTypes.GetTotalIsSum | src/components/work-orders/types.ts:49-53 | the total is the sum of work prices plus the sum of part price times quantity |
| WorkTypes.WorkExtrasIgnored | src/components/work-orders/types.ts:50 | the total does not depend on a work's quantity, norm hours or discount, only on its price |
| WorkTypes.AddingPartAddsAmount | src/components/work-orders/types.ts:51 | appending a part adds exactly its price times quantity to the total |

## Left out

- Database and transport. The psycopg2 connection, cursors, SQL text and commit/close are left out. So are the CORS headers, the JSON envelope and request decoding: a request arrives already decoded, with absent fields as `None` and a falsy id as `0`. Each handler runs atomically and alone, with no concurrency.
- Database constraints. The SQL schema is not part of this model, so foreign keys are not enforced. A handler stores whatever id it is given, as the code passes ids to SQL unchecked. The ledger lemmas therefore assume as a precondition that links resolve.
- Money and quantities are integers. The source converts them with `float(...)`, and `price()` truncates with `int(n)`; floating-point rounding is not modelled.
- Timestamps. The `updated_at = NOW()` writes and the `strftime` date strings are left out. `issued_at` is an optional integer stamped from a clock parameter. `ORDER BY created_at DESC` is modelled as descending id order, which holds while ids and creation times grow together.
- The network.
  - The Avito token, account and chat/message fetches (`avito_api`, `get_avito_token`, `get_user_id`, `get_chats`, `get_messages`) become parameters: the token, the account id and the chat list.
  - Telegram's `urlopen` becomes the `answer` parameter, and the message the model would send is returned instead.
  - An Avito `HTTPError` in the middle of a sync, and the timeout, are left out.
- The phone pattern of `extract_phone_from_messages` is a hand-written matcher (`AvitoSync.MatchAt`) for `[\+]?[78][\s\-\(]?\d{3}[\s\-\)]?\d{3}[\s\-]?\d{2}[\s\-]?\d{2}`. Its `\s` is the whitespace `Text.IsSpace` accepts, as in Python. Its `\d` is the ASCII digits only, whereas Python's also matches the other Unicode decimal digits.
- Read-only summaries are left out:
  - `get_products` and its search, `get_suppliers`, `get_receipts` and `get_receipt_detail`;
  - `get_categories` and the dashboards;
  - `get_payments`, the cashbox list and `get_employees`;
  - the Avito GET statistics.
- Unhandled exceptions. These include a non-string field whose `.strip()` raises, and `json.loads` failures. They are answered as 500 by the runtime and are not modelled. The one exception kept is `delete_employee` deactivating an assigned but missing employee, which the model reports as 500.
- Points where the handlers do less than one might expect, modelled as the code does them:
  - `add_work` and `add_part` do not check that the work order exists.
  - `create_work_order` does not look up a linked product: the part is stored, and no stock moves for it when the product is missing.
  - `create_work_order` takes stock only for linked parts with `qty > 0`; a part with `qty <= 0` moves none (`WorkOrders.TakeStock`).
  - `update_work_order` stamps `issued_at` again every time status "issued" is set, not only the first time (`WorkOrders.UpdateWorkOrder`).
  - Work quantity plays no part in the totals: `getTotal` and the Telegram subtotal add work prices only (`WorkTypes.WorkExtrasIgnored`, `TgSend.WorkChargesMatchClient`).
- For eleven digits that start with a digit other than 7 or 8, `normalize_phone` still prints them, dropping the first digit ("12345678901" becomes "+7 (234) 567-89-01"). The model follows the code; `AvitoSync.NormalizeOtherLeadingDigit` pins the example.
- Text.Upper: Python's `str.upper()` covers every script and can lengthen a string ('ß' becomes "SS"). The model maps only a–z, the Latin-1 letters à–þ and the Cyrillic а–я and ѐ–џ, one character for one. Other lower-case letters, among them ß, ÿ, µ and Greek, are kept as they are, because the full Unicode case table is not part of this model.
- Clients.NormalVin: inherits that restriction. A VIN holding ß or another unmapped letter is stored with that letter, where Python stores its capital form.
- Clients.AddCar: the VIN length check follows `NormalVin`. For a VIN holding ß the decision can therefore differ from Python's: 16 characters with one ß are 17 after Python's `upper()` and accepted, but are refused here.
- Warehouse.UpdateProductKeepsSkusUnique: `update_product` does not re-check that a new sku is free. The lemma therefore has to require it, and without that requirement the update can store a duplicate sku.
- Ledger.StepConserves: the ledger is stated only for admissible steps. These are steps whose links resolve, with non-negative quantities on create's linked parts and no `quantity` written through `update_product`. Outside those, the code does break the ledger.
- TgSend.OrderWorks: stated index by index against the order's child ids rather than as one sequence equality, and TgSend.OrderParts likewise.
- Tgsend's `chat_id` field: a present but non-string `telegram_id` makes `.strip()` raise, giving 500. The model reads a missing one as blank and answers 400, as the code does for an absent key.

=== FILE: avitosync.dfy ===
/** Turning Avito chats into customer requests (backend/avito-sync/index.py).
    Each chat not yet in the synced-chat ledger becomes one request with source
    "avito": the phone is the first Russian mobile number found in the chat's
    messages, normalised to "+7 (XXX) XXX-XX-XX", and the comment is the last
    message in list order from the other party followed by a chat tag. The chats and their
    messages, fetched over the network by the handler, arrive here as data. */
module AvitoSync {
  import opened Tables
  import opened Text
  import opened Http
  import opened Store
  import Orders

  // ------------------------------------------------------------ phone format

  /** `re.sub(r'\D', '', s)`: the digits of `s`, in order. */
  function OnlyDigits(s: string): (r: string)
    ensures AllDigits(r) && |r| <= |s|
  {
    if |s| == 0 then "" else (if IsDigit(s[0]) then [s[0]] else "") + OnlyDigits(s[1..])
  }

  lemma {:induction false} OnlyDigitsAppend(a: string, b: string)
    ensures OnlyDigits(a + b) == OnlyDigits(a) + OnlyDigits(b)
  {
    if |a| == 0 {
      assert a + b == b;
    } else {
      assert (a + b)[1..] == a[1..] + b;
      OnlyDigitsAppend(a[1..], b);
    }
  }

  /** A string of digits is its own digits. */
  lemma {:induction false} OnlyDigitsOfDigits(s: string)
    requires AllDigits(s)
    ensures OnlyDigits(s) == s
  {
    if |s| > 0 {
      OnlyDigitsOfDigits(s[1..]);
      assert [s[0]] + s[1..] == s;
    }
  }

  /** A string without digits has none to keep. */
  lemma {:induction false} OnlyDigitsOfNone(s: string)
    requires forall i :: 0 <= i < |s| ==> !IsDigit(s[i])
    ensures OnlyDigits(s) == ""
  {
    if |s| > 0 {
      OnlyDigitsOfNone(s[1..]);
    }
  }

  lemma OnlyDigitsSplit(t: string, x: nat, y: nat, z: nat)
    requires x <= y <= z <= |t|
    ensures OnlyDigits(t[x..z]) == OnlyDigits(t[x..y]) + OnlyDigits(t[y..z])
  {
    assert t[x..z] == t[x..y] + t[y..z];
    OnlyDigitsAppend(t[x..y], t[y..z]);
  }

  /** A run of non-digits followed by a run of digits keeps just the digits. */
  lemma DigitsAfterGap(t: string, x: nat, y: nat, z: nat)
    requires x <= y <= z <= |t|
    requires forall i :: x <= i < y ==> !IsDigit(t[i])
    requires AllDigits(t[y..z])
    ensures OnlyDigits(t[x..z]) == t[y..z]
  {
    OnlyDigitsSplit(t, x, y, z);
    OnlyDigitsOfNone(t[x..y]);
    OnlyDigitsOfDigits(t[y..z]);
  }

  /** Trimming removes only whitespace, so it keeps every digit. */
  lemma StripKeepsDigits(s: string)
    ensures OnlyDigits(Strip(s)) == OnlyDigits(s)
  {
    var r := Strip(s);
    var a := Leading(s);
    var b := a + |r|;
    assert s == s[..a] + r + s[b..];
    SpacesHaveNoDigits(s[..a]);
    SpacesHaveNoDigits(s[b..]);
    OnlyDigitsAppend(s[..a] + r, s[b..]);
    OnlyDigitsAppend(s[..a], r);
  }

  lemma SpacesHaveNoDigits(s: string)
    requires AllSpace(s)
    ensures OnlyDigits(s) == ""
  {
    OnlyDigitsOfNone(s);
  }

  /** The eleven digits a number is printed from: a leading 8 becomes 7, and a
      ten-digit number gets a 7 in front. Anything else is left as it is. */
  function CanonicalDigits(digits: string): string {
    if |digits| == 11 && (digits[0] == '7' || digits[0] == '8') then "7" + digits[1..]
    else if |digits| == 10 then "7" + digits
    else digits
  }

  /** "+7 (XXX) XXX-XX-XX" from the last ten of eleven digits. */
  function FormatPhone(d: string): string
    requires |d| == 11
  {
    "+7 (" + d[1..4] + ") " + d[4..7] + "-" + d[7..9] + "-" + d[9..11]
  }

  /** A printed number is eighteen characters long, laid out as "+7 (XXX) XXX-XX-XX". */
  lemma FormatPhoneShape(d: string)
    requires |d| == 11
    ensures var r := FormatPhone(d);
      && |r| == 18 && r[..4] == "+7 (" && r[7..9] == ") " && r[12] == '-' && r[15] == '-'
      && r[4..7] == d[1..4] && r[9..12] == d[4..7] && r[13..15] == d[7..9] && r[16..18] == d[9..11]
  {
  }

  /** The digits of a printed number are 7 followed by the last ten digits it was printed from. */
  lemma FormatPhoneDigits(d: string)
    requires |d| == 11 && AllDigits(d)
    ensures OnlyDigits(FormatPhone(d)) == "7" + d[1..]
  {
    var r := FormatPhone(d);
    FormatPhoneShape(d);
    PrintedDigitGroups(r);
    assert d[1..] == d[1..4] + d[4..7] + d[7..9] + d[9..11];
  }

  lemma PrintedDigitGroups(r: string)
    requires |r| == 18 && r[..4] == "+7 (" && r[7..9] == ") " && r[12] == '-' && r[15] == '-'
    requires AllDigits(r[4..7]) && AllDigits(r[9..12]) && AllDigits(r[13..15]) && AllDigits(r[16..18])
    ensures OnlyDigits(r) == "7" + r[4..7] + r[9..12] + r[13..15] + r[16..18]
  {
    PrintedAreaCode(r);
    PrintedSubscriber(r);
    OnlyDigitsSplit(r, 0, 7, 18);
    assert r[0..18] == r;
  }

  lemma PrintedAreaCode(r: string)
    requires |r| == 18 && r[..4] == "+7 (" && AllDigits(r[4..7])
    ensures OnlyDigits(r[0..7]) == "7" + r[4..7]
  {
    assert r[0] == '+' && r[1] == '7' && r[2] == ' ' && r[3] == '(';
    DigitsAfterGap(r, 0, 1, 2);
    DigitsAfterGap(r, 2, 4, 7);
    OnlyDigitsSplit(r, 0, 2, 7);
  }

  lemma PrintedSubscriber(r: string)
    requires |r| == 18 && r[7..9] == ") " && r[12] == '-' && r[15] == '-'
    requires AllDigits(r[9..12]) && AllDigits(r[13..15]) && AllDigits(r[16..18])
    ensures OnlyDigits(r[7..18]) == r[9..12] + r[13..15] + r[16..18]
  {
    assert r[7] == ')' && r[8] == ' ';
    DigitsAfterGap(r, 7, 9, 12);
    DigitsAfterGap(r, 12, 13, 15);
    DigitsAfterGap(r, 15, 16, 18);
    OnlyDigitsSplit(r, 7, 12, 18);
    OnlyDigitsSplit(r, 12, 15, 18);
  }

  /** Printing ignores the first of the eleven digits. */
  lemma FormatPhoneIgnoresFirst(d: string, d': string)
    requires |d| == 11 && |d'| == 11 && d[1..] == d'[1..]
    ensures FormatPhone(d) == FormatPhone(d')
  {
    SameTailSlice(d, d', 1, 4);
    SameTailSlice(d, d', 4, 7);
    SameTailSlice(d, d', 7, 9);
    SameTailSlice(d, d', 9, 11);
  }

  lemma SameTailSlice(d: string, d': string, i: nat, j: nat)
    requires |d| == |d'| && 1 <= i <= j <= |d| && d[1..] == d'[1..]
    ensures d[i..j] == d'[i..j]
  {
    forall k | i <= k < j
      ensures d[k] == d'[k]
    {
      assert d[k] == d[1..][k - 1];
    }
  }

  /** `normalize_phone`: a number with ten digits, or eleven, is printed as
      "+7 (XXX) XXX-XX-XX" from its last ten digits; anything else comes back trimmed. */
  function NormalizePhone(phone: string): (r: string)
    ensures var n := |OnlyDigits(phone)|;
      (n == 10 || n == 11) ==>
        && |r| == 18 && r[..4] == "+7 (" && r[7..9] == ") " && r[12] == '-' && r[15] == '-'
        && OnlyDigits(r) == "7" + OnlyDigits(phone)[n - 10..]
    ensures var n := |OnlyDigits(phone)|;
      n != 10 && n != 11 ==> r == Strip(phone)
  {
    var digits := OnlyDigits(phone);
    var d := CanonicalDigits(digits);
    if |d| != 11 then Strip(phone)
    else
      assert AllDigits(d) && d[1..] == digits[|digits| - 10..];
      FormatPhoneShape(d);
      FormatPhoneDigits(d);
      FormatPhone(d)
  }

  /** Normalising a normalised number changes nothing. */
  lemma NormalizeIdempotent(phone: string)
    ensures NormalizePhone(NormalizePhone(phone)) == NormalizePhone(phone)
  {
    var digits := OnlyDigits(phone);
    var r := NormalizePhone(phone);
    if |digits| == 10 || |digits| == 11 {
      var d := CanonicalDigits(digits);
      assert |d| == 11 && AllDigits(d);
      assert r == FormatPhone(d);
      FormatPhoneDigits(d);
      var d' := OnlyDigits(r);
      assert d'[1..] == d[1..];
      assert CanonicalDigits(d') == d';
      FormatPhoneIgnoresFirst(d, d');
    } else {
      StripKeepsDigits(phone);
      StripIdempotent(phone);
    }
  }

  /** The worked case of a number written with a leading 8. */
  lemma NormalizeLeadingEight()
    ensures NormalizePhone("89261234567") == "+7 (926) 123-45-67"
  {
    DigitsOfLeadingEight("89261234567");
    PrintedLeadingEight();
  }

  lemma DigitsOfLeadingEight(p: string)
    requires p == "89261234567"
    ensures CanonicalDigits(OnlyDigits(p)) == "79261234567"
  {
    assert AllDigits(p) && |p| == 11 && p[0] == '8';
    TrunkPrefixReplaced(p);
    assert p[1..] == "9261234567";
  }

  /** An eleven-digit number starting with the trunk prefix 8 is read with a 7 instead. */
  lemma TrunkPrefixReplaced(p: string)
    requires |p| == 11 && AllDigits(p) && p[0] == '8'
    ensures CanonicalDigits(OnlyDigits(p)) == "7" + p[1..]
  {
    OnlyDigitsOfDigits(p);
  }

  lemma PrintedLeadingEight()
    ensures FormatPhone("79261234567") == "+7 (926) 123-45-67"
  {
  }

  /** Any eleven digits are printed, whatever the first one is: a leading 1 is
      dropped just as a leading 8 is. The sync only normalises numbers the phone
      pattern found, whose first digit is always 7 or 8. */
  lemma NormalizeOtherLeadingDigit()
    ensures NormalizePhone("12345678901") == "+7 (234) 567-89-01"
  {
    DigitsOfOtherLeadingDigit();
    PrintedOtherLeadingDigit();
  }

  lemma DigitsOfOtherLeadingDigit()
    ensures CanonicalDigits(OnlyDigits("12345678901")) == "12345678901"
  {
    var p := "12345678901";
    assert AllDigits(p) && |p| == 11 && p[0] == '1';
    OnlyDigitsOfDigits(p);
  }

  lemma PrintedOtherLeadingDigit()
    ensures FormatPhone("12345678901") == "+7 (234) 567-89-01"
  {
  }

  /** The worked case of text without digits: it comes back as it was. */
  lemma NormalizeNotAPhone()
    ensures NormalizePhone("notaphone") == "notaphone"
  {
    OnlyDigitsOfNone("notaphone");
    LeadingOfStripped("notaphone");
    assert "notaphone"[0..9] == "notaphone";
  }

  // ----------------------------------------------------------- phone search

  /** What the pattern lets stand between digit groups: whitespace, a dash, or
      the one bracket that class allows. */
  predicate IsGap(c: char, bracket: char) {
    IsSpace(c) || c == '-' || c == bracket
  }

  /** An optional gap character at `j`: the position after it. */
  function Gap(t: string, j: nat, bracket: char): (k: nat)
    requires j <= |t| && !IsDigit(bracket)
    ensures k <= |t|
    ensures forall i :: j <= i < k ==> !IsDigit(t[i])
  {
    if j < |t| && IsGap(t[j], bracket) then j + 1 else j
  }

  predicate DigitsAt(t: string, j: nat, n: nat) {
    j + n <= |t| && AllDigits(t[j..j + n])
  }

  /** `[\+]?[78]` at `i`: the position after the 7 or 8, if it is there. */
  function CountryCode(t: string, i: nat): (r: Option<nat>)
    requires i <= |t|
    ensures r.Some? ==>
      && i < r.value <= |t| && (t[r.value - 1] == '7' || t[r.value - 1] == '8')
      && OnlyDigits(t[i..r.value]) == [t[r.value - 1]]
  {
    var a := if i < |t| && t[i] == '+' then i + 1 else i;
    if a < |t| && (t[a] == '7' || t[a] == '8') then
      DigitsAfterGap(t, i, a, a + 1);
      Some(a + 1)
    else None
  }

  /** An optional gap character followed by exactly `n` digits, starting at `j`:
      the position after the digits, if they are there. */
  function GapThenDigits(t: string, j: nat, bracket: char, n: nat): (r: Option<nat>)
    requires j <= |t| && !IsDigit(bracket)
    ensures r.Some? ==> j + n <= r.value <= |t| && OnlyDigits(t[j..r.value]) == t[r.value - n..r.value]
    ensures r.Some? ==> AllDigits(t[r.value - n..r.value])
    ensures r.Some? ==> forall k :: r.value - n <= k < r.value ==> IsDigit(t[k])
  {
    var k := Gap(t, j, bracket);
    if DigitsAt(t, k, n) then
      DigitsAfterGap(t, j, k, k + n);
      Some(k + n)
    else None
  }

  /** Where the phone pattern, anchored at `i`, ends: an optional "+", a 7 or 8,
      then groups of 3, 3, 2 and 2 digits, each preceded by an optional gap (the
      first may be "(", the second ")"). Every optional part is a non-digit in
      front of a digit, so the match at `i` is unique when it exists. */
  function MatchAt(t: string, i: nat): (r: Option<nat>)
    requires i <= |t|
    ensures r.Some? ==> i + 11 <= r.value <= |t|
    ensures r.Some? ==> t[i] == '+' || t[i] == '7' || t[i] == '8'
    ensures r.Some? ==> IsDigit(t[r.value - 1]) && IsDigit(t[r.value - 2])
  {
    match CountryCode(t, i)
    case None => None
    case Some(a) =>
      match GapThenDigits(t, a, '(', 3)
      case None => None
      case Some(b) =>
        match GapThenDigits(t, b, ')', 3)
        case None => None
        case Some(c) =>
          match GapThenDigits(t, c, '-', 2)
          case None => None
          case Some(d) =>
            GapThenDigits(t, d, '-', 2)
  }

  /** A matched number holds exactly eleven digits, the first a 7 or an 8. */
  lemma MatchHasElevenDigits(t: string, i: nat)
    requires i <= |t| && MatchAt(t, i).Some?
    ensures var m := OnlyDigits(t[i..MatchAt(t, i).value]);
      |m| == 11 && (m[0] == '7' || m[0] == '8')
  {
    var a := CountryCode(t, i).value;
    var b := GapThenDigits(t, a, '(', 3).value;
    var c := GapThenDigits(t, b, ')', 3).value;
    var d := GapThenDigits(t, c, '-', 2).value;
    var e := GapThenDigits(t, d, '-', 2).value;
    assert MatchAt(t, i).value == e;
    OnlyDigitsSplit(t, i, a, e);
    OnlyDigitsSplit(t, a, b, e);
    OnlyDigitsSplit(t, b, c, e);
    OnlyDigitsSplit(t, c, d, e);
  }

  /** `re.search`: the leftmost position from `i` on where the pattern matches, with
      the end of that match. */
  function SearchFrom(t: string, i: nat): (r: Option<(nat, nat)>)
    requires i <= |t|
    decreases |t| - i
    ensures r.Some? ==> i <= r.value.0 <= |t| && MatchAt(t, r.value.0) == Some(r.value.1)
    ensures r.Some? ==> forall j :: i <= j < r.value.0 ==> MatchAt(t, j).None?
    ensures r.None? ==> forall j :: i <= j <= |t| ==> MatchAt(t, j).None?
  {
    match MatchAt(t, i)
    case Some(e) => Some((i, e))
    case None =>
      if i == |t| then None
      else
        var rest := SearchFrom(t, i + 1);
        NoMatchExtends(t, i, rest);
        rest
  }

  /** No match at `i` and none between `i + 1` and where the search from `i + 1`
      stopped means none between `i` and there. */
  lemma NoMatchExtends(t: string, i: nat, rest: Option<(nat, nat)>)
    requires i < |t| && MatchAt(t, i).None?
    requires rest.Some? ==> i + 1 <= rest.value.0 <= |t| && forall j :: i + 1 <= j < rest.value.0 ==> MatchAt(t, j).None?
    ensures rest.Some? ==> forall j :: i <= j < rest.value.0 ==> MatchAt(t, j).None?
  {
  }

  /** The first phone number written in `text`, or "" when there is none. */
  function FindPhone(text: string): (r: string)
    ensures r == "" <==> forall j :: 0 <= j <= |text| ==> MatchAt(text, j).None?
    ensures r != "" ==> exists j :: 0 <= j <= |text| && MatchAt(text, j).Some? && r == text[j..MatchAt(text, j).value]
  {
    match SearchFrom(text, 0)
    case Some((j, e)) => text[j..e]
    case None => ""
  }

  /** A found number has eleven digits, the first a 7 or 8, and is printed in the
      "+7 (XXX) XXX-XX-XX" form from the other ten. */
  lemma FoundPhoneNormalizes(text: string)
    requires FindPhone(text) != ""
    ensures var m := OnlyDigits(FindPhone(text));
      var p := NormalizePhone(FindPhone(text));
      && |m| == 11 && (m[0] == '7' || m[0] == '8')
      && |p| == 18 && p[..4] == "+7 (" && OnlyDigits(p) == "7" + m[1..]
  {
    var m := FindPhone(text);
    var (j, e) := SearchFrom(text, 0).value;
    assert m == text[j..e] && MatchAt(text, j) == Some(e);
    MatchHasElevenDigits(text, j);
    ElevenDigitsPrinted(m);
  }

  lemma ElevenDigitsPrinted(m: string)
    requires |OnlyDigits(m)| == 11
    ensures var p := NormalizePhone(m);
      |p| == 18 && p[..4] == "+7 (" && OnlyDigits(p) == "7" + OnlyDigits(m)[1..]
  {
    var n := |OnlyDigits(m)|;
    assert n - 10 == 1;
  }

  // ---------------------------------------------------------------- messages

  /** A chat message: its id, who wrote it, and its text ("" when it has none). */
  datatype Message = Message(id: string, authorId: string, text: string)

  /** `extract_phone_from_messages`: the first number found, taking the messages in
      order, or "" when none holds one. */
  function ExtractPhone(ms: seq<Message>): (r: string)
    ensures r == "" <==> forall j :: 0 <= j < |ms| ==> FindPhone(ms[j].text) == ""
    ensures r != "" ==>
      exists j :: 0 <= j < |ms| && r == FindPhone(ms[j].text) && forall l :: 0 <= l < j ==> FindPhone(ms[l].text) == ""
  {
    var i := FirstIndex(ms, (m: Message) => FindPhone(m.text) != "");
    if i == |ms| then "" else FindPhone(ms[i].text)
  }

  /** `extract_first_user_message`: the text of the last message, in list order, not
      written by the account itself, cut to 500 characters, or "" when every message is the
      account's own. */
  function FirstUserMessage(ms: seq<Message>, userId: string): (r: string)
    ensures |r| <= 500
    ensures (forall j :: 0 <= j < |ms| ==> ms[j].authorId == userId) ==> r == ""
    ensures forall j :: 0 <= j < |ms| && ms[j].authorId != userId && (forall l :: j < l < |ms| ==> ms[l].authorId == userId) ==>
      r == Take(ms[j].text, 500)
  {
    if |ms| == 0 then ""
    else if ms[|ms| - 1].authorId != userId then Take(ms[|ms| - 1].text, 500)
    else
      var init := ms[..|ms| - 1];
      assert forall j :: 0 <= j < |init| ==> init[j] == ms[j];
      FirstUserMessage(init, userId)
  }

  // ------------------------------------------------------------------- chats

  /** A chat participant: their id and display name, if the API sent one. */
  datatype ChatUser = ChatUser(id: string, name: Option<string>)

  /** A chat as listed, with the messages fetched for it. `id` is "" when absent. */
  datatype Chat = Chat(id: string, title: string, users: seq<ChatUser>, messages: seq<Message>)

  const DefaultClientName := "Клиент Авито"
  const DefaultService := "Запрос с Авито"

  /** The first participant other than the account itself, as (name, id); the
      default name and "" when there is none. */
  function Counterpart(users: seq<ChatUser>, userId: string): (r: (string, string))
    ensures (forall j :: 0 <= j < |users| ==> users[j].id == userId) ==> r == (DefaultClientName, "")
    ensures forall j :: 0 <= j < |users| && users[j].id != userId && (forall l :: 0 <= l < j ==> users[l].id == userId) ==>
      r == (users[j].name.GetOr(DefaultClientName), users[j].id)
  {
    var i := FirstIndex(users, (u: ChatUser) => u.id != userId);
    if i == |users| then (DefaultClientName, "") else (users[i].name.GetOr(DefaultClientName), users[i].id)
  }

  /** The request's comment: the other party's message, if any, then the chat tag
      on a line of its own. */
  function ChatComment(first: string, chatId: string): (r: string)
    ensures first == "" ==> r == "[Авито чат #" + chatId + "]"
    ensures first != "" ==> r == first + "\n" + "[Авито чат #" + chatId + "]"
  {
    var tag := "[Авито чат #" + chatId + "]";
    var parts := (if first != "" then [first] else []) + [tag];
    assert first != "" ==> parts == [first, tag] && parts[1..] == [tag];
    assert first == "" ==> parts == [tag];
    assert first != "" ==> Join(parts, "\n") == first + "\n" + Join([tag], "\n");
    Join(parts, "\n")
  }

  /** The request a new chat becomes. */
  function ChatOrder(chat: Chat, userId: string): (o: Order)
    ensures o.status == "new" && o.source == Some("avito") && o.clientId == 0 && o.carInfo == ""
    ensures o.clientName == Counterpart(chat.users, userId).0
    ensures o.service == if chat.title != "" then chat.title else DefaultService
    ensures o.phone == "" || (|o.phone| == 18 && o.phone[..4] == "+7 (")
    ensures o.phone == "" <==> ExtractPhone(chat.messages) == ""
    ensures ExtractPhone(chat.messages) != "" ==> o.phone == NormalizePhone(ExtractPhone(chat.messages))
    ensures o.comment == ChatComment(FirstUserMessage(chat.messages, userId), chat.id)
  {
    var phone := ExtractPhone(chat.messages);
    var stored := if phone != "" then NormalizePhone(phone) else "";
    assert phone != "" ==> |stored| == 18 && stored[..4] == "+7 (" by {
      if phone != "" {
        var j :| 0 <= j < |chat.messages| && phone == FindPhone(chat.messages[j].text);
        FoundPhoneNormalizes(chat.messages[j].text);
      }
    }
    Order(
      0, Counterpart(chat.users, userId).0, stored, "",
      if chat.title != "" then chat.title else DefaultService, "new",
      ChatComment(FirstUserMessage(chat.messages, userId), chat.id), Some("avito"))
  }

  /** The ledger row a new chat leaves: the first message's id, or "" without messages. */
  function LedgerRow(chat: Chat, userId: string, orderId: nat): (row: SyncedChat)
    ensures row.chatId == chat.id && row.orderId == orderId
    ensures row.avitoUserId == Counterpart(chat.users, userId).1
    ensures chat.messages != [] ==> row.lastMessageId == chat.messages[0].id
    ensures chat.messages == [] ==> row.lastMessageId == ""
  {
    SyncedChat(chat.id, Counterpart(chat.users, userId).1, orderId,
      if |chat.messages| > 0 then chat.messages[0].id else "")
  }

  /** The chat is already in the synced-chat ledger. */
  predicate Synced(s: Store, chatId: string) {
    exists k :: k in s.syncedChats.rows && s.syncedChats.rows[k].chatId == chatId
  }

  datatype Outcome = NoId | AlreadySynced | Created

  /** One pass of the loop: a chat without an id is passed over, a synced one is
      counted as skipped, and a new one becomes a request plus a ledger row. */
  function SyncChat(s: Store, userId: string, chat: Chat): (r: (Store, Outcome))
    requires s.Valid()
    ensures r.0.Valid()
    ensures r.1.NoId? <==> chat.id == ""
    ensures r.1.AlreadySynced? <==> chat.id != "" && Synced(s, chat.id)
    ensures !r.1.Created? ==> r.0 == s
    ensures r.1.Created? ==>
      && r.0 == s.(orders := r.0.orders, syncedChats := r.0.syncedChats)
      && r.0.orders.next == s.orders.next + 1 && r.0.syncedChats.next == s.syncedChats.next + 1
      && r.0.orders.rows == s.orders.rows[s.orders.next := ChatOrder(chat, userId)]
      && r.0.syncedChats.rows == s.syncedChats.rows[s.syncedChats.next := LedgerRow(chat, userId, s.orders.next)]
      && Synced(r.0, chat.id)
  {
    if chat.id == "" then (s, NoId)
    else if Synced(s, chat.id) then (s, AlreadySynced)
    else
      var (orders, orderId) := s.orders.Insert(ChatOrder(chat, userId));
      var (ledger, k) := s.syncedChats.Insert(LedgerRow(chat, userId, orderId));
      var s2 := s.(orders := orders, syncedChats := ledger);
      assert s2.syncedChats.rows[k].chatId == chat.id;
      (s2, Created)
  }

  /** What a run over the chats leaves behind and reports. */
  datatype SyncRun = SyncRun(store: Store, created: nat, skipped: nat)

  /** `sync_chats`: every chat in order, each seeing the ledger rows the earlier ones added. */
  function SyncChats(s: Store, userId: string, chats: seq<Chat>): (r: SyncRun)
    requires s.Valid()
    decreases |chats|
    ensures r.store.Valid()
    ensures r.created + r.skipped <= |chats|
    ensures r.store == s.(orders := r.store.orders, syncedChats := r.store.syncedChats)
    ensures r.store.orders.next == s.orders.next + r.created
    ensures r.store.syncedChats.next == s.syncedChats.next + r.created
  {
    if |chats| == 0 then SyncRun(s, 0, 0)
    else
      var (s1, o) := SyncChat(s, userId, chats[0]);
      var rest := SyncChats(s1, userId, chats[1..]);
      SyncRun(rest.store, rest.created + (if o.Created? then 1 else 0), rest.skipped + (if o.AlreadySynced? then 1 else 0))
  }

  /** A run only adds rows: the requests and ledger rows already there stay as they were. */
  lemma {:induction false} SyncKeepsRows(s: Store, userId: string, chats: seq<Chat>)
    requires s.Valid()
    decreases |chats|
    ensures var r := SyncChats(s, userId, chats).store;
      && (forall k :: k in s.orders.rows ==> k in r.orders.rows && r.orders.rows[k] == s.orders.rows[k])
      && (forall k :: k in s.syncedChats.rows ==> k in r.syncedChats.rows && r.syncedChats.rows[k] == s.syncedChats.rows[k])
  {
    if |chats| > 0 {
      var s1 := SyncChat(s, userId, chats[0]).0;
      assert SyncChats(s, userId, chats).store == SyncChats(s1, userId, chats[1..]).store;
      SyncChatKeepsRows(s, userId, chats[0]);
      SyncKeepsRows(s1, userId, chats[1..]);
    }
  }

  /** One chat's pass only adds rows. */
  lemma SyncChatKeepsRows(s: Store, userId: string, chat: Chat)
    requires s.Valid()
    ensures var r := SyncChat(s, userId, chat).0;
      && (forall k :: k in s.orders.rows ==> k in r.orders.rows && r.orders.rows[k] == s.orders.rows[k])
      && (forall k :: k in s.syncedChats.rows ==> k in r.syncedChats.rows && r.syncedChats.rows[k] == s.syncedChats.rows[k])
  {
  }

  /** After a run every chat that has an id is in the ledger. */
  lemma {:induction false} SyncMarksChats(s: Store, userId: string, chats: seq<Chat>)
    requires s.Valid()
    decreases |chats|
    ensures var r := SyncChats(s, userId, chats).store;
      forall j :: 0 <= j < |chats| && chats[j].id != "" ==> Synced(r, chats[j].id)
  {
    if |chats| > 0 {
      var s1 := SyncChat(s, userId, chats[0]).0;
      var r := SyncChats(s, userId, chats).store;
      assert r == SyncChats(s1, userId, chats[1..]).store;
      SyncMarksChats(s1, userId, chats[1..]);
      if chats[0].id != "" {
        SyncKeepsRows(s1, userId, chats[1..]);
        StillSynced(s1, r, chats[0].id);
      }
      forall j | 1 <= j < |chats| && chats[j].id != "" ensures Synced(r, chats[j].id) {
        assert chats[1..][j - 1] == chats[j];
      }
    }
  }

  /** A chat in the ledger stays there when the ledger only grows. */
  lemma StillSynced(s: Store, r: Store, chatId: string)
    requires Synced(s, chatId)
    requires forall k :: k in s.syncedChats.rows ==> k in r.syncedChats.rows && r.syncedChats.rows[k] == s.syncedChats.rows[k]
    ensures Synced(r, chatId)
  {
    var k :| k in s.syncedChats.rows && s.syncedChats.rows[k].chatId == chatId;
    assert r.syncedChats.rows[k].chatId == chatId;
  }

  /** The requests a run adds are exactly the ids it handed out, each "new" and from Avito. */
  lemma {:induction false} SyncAddsRequests(s: Store, userId: string, chats: seq<Chat>)
    requires s.Valid()
    decreases |chats|
    ensures var r := SyncChats(s, userId, chats);
      && (forall k :: k in r.store.orders.rows <==>
            k in s.orders.rows || s.orders.next <= k < s.orders.next + r.created)
      && (forall k :: k in r.store.orders.rows && k !in s.orders.rows ==>
            r.store.orders.rows[k].status == "new" && r.store.orders.rows[k].source == Some("avito"))
  {
    if |chats| > 0 {
      var s1 := SyncChat(s, userId, chats[0]).0;
      assert SyncChats(s, userId, chats).store == SyncChats(s1, userId, chats[1..]).store;
      SyncAddsRequests(s1, userId, chats[1..]);
      SyncKeepsRows(s1, userId, chats[1..]);
    }
  }

  /** Over chats that are all without an id or already synced, a run changes nothing
      and creates no request. */
  lemma {:induction false} SyncOfSyncedIsNoop(s: Store, userId: string, chats: seq<Chat>)
    requires s.Valid()
    requires forall j :: 0 <= j < |chats| && chats[j].id != "" ==> Synced(s, chats[j].id)
    decreases |chats|
    ensures SyncChats(s, userId, chats).store == s && SyncChats(s, userId, chats).created == 0
  {
    if |chats| > 0 {
      assert forall j :: 1 <= j < |chats| ==> chats[1..][j - 1] == chats[j];
      SyncOfSyncedIsNoop(s, userId, chats[1..]);
    }
  }

  /** Running the sync a second time over the same chats creates nothing and leaves
      the store as the first run left it. */
  lemma SyncIdempotent(s: Store, userId: string, chats: seq<Chat>)
    requires s.Valid()
    ensures var r := SyncChats(s, userId, chats);
      SyncChats(r.store, userId, chats).store == r.store && SyncChats(r.store, userId, chats).created == 0
  {
    var r := SyncChats(s, userId, chats);
    SyncMarksChats(s, userId, chats);
    SyncOfSyncedIsNoop(r.store, userId, chats);
  }

  /** The same chat listed twice yields at most one request. */
  lemma DuplicateChatCreatesOnce(s: Store, userId: string, chat: Chat)
    requires s.Valid()
    ensures var r := SyncChats(s, userId, [chat, chat]);
      && r.created == (if chat.id != "" && !Synced(s, chat.id) then 1 else 0)
      && r.skipped == (if chat.id == "" then 0 else if Synced(s, chat.id) then 2 else 1)
  {
    var (s1, o) := SyncChat(s, userId, chat);
    assert [chat, chat][1..] == [chat];
    assert [chat][1..] == [];
  }

  /** A run keeps every stored request in one of the four statuses. */
  lemma SyncKeepsStatusesValid(s: Store, userId: string, chats: seq<Chat>)
    requires s.Valid() && Orders.StatusesValid(s)
    ensures Orders.StatusesValid(SyncChats(s, userId, chats).store)
  {
    SyncKeepsRows(s, userId, chats);
    SyncAddsRequests(s, userId, chats);
    assert "new" in Orders.OrderStatuses;
  }

  /** Every ledger row names a stored request. */
  ghost predicate LedgerResolves(s: Store) {
    forall k :: k in s.syncedChats.rows ==> s.syncedChats.rows[k].orderId in s.orders.rows
  }

  lemma {:induction false} SyncKeepsLedgerResolves(s: Store, userId: string, chats: seq<Chat>)
    requires s.Valid() && LedgerResolves(s)
    decreases |chats|
    ensures LedgerResolves(SyncChats(s, userId, chats).store)
  {
    if |chats| > 0 {
      var (s1, o) := SyncChat(s, userId, chats[0]);
      SyncKeepsLedgerResolves(s1, userId, chats[1..]);
    }
  }

  // ----------------------------------------------------------------- handler

  datatype SyncSummary = SyncSummary(created: nat, skipped: nat, message: string)

  const NoTokenMessage := "Не удалось получить токен Авито. Проверьте ключи AVITO_CLIENT_ID и AVITO_CLIENT_SECRET."
  const NoAccountMessage := "Не удалось определить ID аккаунта Авито"

  function SummaryMessage(created: nat, skipped: nat): string {
    "Создано " + Decimal(created) + " новых заявок, " + Decimal(skipped) + " чатов уже были обработаны"
  }

  /** POST: without a token or an account id nothing is synced and 400 comes back;
      otherwise the chats are synced and the counts reported. `token` is the access
      token the credentials yielded, `userId` the account id, and `chats` what the
      chat listing returned. */
  function HandleSync(s: Store, token: Option<string>, userId: string, chats: seq<Chat>): (r: Reply<SyncSummary>)
    requires s.Valid()
    ensures r.store.Valid()
    ensures token.GetOr("") == "" ==> r.store == s && r.response == Fail(BAD_REQUEST, NoTokenMessage)
    ensures token.GetOr("") != "" && userId == "" ==> r.store == s && r.response == Fail(BAD_REQUEST, NoAccountMessage)
    ensures r.response.Ok? <==> token.GetOr("") != "" && userId != ""
    ensures r.response.Ok? ==>
      var run := SyncChats(s, userId, chats);
      && r.response.status == OK && r.store == run.store
      && r.response.body == SyncSummary(run.created, run.skipped, SummaryMessage(run.created, run.skipped))
      && run.created + run.skipped <= |chats|
  {
    if token.GetOr("") == "" then Reject(s, BAD_REQUEST, NoTokenMessage)
    else if userId == "" then Reject(s, BAD_REQUEST, NoAccountMessage)
    else
      var run := SyncChats(s, userId, chats);
      Reply(run.store, Ok(OK, SyncSummary(run.created, run.skipped, SummaryMessage(run.created, run.skipped))))
  }

  datatype Action = SyncAction

  /** OPTIONS is the preflight, POST syncs, GET reads the ledger summary, and any
      other method is refused. */
  function RouteRequest(httpMethod: Option<string>): (r: Route<Action>)
    ensures httpMethod == Some("OPTIONS") <==> r.Preflight?
    ensures r.Query? <==> MethodOf(httpMethod) == "GET"
    ensures r.Invoke? <==> MethodOf(httpMethod) == "POST"
    ensures r.NotAllowed? <==> !(MethodOf(httpMethod) in ["OPTIONS", "GET", "POST"])
  {
    if httpMethod == Some("OPTIONS") then Preflight
    else
      var m := MethodOf(httpMethod);
      if m == "POST" then Invoke(SyncAction)
      else if m == "GET" then Query
      else NotAllowed
  }
}

=== FILE: clients.dfy ===
/** Clients and their cars (backend/clients/index.py): clients need a name and a
    phone, cars carry an optional 17-character VIN, and removing a car only marks
    it inactive. */
module Clients {
  import opened Tables
  import opened Text
  import opened Http
  import opened Store

  datatype CarView = CarView(id: nat, brand: string, model: string, year: string, vin: string)

  datatype ClientView = ClientView(
    id: nat, name: string, phone: string, email: string, comment: string, cars: seq<CarView>)

  function FormatCar(id: nat, c: Car): CarView {
    CarView(id, c.brand, c.model, c.year, c.vin)
  }

  // ----------------------------------------------------------------- create

  datatype ClientRequest = ClientRequest(
    name: Option<string>, phone: Option<string>, email: Option<string>, comment: Option<string>)

  /** `create_client`: name and phone must be non-blank; all four fields are trimmed,
      and the new client comes back with no cars. */
  function CreateClient(s: Store, req: ClientRequest): (r: Reply<ClientView>)
    requires s.Valid()
    ensures r.store.Valid()
    ensures r.response.Ok? <==> !IsBlank(req.name.GetOr("")) && !IsBlank(req.phone.GetOr(""))
    ensures r.response.Fail? ==> r.store == s && r.response == Fail(BAD_REQUEST, "name and phone are required")
    ensures r.response.Ok? ==>
      && r.response.status == CREATED
      && var v := r.response.body;
      && v.id !in s.clients.rows && v.cars == []
      && v.name == Strip(req.name.GetOr("")) && v.phone == Strip(req.phone.GetOr(""))
      && r.store == s.(clients := r.store.clients)
      && r.store.clients.rows == s.clients.rows[v.id := Client(v.name, v.phone, v.email, v.comment)]
      && v.email == Strip(req.email.GetOr("")) && v.comment == Strip(req.comment.GetOr(""))
  {
    var name, phone := Strip(req.name.GetOr("")), Strip(req.phone.GetOr(""));
    if IsBlank(req.name.GetOr("")) || IsBlank(req.phone.GetOr("")) then
      Reject(s, BAD_REQUEST, "name and phone are required")
    else
      var row := Client(name, phone, Strip(req.email.GetOr("")), Strip(req.comment.GetOr("")));
      var (clients, id) := s.clients.Insert(row);
      Reply(s.(clients := clients), Ok(CREATED, ClientView(id, row.name, row.phone, row.email, row.comment, [])))
  }

  /** A client that can be reached: a trimmed, non-blank name and phone. */
  predicate HasContact(c: Client) {
    !IsBlank(c.name) && Strip(c.name) == c.name && !IsBlank(c.phone) && Strip(c.phone) == c.phone
  }

  /** Every stored client can be reached. */
  predicate ClientsHaveContact(t: Table<Client>) {
    forall k :: k in t.rows ==> HasContact(t.rows[k])
  }

  /** `create_client` keeps every client reachable: the one it adds has a trimmed,
      non-blank name and phone, and the others are untouched. */
  lemma CreateKeepsContacts(s: Store, req: ClientRequest)
    requires s.Valid() && ClientsHaveContact(s.clients)
    ensures ClientsHaveContact(CreateClient(s, req).store.clients)
  {
    var r := CreateClient(s, req);
    if r.response.Ok? {
      var v := r.response.body;
      StrippedHasContact(req.name.GetOr(""), req.phone.GetOr(""), v.email, v.comment);
    }
  }

  lemma StrippedHasContact(name: string, phone: string, email: string, comment: string)
    requires !IsBlank(name) && !IsBlank(phone)
    ensures HasContact(Client(Strip(name), Strip(phone), email, comment))
  {
    StrippedIsNotBlank(name);
    StrippedIsNotBlank(phone);
    StripIdempotent(name);
    StripIdempotent(phone);
  }

  // ------------------------------------------------------------------- cars

  datatype CarRequest = CarRequest(
    clientId: nat, brand: Option<string>, model: Option<string>, year: Option<string>, vin: Option<string>)

  /** The VIN as stored: trimmed and upper-cased. */
  function NormalVin(vin: string): (v: string)
    ensures |v| == |Strip(vin)|
  {
    Upper(Strip(vin))
  }

  /** A VIN is accepted when it is empty or exactly 17 characters long. */
  predicate VinAccepted(vin: string) {
    vin == [] || |vin| == 17
  }

  /** `add_car`: client, brand and model are required; the VIN, once trimmed and
      upper-cased, must be empty or 17 characters. The client is not looked up. */
  function AddCar(s: Store, req: CarRequest): (r: Reply<CarView>)
    requires s.Valid()
    ensures r.store.Valid()
    ensures r.response.Ok? <==>
      && req.clientId != 0 && !IsBlank(req.brand.GetOr("")) && !IsBlank(req.model.GetOr(""))
      && VinAccepted(NormalVin(req.vin.GetOr("")))
    ensures r.response.Fail? ==> r.store == s && r.response.status == BAD_REQUEST
    ensures req.clientId == 0 || IsBlank(req.brand.GetOr("")) || IsBlank(req.model.GetOr(""))
      ==> r.response == Fail(BAD_REQUEST, "client_id, brand and model are required")
    ensures req.clientId != 0 && !IsBlank(req.brand.GetOr("")) && !IsBlank(req.model.GetOr(""))
      && !VinAccepted(NormalVin(req.vin.GetOr("")))
      ==> r.response == Fail(BAD_REQUEST, "VIN must be exactly 17 characters")
    ensures r.response.Ok? ==>
      && r.response.status == CREATED
      && var v := r.response.body;
      && v.id !in s.cars.rows
      && r.store == s.(cars := r.store.cars)
      && r.store.cars.rows == s.cars.rows[v.id := Car(req.clientId, v.brand, v.model, v.year, v.vin, true)]
      && v.brand == Strip(req.brand.GetOr("")) && v.model == Strip(req.model.GetOr(""))
      && v.year == Strip(req.year.GetOr("")) && v.vin == NormalVin(req.vin.GetOr(""))
      && (v.vin == [] || |v.vin| == 17)
  {
    var brand, model := Strip(req.brand.GetOr("")), Strip(req.model.GetOr(""));
    var vin := NormalVin(req.vin.GetOr(""));
    if req.clientId == 0 || IsBlank(req.brand.GetOr("")) || IsBlank(req.model.GetOr("")) then
      Reject(s, BAD_REQUEST, "client_id, brand and model are required")
    else if !VinAccepted(vin) then Reject(s, BAD_REQUEST, "VIN must be exactly 17 characters")
    else
      var row := Car(req.clientId, brand, model, Strip(req.year.GetOr("")), vin, true);
      var (cars, id) := s.cars.Insert(row);
      Reply(s.(cars := cars), Ok(CREATED, FormatCar(id, row)))
  }

  /** A stored VIN holds none of the lower-case letters `Upper` maps, and upper-casing
      it again changes nothing. */
  lemma NormalVinIsNormal(vin: string)
    ensures var v := NormalVin(vin);
      && (forall i :: 0 <= i < |v| ==> !('a' <= v[i] <= 'z') && !CasedLower(v[i]))
      && Upper(v) == v
  {
    var v := NormalVin(vin);
    assert forall i :: 0 <= i < |v| ==> !CasedLower(v[i]);
    assert forall i :: 0 <= i < |v| ==> Upper(v)[i] == v[i];
  }

  /** `delete_car`: the car is only marked inactive, its row stays; any non-zero id
      answers success. */
  function DeleteCar(s: Store, carId: nat): (r: Reply<Ack>)
    requires s.Valid()
    ensures r.store.Valid()
    ensures r.response.Fail? <==> carId == 0
    ensures r.response.Fail? ==> r.store == s && r.response == Fail(BAD_REQUEST, "car_id is required")
    ensures r.response.Ok? ==>
      && r.response == Ok(OK, Success)
      && r.store == s.(cars := r.store.cars)
      && r.store.cars.rows.Keys == s.cars.rows.Keys
      && (carId in s.cars.rows ==> r.store.cars.rows[carId] == s.cars.rows[carId].(isActive := false))
      && forall k :: k in s.cars.rows && k != carId ==> r.store.cars.rows[k] == s.cars.rows[k]
  {
    if carId == 0 then Reject(s, BAD_REQUEST, "car_id is required")
    else if carId in s.cars.rows then
      Reply(s.(cars := s.cars.Set(carId, s.cars.rows[carId].(isActive := false))), Ok(OK, Success))
    else Reply(s, Ok(OK, Success))
  }

  /** Deleting a car twice is the same as deleting it once. */
  lemma DeleteCarIdempotent(s: Store, carId: nat)
    requires s.Valid()
    ensures var s1 := DeleteCar(s, carId).store;
      DeleteCar(s1, carId).store == s1
  {
    var s1 := DeleteCar(s, carId).store;
    if carId != 0 && carId in s.cars.rows {
      assert s1.cars.Set(carId, s1.cars.rows[carId].(isActive := false)) == s1.cars;
    }
  }

  // ---------------------------------------------------------------- listing

  /** A car that is stored and still active. */
  function ActiveCar(t: Table<Car>): nat -> bool {
    (k: nat) => k in t.rows && t.rows[k].isActive
  }

  /** A stored car owned by client `clientId`. */
  function OwnedBy(t: Table<Car>, clientId: nat): nat -> bool {
    (k: nat) => k in t.rows && t.rows[k].clientId == clientId
  }

  /** The one fetch of active cars, newest first. */
  function ActiveCars(s: Store): (r: seq<nat>)
    requires s.Valid()
    ensures forall k :: k in r <==> k in s.cars.rows && s.cars.rows[k].isActive
    ensures StrictlyDecreasing(r)
  {
    NewestOrder(s.cars);
    FilterPreservesDecreasing(s.cars.Newest(), ActiveCar(s.cars));
    Filter(s.cars.Newest(), ActiveCar(s.cars))
  }

  /** One client's car ids, picked out of the active-car fetch in memory. */
  function OwnCarIds(s: Store, clientId: nat): (r: seq<nat>)
    requires s.Valid()
    ensures forall k :: k in r <==>
      k in s.cars.rows && s.cars.rows[k].isActive && s.cars.rows[k].clientId == clientId
    ensures StrictlyDecreasing(r)
  {
    var active := ActiveCars(s);
    FilterPreservesDecreasing(active, OwnedBy(s.cars, clientId));
    Filter(active, OwnedBy(s.cars, clientId))
  }

  lemma OwnCarIdsStored(s: Store, clientId: nat)
    requires s.Valid()
    ensures forall j :: 0 <= j < |OwnCarIds(s, clientId)| ==> OwnCarIds(s, clientId)[j] in s.cars.rows
  {
    var mine := OwnCarIds(s, clientId);
    forall j | 0 <= j < |mine| ensures mine[j] in s.cars.rows {
      assert mine[j] in mine;
    }
  }

  /** The cars with the given ids, formatted in the same order. */
  function CarViews(s: Store, ids: seq<nat>): (r: seq<CarView>)
    requires forall j :: 0 <= j < |ids| ==> ids[j] in s.cars.rows
    ensures |r| == |ids|
    ensures forall j :: 0 <= j < |r| ==> r[j].id == ids[j] && r[j] == FormatCar(ids[j], s.cars.rows[ids[j]])
  {
    seq(|ids|, j requires 0 <= j < |ids| => FormatCar(ids[j], s.cars.rows[ids[j]]))
  }

  /** One client's cars as the listing shows them. */
  function CarsOf(s: Store, clientId: nat): (r: seq<CarView>)
    requires s.Valid()
    ensures var mine := OwnCarIds(s, clientId);
      && |r| == |mine|
      && (forall j :: 0 <= j < |r| ==> r[j].id == mine[j])
      && (forall j :: 0 <= j < |r| ==> r[j].id in s.cars.rows && r[j] == FormatCar(r[j].id, s.cars.rows[r[j].id]))
  {
    OwnCarIdsStored(s, clientId);
    CarViews(s, OwnCarIds(s, clientId))
  }

  function ClientEntry(s: Store, id: nat): (v: ClientView)
    requires s.Valid() && id in s.clients.rows
    ensures v.id == id && v.cars == CarsOf(s, id)
  {
    var c := s.clients.rows[id];
    ClientView(id, c.name, c.phone, c.email, c.comment, CarsOf(s, id))
  }

  /** GET: every client, newest first, each with its active cars. */
  function ListClients(s: Store): (r: seq<ClientView>)
    requires s.Valid()
    ensures |r| == |s.clients.Newest()|
    ensures forall i :: 0 <= i < |r| ==> r[i].id == s.clients.Newest()[i]
  {
    var ids := s.clients.Newest();
    NewestInRows(s.clients);
    seq(|ids|, i requires 0 <= i < |ids| => ClientEntry(s, ids[i]))
  }

  /** Whether car `k` appears in a list of car views. */
  predicate Lists(cars: seq<CarView>, k: nat) {
    exists j :: 0 <= j < |cars| && cars[j].id == k
  }

  /** A client's cars are exactly its active cars. */
  lemma CarsOfMembers(s: Store, clientId: nat)
    requires s.Valid()
    ensures forall k :: Lists(CarsOf(s, clientId), k) <==>
      k in s.cars.rows && s.cars.rows[k].isActive && s.cars.rows[k].clientId == clientId
  {
    var cars := CarsOf(s, clientId);
    var mine := OwnCarIds(s, clientId);
    forall k | k in mine ensures Lists(cars, k) {
      var j :| 0 <= j < |mine| && mine[j] == k;
      assert cars[j].id == k;
    }
    forall k | Lists(cars, k) ensures k in mine {
      var j :| 0 <= j < |cars| && cars[j].id == k;
      assert mine[j] in mine;
    }
  }

  /** A client's cars come newest first. */
  lemma CarsOfOrder(s: Store, clientId: nat)
    requires s.Valid()
    ensures var cars := CarsOf(s, clientId);
      forall j, l :: 0 <= j < l < |cars| ==> cars[j].id > cars[l].id
  {
    var cars := CarsOf(s, clientId);
    var mine := OwnCarIds(s, clientId);
    forall j, l | 0 <= j < l < |cars| ensures cars[j].id > cars[l].id {
      assert cars[j].id == mine[j] && cars[l].id == mine[l];
    }
  }

  /** Each listed client carries exactly its own active cars, newest first, each as stored. */
  lemma ListingAttachesActiveCars(s: Store, i: nat)
    requires s.Valid() && i < |ListClients(s)|
    ensures var v := ListClients(s)[i];
      && v.id in s.clients.rows
      && (forall k :: Lists(v.cars, k) <==>
            k in s.cars.rows && s.cars.rows[k].isActive && s.cars.rows[k].clientId == v.id)
      && (forall j :: 0 <= j < |v.cars| ==> v.cars[j] == FormatCar(v.cars[j].id, s.cars.rows[v.cars[j].id]))
      && (forall j, l :: 0 <= j < l < |v.cars| ==> v.cars[j].id > v.cars[l].id)
  {
    var v := ListClients(s)[i];
    NewestInRows(s.clients);
    assert v.id in s.clients.rows;
    assert v.cars == CarsOf(s, v.id);
    CarsOfMembers(s, v.id);
    CarsOfOrder(s, v.id);
  }

  // ---------------------------------------------------------------- routing

  datatype Action = CreateClientAction | AddCarAction | DeleteCarAction

  function ActionName(a: Action): string {
    match a
    case CreateClientAction => "create_client"
    case AddCarAction => "add_car"
    case DeleteCarAction => "delete_car"
  }

  function ParseAction(name: string): (r: Option<Action>)
    ensures r.Some? ==> ActionName(r.value) == name
    ensures forall a: Action :: ActionName(a) == name ==> r == Some(a)
  {
    if name == "create_client" then Some(CreateClientAction)
    else if name == "add_car" then Some(AddCarAction)
    else if name == "delete_car" then Some(DeleteCarAction)
    else None
  }

  function RouteRequest(httpMethod: Option<string>, action: string): (r: Route<Action>)
    ensures httpMethod == Some("OPTIONS") <==> r.Preflight?
    ensures r.Query? <==> MethodOf(httpMethod) == "GET"
    ensures r.Invoke? <==> MethodOf(httpMethod) == "POST" && ParseAction(action).Some?
    ensures r.Invoke? ==> ActionName(r.action) == action
    ensures r.UnknownAction? <==> MethodOf(httpMethod) == "POST" && ParseAction(action).None?
    ensures r.NotAllowed? <==> !(MethodOf(httpMethod) in ["OPTIONS", "GET", "POST"])
  {
    Dispatch(httpMethod, ParseAction(action))
  }
}

=== FILE: employees.dfy ===
/** The staff register (backend/employees/index.py): employees with a fixed set of
    roles; an employee still assigned to a work order is deactivated instead of
    deleted. */
module Employees {
  import opened Tables
  import opened Text
  import opened Http
  import opened Store

  const ValidRoles: seq<string> := ["director", "manager", "mechanic", "electrician", "installer", "accountant"]

  const RoleLabels: map<string, string> := map[
    "director" := "Директор", "manager" := "Менеджер", "mechanic" := "Механик",
    "electrician" := "Электрик", "installer" := "Установщик", "accountant" := "Бухгалтер"]

  /** The display label of a role; an unknown role is shown as it is stored. */
  function RoleLabel(role: string): (shown: string)
    ensures role in RoleLabels ==> shown == RoleLabels[role]
    ensures role !in RoleLabels ==> shown == role
  {
    if role in RoleLabels then RoleLabels[role] else role
  }

  /** Exactly the valid roles have a label of their own, and no two share one. */
  lemma RoleLabelsMatchRoles()
    ensures RoleLabels.Keys == set r | r in ValidRoles
    ensures forall a, b :: a in RoleLabels && b in RoleLabels && RoleLabels[a] == RoleLabels[b] ==> a == b
  {
    assert RoleLabels.Keys == set r | r in ValidRoles by {
      assert ValidRoles[0] == "director" && ValidRoles[1] == "manager" && ValidRoles[2] == "mechanic";
      assert ValidRoles[3] == "electrician" && ValidRoles[4] == "installer" && ValidRoles[5] == "accountant";
    }
  }

  datatype EmployeeView = EmployeeView(
    id: nat, name: string, role: string, roleLabel: string, phone: string, email: string, isActive: bool)

  /** An employee as the API reports it. */
  function FormatEmployee(id: nat, e: Employee): (v: EmployeeView)
    ensures v.id == id && v.name == e.name && v.role == e.role && v.isActive == e.isActive
    ensures v.phone == e.phone && v.email == e.email
    ensures v.roleLabel == RoleLabel(e.role)
  {
    EmployeeView(id, e.name, e.role, RoleLabel(e.role), e.phone, e.email, e.isActive)
  }

  /** A valid role is shown under one of the role labels, never as the raw role; any
      other role is shown as it is stored. */
  lemma FormatEmployeeLabel(id: nat, e: Employee)
    ensures e.role in ValidRoles <==> FormatEmployee(id, e).roleLabel != e.role
    ensures e.role in ValidRoles ==> FormatEmployee(id, e).roleLabel in RoleLabels.Values
  {
    RoleLabelsMatchRoles();
    assert e.role in ValidRoles <==> e.role in RoleLabels.Keys;
  }

  // ----------------------------------------------------------------- create

  datatype EmployeeRequest = EmployeeRequest(
    name: Option<string>, role: Option<string>, phone: Option<string>, email: Option<string>)

  /** `create_employee`: a non-blank name and a valid role (default 'mechanic'); text
      fields are trimmed and the employee starts active. */
  function CreateEmployee(s: Store, req: EmployeeRequest): (r: Reply<EmployeeView>)
    requires s.Valid()
    ensures r.store.Valid()
    ensures r.response.Ok? <==> !IsBlank(req.name.GetOr("")) && req.role.GetOr("mechanic") in ValidRoles
    ensures r.response.Fail? ==> r.store == s
    ensures IsBlank(req.name.GetOr("")) ==> r.response == Fail(BAD_REQUEST, "Имя сотрудника обязательно")
    ensures !IsBlank(req.name.GetOr("")) && req.role.GetOr("mechanic") !in ValidRoles
      ==> r.response == Fail(BAD_REQUEST, "Роль должна быть одной из: " + Join(ValidRoles, ", "))
    ensures r.response.Ok? ==>
      && r.response.status == CREATED
      && var id := r.response.body.id;
      && id !in s.employees.rows
      && r.store == s.(employees := r.store.employees)
      && r.store.employees.rows == s.employees.rows[id := Employee(
           Strip(req.name.GetOr("")), req.role.GetOr("mechanic"),
           Strip(req.phone.GetOr("")), Strip(req.email.GetOr("")), true)]
      && r.response.body == FormatEmployee(id, r.store.employees.rows[id])
  {
    var name := Strip(req.name.GetOr(""));
    var role := req.role.GetOr("mechanic");
    if IsBlank(req.name.GetOr("")) then Reject(s, BAD_REQUEST, "Имя сотрудника обязательно")
    else if role !in ValidRoles then
      Reject(s, BAD_REQUEST, "Роль должна быть одной из: " + Join(ValidRoles, ", "))
    else
      var row := Employee(name, role, Strip(req.phone.GetOr("")), Strip(req.email.GetOr("")), true);
      var (employees, id) := s.employees.Insert(row);
      Reply(s.(employees := employees), Ok(CREATED, FormatEmployee(id, row)))
  }

  // ----------------------------------------------------------------- update

  datatype EmployeeUpdate = EmployeeUpdate(
    employeeId: nat, name: Option<string>, role: Option<string>, phone: Option<string>,
    email: Option<string>, isActive: Option<Json>)

  predicate NoEmployeeChange(u: EmployeeUpdate) {
    u.name.None? && u.role.None? && u.phone.None? && u.email.None? && u.isActive.None?
  }

  function ApplyEmployeeUpdate(e: Employee, u: EmployeeUpdate): Employee {
    e.(name := if u.name.Some? then Strip(u.name.value) else e.name,
       role := u.role.GetOr(e.role),
       phone := if u.phone.Some? then Strip(u.phone.value) else e.phone,
       email := if u.email.Some? then Strip(u.email.value) else e.email,
       isActive := if u.isActive.Some? then Truthy(u.isActive.value) else e.isActive)
  }

  /** `update_employee`: unlike the other handlers, a name that is given but blank is an
      error rather than skipped; then an invalid role, an empty update, an unknown id. */
  function UpdateEmployee(s: Store, u: EmployeeUpdate): (r: Reply<EmployeeView>)
    requires s.Valid()
    ensures r.store.Valid()
    ensures r.response.Fail? ==> r.store == s
    ensures u.employeeId == 0 ==> r.response == Fail(BAD_REQUEST, "employee_id обязателен")
    ensures u.employeeId != 0 && u.name.Some? && IsBlank(u.name.value)
      ==> r.response == Fail(BAD_REQUEST, "Имя не может быть пустым")
    ensures u.employeeId != 0 && (u.name.None? || !IsBlank(u.name.value))
      && u.role.Some? && u.role.value !in ValidRoles
      ==> r.response == Fail(BAD_REQUEST, "Недопустимая роль")
    ensures u.employeeId != 0 && NoEmployeeChange(u) ==> r.response == Fail(BAD_REQUEST, "Нечего обновлять")
    ensures u.employeeId != 0 && !NoEmployeeChange(u) && u.employeeId !in s.employees.rows
      && (u.name.None? || !IsBlank(u.name.value)) && (u.role.None? || u.role.value in ValidRoles)
      ==> r.response == Fail(NOT_FOUND, "Сотрудник не найден")
    ensures r.response.Ok? <==>
      && u.employeeId != 0 && (u.name.None? || !IsBlank(u.name.value))
      && (u.role.None? || u.role.value in ValidRoles) && !NoEmployeeChange(u)
      && u.employeeId in s.employees.rows
    ensures r.response.Ok? ==>
      && u.employeeId in s.employees.rows && u.employeeId in r.store.employees.rows
      && r.response.status == OK
      && r.store == s.(employees := r.store.employees)
      && var before := s.employees.rows[u.employeeId];
      && var after := r.store.employees.rows[u.employeeId];
      && r.store.employees.rows == s.employees.rows[u.employeeId := after]
      && (u.name.Some? ==> after.name == Strip(u.name.value) && !IsBlank(after.name))
      && (u.name.None? ==> after.name == before.name)
      && (u.role.Some? ==> after.role == u.role.value && after.role in ValidRoles)
      && (u.role.None? ==> after.role == before.role)
      && (u.phone.Some? ==> after.phone == Strip(u.phone.value))
      && (u.phone.None? ==> after.phone == before.phone)
      && (u.email.Some? ==> after.email == Strip(u.email.value))
      && (u.email.None? ==> after.email == before.email)
      && (u.isActive.Some? ==> after.isActive == Truthy(u.isActive.value))
      && (u.isActive.None? ==> after.isActive == before.isActive)
      && r.response.body == FormatEmployee(u.employeeId, after)
  {
    if u.employeeId == 0 then Reject(s, BAD_REQUEST, "employee_id обязателен")
    else if u.name.Some? && IsBlank(u.name.value) then Reject(s, BAD_REQUEST, "Имя не может быть пустым")
    else if u.role.Some? && u.role.value !in ValidRoles then Reject(s, BAD_REQUEST, "Недопустимая роль")
    else if NoEmployeeChange(u) then Reject(s, BAD_REQUEST, "Нечего обновлять")
    else if u.employeeId !in s.employees.rows then Reject(s, NOT_FOUND, "Сотрудник не найден")
    else
      var after := ApplyEmployeeUpdate(s.employees.rows[u.employeeId], u);
      StrippedIsNotBlank(u.name.GetOr(""));
      Reply(s.(employees := s.employees.Set(u.employeeId, after)), Ok(OK, FormatEmployee(u.employeeId, after)))
  }

  // ----------------------------------------------------------------- delete

  /** One for each work order assigned to employee `id`. */
  function AssignedTo(id: nat): WorkOrder -> int {
    (wo: WorkOrder) => if wo.employeeId == id then 1 else 0
  }

  /** `SELECT COUNT(*) FROM work_orders WHERE employee_id = id`. */
  function AssignmentCount(s: Store, id: nat): (n: nat)
    requires s.Valid()
    ensures n > 0 <==> exists k :: k in s.workOrders.rows && s.workOrders.rows[k].employeeId == id
  {
    SumPositive(s.workOrders, AssignedTo(id));
    s.workOrders.Sum(AssignedTo(id))
  }

  datatype Removal = Deactivated(employee: EmployeeView) | Deleted

  /** `delete_employee`: an employee with assigned work orders is kept and deactivated;
      otherwise the row is deleted, and an unknown id is 404. Deactivating a row that is
      assigned but absent fails in the formatter, which the runtime reports as 500. */
  function DeleteEmployee(s: Store, id: nat): (r: Reply<Removal>)
    requires s.Valid()
    ensures r.store.Valid()
    ensures r.response.Fail? ==> r.store == s
    ensures id == 0 ==> r.response == Fail(BAD_REQUEST, "employee_id обязателен")
    ensures id != 0 && AssignmentCount(s, id) > 0 ==>
      && (id in s.employees.rows ==>
            && r.store == s.(employees := s.employees.Set(id, s.employees.rows[id].(isActive := false)))
            && r.response == Ok(OK, Deactivated(FormatEmployee(id, r.store.employees.rows[id]))))
      && (id !in s.employees.rows ==> r.response.Fail? && r.response.status == SERVER_ERROR)
    ensures id != 0 && AssignmentCount(s, id) == 0 ==>
      && (id in s.employees.rows ==>
            r.store == s.(employees := s.employees.Remove(id)) && r.response == Ok(OK, Deleted))
      && (id !in s.employees.rows ==> r.response == Fail(NOT_FOUND, "Сотрудник не найден"))
  {
    if id == 0 then Reject(s, BAD_REQUEST, "employee_id обязателен")
    else if AssignmentCount(s, id) > 0 then
      if id in s.employees.rows then
        var row := s.employees.rows[id].(isActive := false);
        Reply(s.(employees := s.employees.Set(id, row)), Ok(OK, Deactivated(FormatEmployee(id, row))))
      else Reject(s, SERVER_ERROR, "")
    else if id in s.employees.rows then Reply(s.(employees := s.employees.Remove(id)), Ok(OK, Deleted))
    else Reject(s, NOT_FOUND, "Сотрудник не найден")
  }

  // ------------------------------------------------------------- invariants

  /** Every work order's employee, when set, is a stored employee. */
  ghost predicate AssignmentsResolve(s: Store) {
    forall k :: k in s.workOrders.rows && s.workOrders.rows[k].employeeId != 0 ==>
      s.workOrders.rows[k].employeeId in s.employees.rows
  }

  /** Deleting never leaves a work order pointing at a missing employee: an assigned
      employee is only deactivated. */
  lemma DeleteKeepsAssignments(s: Store, id: nat)
    requires s.Valid() && AssignmentsResolve(s)
    ensures AssignmentsResolve(DeleteEmployee(s, id).store)
  {
    var r := DeleteEmployee(s, id);
    if id != 0 && AssignmentCount(s, id) == 0 && id in s.employees.rows {
      forall k | k in r.store.workOrders.rows && r.store.workOrders.rows[k].employeeId != 0
        ensures r.store.workOrders.rows[k].employeeId in r.store.employees.rows
      {
        assert s.workOrders.rows[k].employeeId != id;
      }
    }
  }

  /** Every stored employee has a non-blank name and a valid role. */
  ghost predicate StaffWellFormed(s: Store) {
    forall k :: k in s.employees.rows ==>
      !IsBlank(s.employees.rows[k].name) && s.employees.rows[k].role in ValidRoles
  }

  lemma CreateKeepsStaffWellFormed(s: Store, req: EmployeeRequest)
    requires s.Valid() && StaffWellFormed(s)
    ensures StaffWellFormed(CreateEmployee(s, req).store)
  {
    var r := CreateEmployee(s, req);
    if r.response.Ok? {
      var id := r.response.body.id;
      StrippedIsNotBlank(req.name.GetOr(""));
      assert !IsBlank(r.store.employees.rows[id].name) && r.store.employees.rows[id].role in ValidRoles;
    }
  }

  lemma UpdateKeepsStaffWellFormed(s: Store, u: EmployeeUpdate)
    requires s.Valid() && StaffWellFormed(s)
    ensures StaffWellFormed(UpdateEmployee(s, u).store)
  {
  }

  lemma DeleteKeepsStaffWellFormed(s: Store, id: nat)
    requires s.Valid() && StaffWellFormed(s)
    ensures StaffWellFormed(DeleteEmployee(s, id).store)
  {
  }

  // ---------------------------------------------------------------- routing

  datatype Action = CreateAction | UpdateAction | DeleteAction

  function ActionName(a: Action): string {
    match a
    case CreateAction => "create"
    case UpdateAction => "update"
    case DeleteAction => "delete"
  }

  /** A POST body's `action`, 'create' when absent. */
  function ParseAction(action: Option<string>): (r: Option<Action>)
    ensures action.None? ==> r == Some(CreateAction)
    ensures r.Some? ==> ActionName(r.value) == action.GetOr("create")
    ensures forall a: Action :: ActionName(a) == action.GetOr("create") ==> r == Some(a)
  {
    var name := action.GetOr("create");
    if name == "create" then Some(CreateAction)
    else if name == "update" then Some(UpdateAction)
    else if name == "delete" then Some(DeleteAction)
    else None
  }

  /** The 400 body for an action the handler does not know. */
  function UnknownActionMessage(action: string): string {
    "Неизвестное действие: " + action
  }

  function RouteRequest(httpMethod: Option<string>, action: Option<string>): (r: Route<Action>)
    ensures httpMethod == Some("OPTIONS") <==> r.Preflight?
    ensures r.Query? <==> MethodOf(httpMethod) == "GET"
    ensures r.Invoke? <==> MethodOf(httpMethod) == "POST" && ParseAction(action).Some?
    ensures r.Invoke? ==> ActionName(r.action) == action.GetOr("create")
    ensures r.UnknownAction? <==> MethodOf(httpMethod) == "POST" && ParseAction(action).None?
    ensures r.NotAllowed? <==> !(MethodOf(httpMethod) in ["OPTIONS", "GET", "POST"])
  {
    Dispatch(httpMethod, ParseAction(action))
  }
}

=== FILE: finance.dfy ===
/** Cashboxes and payments (backend/finance/index.py): a payment is booked against
    a work order and credited to a cashbox, cashboxes are created, edited, and
    deleted only while no payment refers to them. */
module Finance {
  import opened Tables
  import opened Text
  import opened Http
  import opened Store

  const PaymentMethods: seq<string> := ["cash", "card", "transfer", "online"]
  const CashboxKinds: seq<string> := ["cash", "bank", "card", "online"]

  // --------------------------------------------------------------- payments

  /** A `create_payment` body; absent fields are None, a falsy id is 0. */
  datatype PaymentRequest = PaymentRequest(
    workOrderId: nat, cashboxId: nat, amount: Option<int>, paymentMethod: Option<string>,
    comment: Option<string>)

  /** `UPDATE cashboxes SET balance = balance + amount WHERE id = cb`: a missing id
      matches no row. */
  function Credit(t: Table<Cashbox>, cb: nat, amount: int): (r: Table<Cashbox>)
    requires t.Valid()
    ensures r.Valid() && r.rows.Keys == t.rows.Keys && r.next == t.next
    ensures cb in t.rows ==> r.rows[cb] == t.rows[cb].(balance := t.rows[cb].balance + amount)
    ensures forall k :: k in t.rows && k != cb ==> r.rows[k] == t.rows[k]
  {
    if cb in t.rows then t.Set(cb, t.rows[cb].(balance := t.rows[cb].balance + amount)) else t
  }

  /** `create_payment`: ids and a non-zero amount are required, the method must be one
      of the four known ones (default 'cash'); the payment is stored and its amount
      credited to the cashbox. The cashbox is not looked up first. */
  function CreatePayment(s: Store, req: PaymentRequest): (r: Reply<Saved<Payment>>)
    requires s.Valid()
    ensures r.store.Valid()
    ensures r.response.Ok? <==>
      && req.workOrderId != 0 && req.cashboxId != 0 && req.amount.GetOr(0) != 0
      && req.paymentMethod.GetOr("cash") in PaymentMethods
    ensures r.response.Fail? ==> r.store == s
    ensures req.workOrderId == 0 || req.cashboxId == 0 || req.amount.GetOr(0) == 0 ==>
      r.response == Fail(BAD_REQUEST, "work_order_id, cashbox_id and amount are required")
    ensures req.workOrderId != 0 && req.cashboxId != 0 && req.amount.GetOr(0) != 0
      && req.paymentMethod.GetOr("cash") !in PaymentMethods
      ==> r.response == Fail(BAD_REQUEST, "Invalid payment method")
    ensures r.response.Ok? ==>
      && r.response.status == CREATED
      && var id := r.response.body.id;
      && var p := r.response.body.row;
      && id !in s.payments.rows
      && p == Payment(req.workOrderId, req.cashboxId, req.amount.GetOr(0),
                      req.paymentMethod.GetOr("cash"), req.comment.GetOr(""))
      && r.store == s.(payments := r.store.payments, cashboxes := r.store.cashboxes)
      && r.store.payments.rows == s.payments.rows[id := p]
      && r.store.cashboxes.rows.Keys == s.cashboxes.rows.Keys
      && (req.cashboxId in s.cashboxes.rows ==>
            r.store.cashboxes.rows[req.cashboxId].balance == s.cashboxes.rows[req.cashboxId].balance + p.amount)
      && forall k :: k in s.cashboxes.rows && k != req.cashboxId ==> r.store.cashboxes.rows[k] == s.cashboxes.rows[k]
  {
    var amount := req.amount.GetOr(0);
    var paymentMethod := req.paymentMethod.GetOr("cash");
    if req.workOrderId == 0 || req.cashboxId == 0 || amount == 0 then
      Reject(s, BAD_REQUEST, "work_order_id, cashbox_id and amount are required")
    else if paymentMethod !in PaymentMethods then Reject(s, BAD_REQUEST, "Invalid payment method")
    else
      var row := Payment(req.workOrderId, req.cashboxId, amount, paymentMethod, req.comment.GetOr(""));
      var (payments, id) := s.payments.Insert(row);
      Reply(s.(payments := payments, cashboxes := Credit(s.cashboxes, req.cashboxId, amount)),
            Ok(CREATED, Saved(id, row)))
  }

  // -------------------------------------------------------------- cashboxes

  datatype CashboxRequest = CashboxRequest(name: Option<string>, kind: Option<string>)

  /** `create_cashbox`: a non-blank name (trimmed) and a known type (default 'cash');
      a new cashbox starts active with balance 0. */
  function CreateCashbox(s: Store, req: CashboxRequest): (r: Reply<Saved<Cashbox>>)
    requires s.Valid()
    ensures r.store.Valid()
    ensures r.response.Ok? <==> !IsBlank(req.name.GetOr("")) && req.kind.GetOr("cash") in CashboxKinds
    ensures r.response.Fail? ==> r.store == s
    ensures IsBlank(req.name.GetOr("")) ==> r.response == Fail(BAD_REQUEST, "name is required")
    ensures !IsBlank(req.name.GetOr("")) && req.kind.GetOr("cash") !in CashboxKinds
      ==> r.response == Fail(BAD_REQUEST, "Invalid cashbox type")
    ensures r.response.Ok? ==>
      && r.response.status == CREATED
      && var id := r.response.body.id;
      && id !in s.cashboxes.rows
      && r.response.body.row == Cashbox(Strip(req.name.GetOr("")), req.kind.GetOr("cash"), 0, true)
      && r.store == s.(cashboxes := r.store.cashboxes)
      && r.store.cashboxes.rows == s.cashboxes.rows[id := r.response.body.row]
  {
    var name := Strip(req.name.GetOr(""));
    var kind := req.kind.GetOr("cash");
    if IsBlank(req.name.GetOr("")) then Reject(s, BAD_REQUEST, "name is required")
    else if kind !in CashboxKinds then Reject(s, BAD_REQUEST, "Invalid cashbox type")
    else
      var row := Cashbox(name, kind, 0, true);
      var (cashboxes, id) := s.cashboxes.Insert(row);
      Reply(s.(cashboxes := cashboxes), Ok(CREATED, Saved(id, row)))
  }

  /** An `update_cashbox` body: a present field is Some. */
  datatype CashboxUpdate = CashboxUpdate(
    cashboxId: nat, name: Option<string>, kind: Option<string>, isActive: Option<Json>)

  /** A blank name does not count as a change; any given type or activity flag does. */
  predicate NoCashboxChange(u: CashboxUpdate) {
    (u.name.None? || IsBlank(u.name.value)) && u.kind.None? && u.isActive.None?
  }

  function ApplyCashboxUpdate(c: Cashbox, u: CashboxUpdate): Cashbox {
    c.(name := if u.name.Some? && !IsBlank(u.name.value) then Strip(u.name.value) else c.name,
       kind := u.kind.GetOr(c.kind),
       isActive := if u.isActive.Some? then Truthy(u.isActive.value) else c.isActive)
  }

  /** `update_cashbox`: an unknown type is refused before anything else is looked at,
      then an empty update, then an unknown id; the balance is never edited here. */
  function UpdateCashbox(s: Store, u: CashboxUpdate): (r: Reply<Saved<Cashbox>>)
    requires s.Valid()
    ensures r.store.Valid()
    ensures r.response.Fail? ==> r.store == s
    ensures u.cashboxId == 0 ==> r.response == Fail(BAD_REQUEST, "cashbox_id is required")
    ensures u.cashboxId != 0 && u.kind.Some? && u.kind.value !in CashboxKinds
      ==> r.response == Fail(BAD_REQUEST, "Invalid type")
    ensures u.cashboxId != 0 && NoCashboxChange(u) ==> r.response == Fail(BAD_REQUEST, "Nothing to update")
    ensures u.cashboxId != 0 && (u.kind.None? || u.kind.value in CashboxKinds) && !NoCashboxChange(u)
      && u.cashboxId !in s.cashboxes.rows
      ==> r.response == Fail(NOT_FOUND, "Cashbox not found")
    ensures r.response.Ok? <==>
      u.cashboxId != 0 && (u.kind.None? || u.kind.value in CashboxKinds) && !NoCashboxChange(u)
      && u.cashboxId in s.cashboxes.rows
    ensures r.response.Ok? ==>
      && u.cashboxId in s.cashboxes.rows && r.response.body.id == u.cashboxId && r.response.status == OK
      && r.store == s.(cashboxes := r.store.cashboxes)
      && r.store.cashboxes.rows == s.cashboxes.rows[u.cashboxId := r.response.body.row]
      && var before := s.cashboxes.rows[u.cashboxId];
      && var after := r.response.body.row;
      && after.balance == before.balance
      && (u.name.None? || IsBlank(u.name.value) ==> after.name == before.name)
      && (u.name.Some? && !IsBlank(u.name.value) ==> after.name == Strip(u.name.value))
      && after.kind == u.kind.GetOr(before.kind)
      && (u.isActive.Some? ==> after.isActive == Truthy(u.isActive.value))
      && (u.isActive.None? ==> after.isActive == before.isActive)
  {
    if u.cashboxId == 0 then Reject(s, BAD_REQUEST, "cashbox_id is required")
    else if u.kind.Some? && u.kind.value !in CashboxKinds then Reject(s, BAD_REQUEST, "Invalid type")
    else if NoCashboxChange(u) then Reject(s, BAD_REQUEST, "Nothing to update")
    else if u.cashboxId !in s.cashboxes.rows then Reject(s, NOT_FOUND, "Cashbox not found")
    else
      var row := ApplyCashboxUpdate(s.cashboxes.rows[u.cashboxId], u);
      Reply(s.(cashboxes := s.cashboxes.Set(u.cashboxId, row)), Ok(OK, Saved(u.cashboxId, row)))
  }

  /** One for each payment into cashbox `cb`. */
  function Tally(cb: nat): Payment -> int {
    (p: Payment) => if p.cashboxId == cb then 1 else 0
  }

  /** `SELECT COUNT(*) FROM payments WHERE cashbox_id = cb`. */
  function PaymentCount(s: Store, cb: nat): (n: nat)
    requires s.Valid()
    ensures n > 0 <==> exists k :: k in s.payments.rows && s.payments.rows[k].cashboxId == cb
  {
    SumPositive(s.payments, Tally(cb));
    s.payments.Sum(Tally(cb))
  }

  /** `delete_cashbox`: refused while any payment refers to the cashbox, with the count in
      the message; otherwise the row goes, and a missing id still answers success. */
  function DeleteCashbox(s: Store, cashboxId: nat): (r: Reply<Ack>)
    requires s.Valid()
    ensures r.store.Valid()
    ensures r.response.Fail? ==> r.store == s && r.response.status == BAD_REQUEST
    ensures cashboxId == 0 ==> r.response == Fail(BAD_REQUEST, "cashbox_id is required")
    ensures r.response.Ok? <==>
      cashboxId != 0 && forall k :: k in s.payments.rows ==> s.payments.rows[k].cashboxId != cashboxId
    ensures cashboxId != 0 && PaymentCount(s, cashboxId) > 0 ==>
      r.response == Fail(BAD_REQUEST, "Нельзя удалить кассу — есть " + Decimal(PaymentCount(s, cashboxId)) + " платежей")
    ensures r.response.Ok? ==>
      && r.response.status == OK
      && r.store == s.(cashboxes := r.store.cashboxes)
      && r.store.cashboxes.rows.Keys == s.cashboxes.rows.Keys - {cashboxId}
      && forall k :: k in r.store.cashboxes.rows ==> r.store.cashboxes.rows[k] == s.cashboxes.rows[k]
  {
    if cashboxId == 0 then Reject(s, BAD_REQUEST, "cashbox_id is required")
    else
      var cnt := PaymentCount(s, cashboxId);
      if cnt > 0 then Reject(s, BAD_REQUEST, "Нельзя удалить кассу — есть " + Decimal(cnt) + " платежей")
      else Reply(s.(cashboxes := s.cashboxes.Remove(cashboxId)), Ok(OK, Success))
  }

  // ----------------------------------------------------------------- ledger

  /** How much a payment credited to cashbox `cb`. */
  function PaidInto(cb: nat): Payment -> int {
    (p: Payment) => if p.cashboxId == cb then p.amount else 0
  }

  /** A cashbox's balance with every payment into it undone. */
  function CashOpening(s: Store, cb: nat): int
    requires cb in s.cashboxes.rows
  {
    s.cashboxes.rows[cb].balance - s.payments.Sum(PaidInto(cb))
  }

  /** Every payment names a stored cashbox. */
  ghost predicate PaymentsResolve(s: Store) {
    forall k :: k in s.payments.rows ==> s.payments.rows[k].cashboxId in s.cashboxes.rows
  }

  /** From `s` to `s2`: payments still resolve, no cashbox id is reused, and every cashbox
      present in both keeps its opening. */
  ghost predicate CashConserves(s: Store, s2: Store) {
    && PaymentsResolve(s2)
    && s.cashboxes.next <= s2.cashboxes.next
    && (forall cb :: cb in s2.cashboxes.rows && cb !in s.cashboxes.rows ==> s.cashboxes.next <= cb)
    && forall cb :: cb in s.cashboxes.rows && cb in s2.cashboxes.rows ==> CashOpening(s2, cb) == CashOpening(s, cb)
  }

  lemma CashConservesTrans(a: Store, b: Store, c: Store)
    requires a.Valid() && CashConserves(a, b) && CashConserves(b, c)
    ensures CashConserves(a, c)
  {
    forall cb | cb in a.cashboxes.rows && cb in c.cashboxes.rows
      ensures cb in b.cashboxes.rows
    {
    }
  }

  /** A payment credits exactly what it records. */
  lemma CreatePaymentConserves(s: Store, req: PaymentRequest)
    requires s.Valid() && PaymentsResolve(s) && (req.cashboxId != 0 ==> req.cashboxId in s.cashboxes.rows)
    ensures CashConserves(s, CreatePayment(s, req).store)
  {
    var r := CreatePayment(s, req);
    if r.response.Ok? {
      var id := r.response.body.id;
      forall cb | cb in s.cashboxes.rows
        ensures CashOpening(r.store, cb) == CashOpening(s, cb)
      {
        SumWritten(s.payments, r.store.payments, id, r.response.body.row, PaidInto(cb));
      }
    }
  }

  /** A new cashbox opens at balance 0. */
  lemma CreateCashboxConserves(s: Store, req: CashboxRequest)
    requires s.Valid() && PaymentsResolve(s)
    ensures var r := CreateCashbox(s, req);
      && CashConserves(s, r.store)
      && (r.response.Ok? ==> CashOpening(r.store, r.response.body.id) == 0)
  {
    var r := CreateCashbox(s, req);
    if r.response.Ok? {
      SumZero(s.payments, PaidInto(r.response.body.id));
    }
  }

  lemma UpdateCashboxConserves(s: Store, u: CashboxUpdate)
    requires s.Valid() && PaymentsResolve(s)
    ensures CashConserves(s, UpdateCashbox(s, u).store)
  {
  }

  /** Deleting is allowed only for a cashbox no payment refers to, so payments keep resolving. */
  lemma DeleteCashboxConserves(s: Store, cashboxId: nat)
    requires s.Valid() && PaymentsResolve(s)
    ensures CashConserves(s, DeleteCashbox(s, cashboxId).store)
  {
  }

  datatype Op =
    | PaymentOp(payment: PaymentRequest)
    | CreateCashboxOp(create: CashboxRequest)
    | UpdateCashboxOp(update: CashboxUpdate)
    | DeleteCashboxOp(cashboxId: nat)

  function Step(s: Store, op: Op): (s2: Store)
    requires s.Valid()
    ensures s2.Valid()
  {
    match op
    case PaymentOp(req) => CreatePayment(s, req).store
    case CreateCashboxOp(req) => CreateCashbox(s, req).store
    case UpdateCashboxOp(u) => UpdateCashbox(s, u).store
    case DeleteCashboxOp(id) => DeleteCashbox(s, id).store
  }

  /** A payment names a stored cashbox, as the payments table's foreign key demands. */
  ghost predicate Admissible(s: Store, op: Op) {
    op.PaymentOp? ==> op.payment.cashboxId != 0 ==> op.payment.cashboxId in s.cashboxes.rows
  }

  lemma StepConserves(s: Store, op: Op)
    requires s.Valid() && PaymentsResolve(s) && Admissible(s, op)
    ensures CashConserves(s, Step(s, op))
  {
    match op
    case PaymentOp(req) => CreatePaymentConserves(s, req);
    case CreateCashboxOp(req) => CreateCashboxConserves(s, req);
    case UpdateCashboxOp(u) => UpdateCashboxConserves(s, u);
    case DeleteCashboxOp(id) => DeleteCashboxConserves(s, id);
  }

  function Run(s: Store, ops: seq<Op>): (s2: Store)
    requires s.Valid()
    ensures s2.Valid()
    decreases |ops|
  {
    if |ops| == 0 then s else Run(Step(s, ops[0]), ops[1..])
  }

  ghost predicate AdmissibleRun(s: Store, ops: seq<Op>)
    requires s.Valid()
    decreases |ops|
  {
    |ops| == 0 || (Admissible(s, ops[0]) && AdmissibleRun(Step(s, ops[0]), ops[1..]))
  }

  /** Across any admissible sequence of calls, a cashbox that survives has the balance
      it started with plus every payment credited to it since. */
  lemma {:induction false} RunConserves(s: Store, ops: seq<Op>)
    requires s.Valid() && PaymentsResolve(s) && AdmissibleRun(s, ops)
    ensures CashConserves(s, Run(s, ops))
    ensures forall cb :: cb in s.cashboxes.rows && cb in Run(s, ops).cashboxes.rows ==>
      Run(s, ops).cashboxes.rows[cb].balance == CashOpening(s, cb) + Run(s, ops).payments.Sum(PaidInto(cb))
    decreases |ops|
  {
    if |ops| > 0 {
      var s1 := Step(s, ops[0]);
      StepConserves(s, ops[0]);
      RunConserves(s1, ops[1..]);
      CashConservesTrans(s, s1, Run(s, ops));
    } else {
      assert CashConserves(s, s);
    }
  }

  // ---------------------------------------------------------------- routing

  datatype Action = CreatePaymentAction | CreateCashboxAction | UpdateCashboxAction | DeleteCashboxAction

  function ActionName(a: Action): string {
    match a
    case CreatePaymentAction => "create_payment"
    case CreateCashboxAction => "create_cashbox"
    case UpdateCashboxAction => "update_cashbox"
    case DeleteCashboxAction => "delete_cashbox"
  }

  function ParseAction(name: string): (r: Option<Action>)
    ensures r.Some? ==> ActionName(r.value) == name
    ensures forall a: Action :: ActionName(a) == name ==> r == Some(a)
  {
    if name == "create_payment" then Some(CreatePaymentAction)
    else if name == "create_cashbox" then Some(CreateCashboxAction)
    else if name == "update_cashbox" then Some(UpdateCashboxAction)
    else if name == "delete_cashbox" then Some(DeleteCashboxAction)
    else None
  }

  /** OPTIONS answers the preflight, GET reads a section, POST dispatches on the
      action, and any other method gets 405. */
  function RouteRequest(httpMethod: Option<string>, action: string): (r: Route<Action>)
    ensures httpMethod == Some("OPTIONS") <==> r.Preflight?
    ensures r.Query? <==> MethodOf(httpMethod) == "GET"
    ensures r.Invoke? <==> MethodOf(httpMethod) == "POST" && ParseAction(action).Some?
    ensures r.Invoke? ==> ActionName(r.action) == action
    ensures r.UnknownAction? <==> MethodOf(httpMethod) == "POST" && ParseAction(action).None?
    ensures r.NotAllowed? <==> !(MethodOf(httpMethod) in ["OPTIONS", "GET", "POST"])
  {
    Dispatch(httpMethod, ParseAction(action))
  }
}

=== FILE: http.dfy ===
/** The HTTP envelope, reduced to what the handlers decide: a status code with
    either a payload or an error message, the truthiness of JSON scalars, and
    how a request is routed by method and `action` field. */
module Http {
  import opened Tables

  datatype Response<T> = Ok(status: int, body: T) | Fail(status: int, message: string) {
    predicate IsFailure() {
      Fail?
    }
  }

  const OK := 200
  const CREATED := 201
  const BAD_REQUEST := 400
  const NOT_FOUND := 404
  const METHOD_NOT_ALLOWED := 405
  const SERVER_ERROR := 500

  /** A JSON scalar as it arrives in a request body. */
  datatype Json = JNull | JBool(b: bool) | JInt(i: int) | JStr(s: string)

  /** Python's `bool(v)` on a decoded JSON scalar. */
  predicate Truthy(v: Json) {
    match v
    case JNull => false
    case JBool(b) => b
    case JInt(i) => i != 0
    case JStr(s) => s != ""
  }

  /** Where a handler sends a request before any action runs. */
  datatype Route<A> =
    | Preflight          // OPTIONS: 200 with the CORS headers
    | Query              // GET: the listing
    | Invoke(action: A)  // POST with a known action
    | UnknownAction      // POST with any other action: 400
    | NotAllowed         // any other method: 405
    | NoAnswer           // any other method, in a handler that falls off its end

  /** `event.get('httpMethod', 'GET')`. */
  function MethodOf(m: Option<string>): string {
    m.GetOr("GET")
  }

  /** The routing shared by the handlers that list on GET and act on POST: OPTIONS
      is the preflight, GET the listing, POST runs the parsed action or refuses an
      unknown one, and every other method is refused. */
  function Dispatch<A>(httpMethod: Option<string>, parsed: Option<A>): (r: Route<A>)
    ensures httpMethod == Some("OPTIONS") <==> r.Preflight?
    ensures r.Query? <==> MethodOf(httpMethod) == "GET"
    ensures r.Invoke? <==> MethodOf(httpMethod) == "POST" && parsed.Some?
    ensures r.Invoke? ==> parsed == Some(r.action)
    ensures r.UnknownAction? <==> MethodOf(httpMethod) == "POST" && parsed.None?
    ensures r.NotAllowed? <==> !(MethodOf(httpMethod) in ["OPTIONS", "GET", "POST"])
  {
    if httpMethod == Some("OPTIONS") then Preflight
    else
      var m := MethodOf(httpMethod);
      if m == "GET" then Query
      else if m == "POST" then
        (match parsed case Some(a) => Invoke(a) case None => UnknownAction)
      else NotAllowed
  }
}

=== FILE: ledger.dfy ===
/** The stock ledger that the work-order and warehouse handlers keep between them.
    A product's quantity moves only together with the part rows that consume it and
    the receipt items that deliver it, so
        quantity == opening + Σ delivered − Σ consumed
    holds for an opening that no admissible handler call changes. Admissibility
    covers what the database's foreign keys and the handlers' callers supply: links
    name existing products, and quantity edits of the catalogue are corrections
    outside the ledger. */
module Ledger {
  import opened Tables
  import opened Text
  import opened Http
  import opened Store
  import WorkOrders
  import Warehouse

  /** How much of product `pid` a part row holds. */
  function Consumption(pid: nat): Part -> int {
    (p: Part) => if p.productId == pid then p.qty else 0
  }

  /** How much of product `pid` a receipt item delivered. */
  function Delivery(pid: nat): ReceiptItem -> int {
    (it: ReceiptItem) => if it.productId == pid then it.quantity else 0
  }

  /** The quantity product `pid` would have with every part row and every receipt
      item undone. */
  function Opening(s: Store, pid: nat): int
    requires pid in s.products.rows
  {
    s.products.rows[pid].quantity + s.parts.Sum(Consumption(pid)) - s.receiptItems.Sum(Delivery(pid))
  }

  /** Every product link of a part row or receipt item names a stored product. */
  ghost predicate LinksResolve(s: Store) {
    && (forall k :: k in s.parts.rows && s.parts.rows[k].productId != 0 ==>
          s.parts.rows[k].productId in s.products.rows)
    && (forall k :: k in s.receiptItems.rows && s.receiptItems.rows[k].productId != 0 ==>
          s.receiptItems.rows[k].productId in s.products.rows)
  }

  /** Going from `s` to `s2` keeps every product, keeps links resolving, and leaves
      every product's opening where it was. */
  ghost predicate Conserves(s: Store, s2: Store) {
    && LinksResolve(s2)
    && s.products.rows.Keys <= s2.products.rows.Keys
    && forall pid :: pid in s.products.rows ==> Opening(s2, pid) == Opening(s, pid)
  }

  lemma ConservesTrans(a: Store, b: Store, c: Store)
    requires Conserves(a, b) && Conserves(b, c)
    ensures Conserves(a, c)
  {
  }

  /** A step that leaves products, parts and receipt items alone conserves the ledger. */
  lemma StockUntouched(s: Store, s2: Store)
    requires LinksResolve(s)
    requires s2.products == s.products && s2.parts == s.parts && s2.receiptItems == s.receiptItems
    ensures Conserves(s, s2)
  {
  }

  // ------------------------------------------------------------- work orders

  /** What `create` needs for the ledger: each kept part that is linked names a stored
      product and does not hand stock back through a negative quantity. */
  ghost predicate PartsResolve(s: Store, parts: seq<WorkOrders.PartInput>) {
    forall p :: p in parts && !IsBlank(p.name) && p.productId != 0 ==>
      p.productId in s.products.rows && p.qty.GetOr(1) >= 0
  }

  /** Keeping parts by name, one part at a time. */
  lemma NamedPartsCons(parts: seq<WorkOrders.PartInput>)
    requires |parts| > 0
    ensures WorkOrders.NamedParts(parts)
      == (if IsBlank(parts[0].name) then [] else [parts[0]]) + WorkOrders.NamedParts(parts[1..])
  {
  }

  /** How much of product `pid` a part input would consume once stored as a row. */
  function InputConsumption(pid: nat): WorkOrders.PartInput -> int {
    (p: WorkOrders.PartInput) => if p.productId == pid then p.qty.GetOr(1) else 0
  }

  /** The kept parts consume exactly what `create` takes out of stock. */
  lemma {:induction false} NamedPartsConsume(parts: seq<WorkOrders.PartInput>, pid: nat)
    requires pid != 0
    requires forall p :: p in parts && !IsBlank(p.name) && p.productId != 0 ==> p.qty.GetOr(1) >= 0
    ensures SeqSum(WorkOrders.NamedParts(parts), InputConsumption(pid)) == WorkOrders.StockTaken(parts, pid)
  {
    if |parts| > 0 {
      var p, rest := parts[0], parts[1..];
      assert forall x :: x in rest ==> x in parts;
      NamedPartsConsume(rest, pid);
      NamedPartsCons(parts);
      if !IsBlank(p.name) {
        SeqSumCons(p, WorkOrders.NamedParts(rest), InputConsumption(pid));
      }
    }
  }

  /** The part rows `create` inserts hold exactly what it takes out of stock. */
  lemma PartRowsConsume(woId: nat, parts: seq<WorkOrders.PartInput>, pid: nat)
    requires pid != 0
    requires forall p :: p in parts && !IsBlank(p.name) && p.productId != 0 ==> p.qty.GetOr(1) >= 0
    ensures SeqSum(WorkOrders.PartRows(woId, parts), Consumption(pid)) == WorkOrders.StockTaken(parts, pid)
  {
    var rows, named := WorkOrders.PartRows(woId, parts), WorkOrders.NamedParts(parts);
    SeqSumPointwise(rows, Consumption(pid), named, InputConsumption(pid));
    NamedPartsConsume(parts, pid);
  }

  /** Opening an order leaves every product's opening where it was. */
  lemma OpenKeepsOpenings(s: Store, req: WorkOrders.CreateRequest)
    requires s.Valid() && PartsResolve(s, req.parts)
    ensures var s2 := WorkOrders.OpenWorkOrder(s, req).0;
      && s2.products.rows.Keys == s.products.rows.Keys
      && forall pid :: pid in s.products.rows ==> Opening(s2, pid) == Opening(s, pid)
  {
    var (s2, v) := WorkOrders.OpenWorkOrder(s, req);
    var rows := WorkOrders.PartRows(v.id, req.parts);
    forall pid | pid in s.products.rows
      ensures Opening(s2, pid) == Opening(s, pid)
    {
      SumInsertAll(s.parts, rows, Consumption(pid));
      PartRowsConsume(v.id, req.parts, pid);
    }
  }

  /** The part rows an opened order adds link only to stored products. */
  lemma OpenKeepsLinks(s: Store, req: WorkOrders.CreateRequest)
    requires s.Valid() && LinksResolve(s) && PartsResolve(s, req.parts)
    ensures LinksResolve(WorkOrders.OpenWorkOrder(s, req).0)
  {
    var (s2, v) := WorkOrders.OpenWorkOrder(s, req);
    var rows := WorkOrders.PartRows(v.id, req.parts);
    var named := WorkOrders.NamedParts(req.parts);
    forall k | k in s2.parts.rows && s2.parts.rows[k].productId != 0
      ensures s2.parts.rows[k].productId in s2.products.rows
    {
      if k !in s.parts.rows {
        InsertedRow(s.parts, rows, k);
        var j := k - s.parts.next;
        assert named[j] in req.parts && !IsBlank(named[j].name);
      }
    }
  }

  lemma CreateWorkOrderConserves(s: Store, req: WorkOrders.CreateRequest)
    requires s.Valid() && LinksResolve(s) && PartsResolve(s, req.parts)
    ensures Conserves(s, WorkOrders.CreateWorkOrder(s, req).store)
  {
    if !IsBlank(req.client) {
      OpenKeepsOpenings(s, req);
      OpenKeepsLinks(s, req);
    }
  }

  lemma AddPartConserves(s: Store, req: WorkOrders.AddPartRequest)
    requires s.Valid() && LinksResolve(s)
    ensures Conserves(s, WorkOrders.AddPart(s, req).store)
  {
    var r := WorkOrders.AddPart(s, req);
    if r.response.Ok? {
      var id := r.response.body.id;
      var row := WorkOrders.AddedPartRow(req.workOrderId, req.part, WorkOrders.LinkedProduct(s, req.part.productId));
      forall pid | pid in s.products.rows
        ensures Opening(r.store, pid) == Opening(s, pid)
      {
        SumWritten(s.parts, r.store.parts, id, row, Consumption(pid));
      }
    }
  }

  lemma UpdatePartConserves(s: Store, req: WorkOrders.UpdatePartRequest)
    requires s.Valid() && LinksResolve(s)
    ensures Conserves(s, WorkOrders.UpdatePart(s, req).store)
  {
    var r := WorkOrders.UpdatePart(s, req);
    if r.response.Ok? {
      var k := req.partId;
      var after := r.store.parts.rows[k];
      assert r.store.parts.rows == s.parts.rows[k := after];
      forall pid | pid in s.products.rows
        ensures Opening(r.store, pid) == Opening(s, pid)
      {
        SumWritten(s.parts, r.store.parts, k, after, Consumption(pid));
      }
    }
  }

  lemma DeletePartConserves(s: Store, partId: nat)
    requires s.Valid() && LinksResolve(s)
    ensures Conserves(s, WorkOrders.DeletePart(s, partId).store)
  {
    var r := WorkOrders.DeletePart(s, partId);
    if r.response.Ok? && partId in s.parts.rows {
      var t := s.parts.Remove(partId);
      assert r.store.parts.rows == t.rows;
      forall pid | pid in s.products.rows
        ensures Opening(r.store, pid) == Opening(s, pid)
      {
        SumSameRows(t, r.store.parts, Consumption(pid));
        SumRemove(s.parts, partId, Consumption(pid));
      }
    }
  }

  // --------------------------------------------------------------- warehouse

  /** How much of product `pid` a submitted item would deliver once stored. */
  function ItemDelivery(pid: nat): Warehouse.ItemInput -> int {
    (it: Warehouse.ItemInput) => if it.productId == pid then it.quantity.GetOr(0) else 0
  }

  /** The booked items deliver exactly what the receipt restocks. */
  lemma {:induction false} BookedItemsDeliver(items: seq<Warehouse.ItemInput>, pid: nat)
    ensures SeqSum(Filter(items, Warehouse.Books), ItemDelivery(pid)) == Warehouse.Received(items, pid)
  {
    if |items| > 0 {
      var it, rest := items[0], items[1..];
      BookedItemsDeliver(rest, pid);
      if Warehouse.Books(it) {
        assert Filter(items, Warehouse.Books) == [it] + Filter(rest, Warehouse.Books);
        SeqSumCons(it, Filter(rest, Warehouse.Books), ItemDelivery(pid));
      } else {
        assert Filter(items, Warehouse.Books) == Filter(rest, Warehouse.Books);
      }
    }
  }

  /** The receipt items a receipt stores deliver exactly what it restocks. */
  lemma ReceiptRowsDeliver(receiptId: nat, items: seq<Warehouse.ItemInput>, pid: nat)
    ensures SeqSum(Warehouse.ReceiptRows(receiptId, items), Delivery(pid)) == Warehouse.Received(items, pid)
  {
    SeqSumPointwise(Warehouse.ReceiptRows(receiptId, items), Delivery(pid),
                    Filter(items, Warehouse.Books), ItemDelivery(pid));
    BookedItemsDeliver(items, pid);
  }

  /** What a receipt needs for the ledger: each booked item names a stored product. */
  ghost predicate ItemsResolve(s: Store, items: seq<Warehouse.ItemInput>) {
    forall it :: it in items && Warehouse.Books(it) ==> it.productId in s.products.rows
  }

  lemma CreateReceiptConserves(s: Store, req: Warehouse.ReceiptRequest)
    requires s.Valid() && LinksResolve(s) && ItemsResolve(s, req.items)
    ensures Conserves(s, Warehouse.CreateReceipt(s, req).store)
  {
    ReceiptKeepsOpenings(s, req);
    ReceiptKeepsLinks(s, req);
  }

  /** A receipt's delivered quantities are exactly what its rows add to the sum. */
  lemma ReceiptKeepsOpenings(s: Store, req: Warehouse.ReceiptRequest)
    requires s.Valid()
    ensures var s2 := Warehouse.CreateReceipt(s, req).store;
      forall pid :: pid in s.products.rows ==> pid in s2.products.rows && Opening(s2, pid) == Opening(s, pid)
  {
    var r := Warehouse.CreateReceipt(s, req);
    if r.response.Ok? {
      var rows := Warehouse.ReceiptRows(r.response.body.id, req.items);
      forall pid | pid in s.products.rows
        ensures pid in r.store.products.rows && Opening(r.store, pid) == Opening(s, pid)
      {
        SumInsertAll(s.receiptItems, rows, Delivery(pid));
        ReceiptRowsDeliver(r.response.body.id, req.items, pid);
      }
    }
  }

  /** Every row a receipt adds links a stored product. */
  lemma ReceiptKeepsLinks(s: Store, req: Warehouse.ReceiptRequest)
    requires s.Valid() && LinksResolve(s) && ItemsResolve(s, req.items)
    ensures LinksResolve(Warehouse.CreateReceipt(s, req).store)
  {
    var r := Warehouse.CreateReceipt(s, req);
    if r.response.Ok? {
      var s2 := r.store;
      var rows := Warehouse.ReceiptRows(r.response.body.id, req.items);
      var booked := Filter(req.items, Warehouse.Books);
      forall k | k in s2.receiptItems.rows && s2.receiptItems.rows[k].productId != 0
        ensures s2.receiptItems.rows[k].productId in s2.products.rows
      {
        if k !in s.receiptItems.rows {
          InsertedRow(s.receiptItems, rows, k);
          var j := k - s.receiptItems.next;
          assert booked[j] in req.items && Warehouse.Books(booked[j]);
        }
      }
    }
  }

  /** A new product opens with the quantity it is created with. */
  lemma CreateProductConserves(s: Store, req: Warehouse.ProductRequest)
    requires s.Valid() && LinksResolve(s)
    ensures var r := Warehouse.CreateProduct(s, req);
      && Conserves(s, r.store)
      && (r.response.Ok? ==> Opening(r.store, r.response.body.id) == r.response.body.row.quantity)
  {
    var r := Warehouse.CreateProduct(s, req);
    if r.response.Ok? {
      var id := r.response.body.id;
      SumZero(s.parts, Consumption(id));
      SumZero(s.receiptItems, Delivery(id));
    }
  }

  /** Editing a product without touching its quantity. */
  lemma UpdateProductConserves(s: Store, u: Warehouse.ProductUpdate)
    requires s.Valid() && LinksResolve(s) && u.quantity.None?
    ensures Conserves(s, Warehouse.UpdateProduct(s, u).store)
  {
    var r := Warehouse.UpdateProduct(s, u);
    assert r.store.parts == s.parts && r.store.receiptItems == s.receiptItems;
    assert r.store.products.rows.Keys == s.products.rows.Keys;
    forall pid | pid in s.products.rows
      ensures r.store.products.rows[pid].quantity == s.products.rows[pid].quantity
    {
    }
  }

  // --------------------------------------------------------------- sequences

  /** The handlers that touch stock or sit beside it. */
  datatype Op =
    | CreateOrder(create: WorkOrders.CreateRequest)
    | UpdateOrder(update: WorkOrders.UpdateRequest, now: nat)
    | AddWorkOp(addWork: WorkOrders.AddWorkRequest)
    | UpdateWorkOp(updateWork: WorkOrders.UpdateWorkRequest)
    | DeleteWorkOp(workId: nat)
    | AddPartOp(addPart: WorkOrders.AddPartRequest)
    | UpdatePartOp(updatePart: WorkOrders.UpdatePartRequest)
    | DeletePartOp(partId: nat)
    | CreateProductOp(product: Warehouse.ProductRequest)
    | UpdateProductOp(productUpdate: Warehouse.ProductUpdate)
    | CreateSupplierOp(supplier: Warehouse.SupplierRequest)
    | UpdateSupplierOp(supplierUpdate: Warehouse.SupplierUpdate)
    | CreateReceiptOp(receipt: Warehouse.ReceiptRequest)

  /** The store after one handler call. */
  function Step(s: Store, op: Op): (s2: Store)
    requires s.Valid()
    ensures s2.Valid()
  {
    match op
    case CreateOrder(req) => WorkOrders.CreateWorkOrder(s, req).store
    case UpdateOrder(req, now) => WorkOrders.UpdateWorkOrder(s, req, now).store
    case AddWorkOp(req) => WorkOrders.AddWork(s, req).store
    case UpdateWorkOp(req) => WorkOrders.UpdateWork(s, req).store
    case DeleteWorkOp(id) => WorkOrders.DeleteWork(s, id).store
    case AddPartOp(req) => WorkOrders.AddPart(s, req).store
    case UpdatePartOp(req) => WorkOrders.UpdatePart(s, req).store
    case DeletePartOp(id) => WorkOrders.DeletePart(s, id).store
    case CreateProductOp(req) => Warehouse.CreateProduct(s, req).store
    case UpdateProductOp(u) => Warehouse.UpdateProduct(s, u).store
    case CreateSupplierOp(req) => Warehouse.CreateSupplier(s, req).store
    case UpdateSupplierOp(u) => Warehouse.UpdateSupplier(s, u).store
    case CreateReceiptOp(req) => Warehouse.CreateReceipt(s, req).store
  }

  ghost predicate Admissible(s: Store, op: Op) {
    match op
    case CreateOrder(req) => PartsResolve(s, req.parts)
    case UpdateProductOp(u) => u.quantity.None?
    case CreateReceiptOp(req) => ItemsResolve(s, req.items)
    case _ => true
  }

  lemma StepConserves(s: Store, op: Op)
    requires s.Valid() && LinksResolve(s) && Admissible(s, op)
    ensures Conserves(s, Step(s, op))
  {
    match op
    case CreateOrder(req) => CreateWorkOrderConserves(s, req);
    case AddPartOp(req) => AddPartConserves(s, req);
    case UpdatePartOp(req) => UpdatePartConserves(s, req);
    case DeletePartOp(id) => DeletePartConserves(s, id);
    case CreateProductOp(req) => CreateProductConserves(s, req);
    case UpdateProductOp(u) => UpdateProductConserves(s, u);
    case CreateReceiptOp(req) => CreateReceiptConserves(s, req);
    case UpdateOrder(req, now) => UpdateOrderConserves(s, req, now);
    case AddWorkOp(req) => AddWorkConserves(s, req);
    case UpdateWorkOp(req) => UpdateWorkConserves(s, req);
    case DeleteWorkOp(id) => DeleteWorkConserves(s, id);
    case CreateSupplierOp(req) => CreateSupplierConserves(s, req);
    case UpdateSupplierOp(u) => UpdateSupplierConserves(s, u);
  }

  lemma UpdateOrderConserves(s: Store, req: WorkOrders.UpdateRequest, now: nat)
    requires s.Valid() && LinksResolve(s)
    ensures Conserves(s, WorkOrders.UpdateWorkOrder(s, req, now).store)
  {
    StockUntouched(s, WorkOrders.UpdateWorkOrder(s, req, now).store);
  }

  lemma AddWorkConserves(s: Store, req: WorkOrders.AddWorkRequest)
    requires s.Valid() && LinksResolve(s)
    ensures Conserves(s, WorkOrders.AddWork(s, req).store)
  {
    StockUntouched(s, WorkOrders.AddWork(s, req).store);
  }

  lemma UpdateWorkConserves(s: Store, req: WorkOrders.UpdateWorkRequest)
    requires s.Valid() && LinksResolve(s)
    ensures Conserves(s, WorkOrders.UpdateWork(s, req).store)
  {
    StockUntouched(s, WorkOrders.UpdateWork(s, req).store);
  }

  lemma DeleteWorkConserves(s: Store, workId: nat)
    requires s.Valid() && LinksResolve(s)
    ensures Conserves(s, WorkOrders.DeleteWork(s, workId).store)
  {
    StockUntouched(s, WorkOrders.DeleteWork(s, workId).store);
  }

  lemma CreateSupplierConserves(s: Store, req: Warehouse.SupplierRequest)
    requires s.Valid() && LinksResolve(s)
    ensures Conserves(s, Warehouse.CreateSupplier(s, req).store)
  {
    StockUntouched(s, Warehouse.CreateSupplier(s, req).store);
  }

  lemma UpdateSupplierConserves(s: Store, u: Warehouse.SupplierUpdate)
    requires s.Valid() && LinksResolve(s)
    ensures Conserves(s, Warehouse.UpdateSupplier(s, u).store)
  {
    StockUntouched(s, Warehouse.UpdateSupplier(s, u).store);
  }

  /** The store after a sequence of handler calls. */
  function Run(s: Store, ops: seq<Op>): (s2: Store)
    requires s.Valid()
    ensures s2.Valid()
    decreases |ops|
  {
    if |ops| == 0 then s else Run(Step(s, ops[0]), ops[1..])
  }

  /** Every call is admissible in the store it meets. */
  ghost predicate AdmissibleRun(s: Store, ops: seq<Op>)
    requires s.Valid()
    decreases |ops|
  {
    |ops| == 0 || (Admissible(s, ops[0]) && AdmissibleRun(Step(s, ops[0]), ops[1..]))
  }

  /** Across any admissible sequence of calls every product keeps its opening:
      its quantity stays the opening plus what receipts delivered minus what parts hold. */
  lemma {:induction false} RunConserves(s: Store, ops: seq<Op>)
    requires s.Valid() && LinksResolve(s) && AdmissibleRun(s, ops)
    ensures Conserves(s, Run(s, ops))
    ensures forall pid :: pid in s.products.rows ==>
      Run(s, ops).products.rows[pid].quantity
        == Opening(s, pid) + Run(s, ops).receiptItems.Sum(Delivery(pid)) - Run(s, ops).parts.Sum(Consumption(pid))
    decreases |ops|
  {
    if |ops| > 0 {
      var s1 := Step(s, ops[0]);
      StepConserves(s, ops[0]);
      RunConserves(s1, ops[1..]);
      ConservesTrans(s, s1, Run(s, ops));
    }
  }

  /** Adding a part and deleting it again leaves every product's stock as it was. */
  lemma AddThenDeletePartRestoresStock(s: Store, req: WorkOrders.AddPartRequest)
    requires s.Valid()
    ensures var r := WorkOrders.AddPart(s, req);
      r.response.Ok? ==> WorkOrders.DeletePart(r.store, r.response.body.id).store.products == s.products
  {
    var r := WorkOrders.AddPart(s, req);
    if r.response.Ok? {
      var id := r.response.body.id;
      var pid, q := req.part.productId, req.part.qty.GetOr(1);
      assert r.store.parts.rows[id].productId == pid && r.store.parts.rows[id].qty == q;
      assert WorkOrders.DeletePart(r.store, id).store.products == AdjustQuantity(r.store.products, pid, q);
      AdjustQuantityUndo(s.products, pid, q);
    }
  }
}

=== FILE: orders.dfy ===
/** Customer requests (backend/orders/index.py): a request needs a client name
    and a phone, starts in status "new", moves between four statuses, and is shown
    under the number "З-" followed by its zero-padded id. */
module Orders {
  import opened Tables
  import opened Text
  import opened Http
  import opened Store

  /** The statuses a request may take. */
  const OrderStatuses: seq<string> := ["new", "contacted", "approved", "rejected"]

  /** The number a request is shown under. */
  function OrderNumber(id: nat): (n: string)
    ensures |n| >= 6 && n[..2] == "З-" && n[2..] == ZFill(Decimal(id), 4)
  {
    Label("З-", id)
  }

  /** An order number names exactly one request, and its digits read back as the id. */
  lemma OrderNumberDecodes(id: nat)
    ensures OrderNumber(id)[..|"З-"|] == "З-"
    ensures |OrderNumber(id)| >= |"З-"| + 4
    ensures AllDigits(OrderNumber(id)[|"З-"|..])
    ensures ParseDecimal(OrderNumber(id)[|"З-"|..]) == id
    ensures forall other: nat :: OrderNumber(other) == OrderNumber(id) ==> other == id
  {
    LabelDecodes("З-", id);
    forall other: nat | OrderNumber(other) == OrderNumber(id) ensures other == id {
      LabelInjective("З-", other, id);
    }
  }

  /** A request as the listing and `create` return it (the date is not modelled). */
  datatype OrderView = OrderView(
    id: nat, number: string, client: string, clientId: nat, phone: string,
    car: string, service: string, status: string, comment: string)

  function FormatOrder(id: nat, o: Order): (v: OrderView)
    ensures v.id == id && v.number == OrderNumber(id)
    ensures v.client == o.clientName && v.clientId == o.clientId && v.phone == o.phone
    ensures v.car == o.carInfo && v.service == o.service && v.status == o.status && v.comment == o.comment
  {
    OrderView(id, OrderNumber(id), o.clientName, o.clientId, o.phone, o.carInfo, o.service, o.status, o.comment)
  }

  /** Every stored request is in one of the four statuses. */
  ghost predicate StatusesValid(s: Store) {
    forall k :: k in s.orders.rows ==> s.orders.rows[k].status in OrderStatuses
  }

  // ----------------------------------------------------------------- create

  datatype OrderRequest = OrderRequest(
    client: Option<string>, phone: Option<string>, car: Option<string>,
    service: Option<string>, comment: Option<string>, clientId: nat)

  /** `create`: client name and phone must be non-blank once trimmed; every text
      field is trimmed, the client id is kept as given, and the status is "new". */
  function CreateOrder(s: Store, req: OrderRequest): (r: Reply<OrderView>)
    requires s.Valid()
    ensures r.store.Valid()
    ensures r.response.Ok? <==> !IsBlank(req.client.GetOr("")) && !IsBlank(req.phone.GetOr(""))
    ensures r.response.Fail? ==> r.store == s && r.response == Fail(BAD_REQUEST, "client and phone are required")
    ensures r.response.Ok? ==>
      && r.response.status == CREATED
      && var v := r.response.body;
      && v.id !in s.orders.rows && v.number == OrderNumber(v.id)
      && v.status == "new" && v.clientId == req.clientId
      && v.client == Strip(req.client.GetOr("")) && v.phone == Strip(req.phone.GetOr(""))
      && v.car == Strip(req.car.GetOr("")) && v.service == Strip(req.service.GetOr(""))
      && v.comment == Strip(req.comment.GetOr(""))
      && r.store == s.(orders := r.store.orders)
      && r.store.orders.rows == s.orders.rows[v.id :=
           Order(v.clientId, v.client, v.phone, v.car, v.service, "new", v.comment, None)]
  {
    if IsBlank(req.client.GetOr("")) || IsBlank(req.phone.GetOr("")) then
      Reject(s, BAD_REQUEST, "client and phone are required")
    else
      var row := Order(
        req.clientId, Strip(req.client.GetOr("")), Strip(req.phone.GetOr("")),
        Strip(req.car.GetOr("")), Strip(req.service.GetOr("")), "new", Strip(req.comment.GetOr("")), None);
      var (orders, id) := s.orders.Insert(row);
      Reply(s.(orders := orders), Ok(CREATED, FormatOrder(id, row)))
  }

  /** A stored request's client name and phone are never blank when it came through `create`. */
  lemma CreatedOrderHasContact(s: Store, req: OrderRequest)
    requires s.Valid() && CreateOrder(s, req).response.Ok?
    ensures var v := CreateOrder(s, req).response.body;
      !IsBlank(v.client) && !IsBlank(v.phone)
  {
    StrippedIsNotBlank(req.client.GetOr(""));
    StrippedIsNotBlank(req.phone.GetOr(""));
  }

  // ----------------------------------------------------------------- status

  /** `update_status`: the id must be non-zero and the status one of the four;
      the status is then written, and success is reported whether or not a
      request with that id exists. */
  function UpdateOrderStatus(s: Store, orderId: nat, status: Option<string>): (r: Reply<Ack>)
    requires s.Valid()
    ensures r.store.Valid()
    ensures r.response.Ok? <==> orderId != 0 && status.GetOr("") in OrderStatuses
    ensures r.response.Fail? ==> r.store == s && r.response == Fail(BAD_REQUEST, "order_id and valid status are required")
    ensures r.response.Ok? ==>
      && r.response == Ok(OK, Success)
      && r.store == s.(orders := r.store.orders)
      && r.store.orders.rows.Keys == s.orders.rows.Keys
      && (orderId in s.orders.rows ==>
            r.store.orders.rows[orderId] == s.orders.rows[orderId].(status := status.GetOr("")))
      && (forall k :: k in s.orders.rows && k != orderId ==> r.store.orders.rows[k] == s.orders.rows[k])
  {
    var st := status.GetOr("");
    if orderId == 0 || st !in OrderStatuses then
      Reject(s, BAD_REQUEST, "order_id and valid status are required")
    else if orderId in s.orders.rows then
      Reply(s.(orders := s.orders.Set(orderId, s.orders.rows[orderId].(status := st))), Ok(OK, Success))
    else
      Reply(s, Ok(OK, Success))
  }

  /** Neither handler ever stores a status outside the four. */
  lemma CreateKeepsStatusesValid(s: Store, req: OrderRequest)
    requires s.Valid() && StatusesValid(s)
    ensures StatusesValid(CreateOrder(s, req).store)
  {
  }

  lemma UpdateKeepsStatusesValid(s: Store, orderId: nat, status: Option<string>)
    requires s.Valid() && StatusesValid(s)
    ensures StatusesValid(UpdateOrderStatus(s, orderId, status).store)
  {
  }

  /** Writing the same status twice is the same as writing it once. */
  lemma UpdateStatusIdempotent(s: Store, orderId: nat, status: Option<string>)
    requires s.Valid()
    ensures var r := UpdateOrderStatus(s, orderId, status);
      UpdateOrderStatus(r.store, orderId, status) == Reply(r.store, r.response)
  {
    var r := UpdateOrderStatus(s, orderId, status);
    if r.response.Ok? && orderId in s.orders.rows {
      assert r.store.orders.rows[orderId := r.store.orders.rows[orderId]] == r.store.orders.rows;
    }
  }

  // ---------------------------------------------------------------- listing

  /** GET: every request, newest first. */
  function ListOrders(s: Store): (r: seq<OrderView>)
    requires s.Valid()
    ensures |r| == |s.orders.Newest()|
    ensures forall i :: 0 <= i < |r| ==>
      r[i].id == s.orders.Newest()[i] && r[i].id in s.orders.rows
      && r[i] == FormatOrder(r[i].id, s.orders.rows[r[i].id])
  {
    var ids := s.orders.Newest();
    NewestInRows(s.orders);
    seq(|ids|, i requires 0 <= i < |ids| => FormatOrder(ids[i], s.orders.rows[ids[i]]))
  }

  /** The listing shows every stored request exactly once, newest first, each as stored. */
  lemma ListingIsComplete(s: Store)
    requires s.Valid()
    ensures var r := ListOrders(s);
      && (forall k :: k in s.orders.rows <==> exists i :: 0 <= i < |r| && r[i].id == k)
      && (forall i, j :: 0 <= i < j < |r| ==> r[i].id > r[j].id)
  {
    var r := ListOrders(s);
    var ids := s.orders.Newest();
    NewestOrder(s.orders);
    forall k | k in s.orders.rows ensures exists i :: 0 <= i < |r| && r[i].id == k {
      var i :| 0 <= i < |ids| && ids[i] == k;
      assert r[i].id == k;
    }
    forall i, j | 0 <= i < j < |r| ensures r[i].id > r[j].id {
      assert r[i].id == ids[i] && r[j].id == ids[j];
    }
  }

  // ---------------------------------------------------------------- routing

  datatype Action = CreateAction | UpdateStatusAction

  function ActionName(a: Action): string {
    match a
    case CreateAction => "create"
    case UpdateStatusAction => "update_status"
  }

  function ParseAction(name: string): (r: Option<Action>)
    ensures r.Some? ==> ActionName(r.value) == name
    ensures forall a: Action :: ActionName(a) == name ==> r == Some(a)
  {
    if name == "create" then Some(CreateAction)
    else if name == "update_status" then Some(UpdateStatusAction)
    else None
  }

  function RouteRequest(httpMethod: Option<string>, action: string): (r: Route<Action>)
    ensures httpMethod == Some("OPTIONS") <==> r.Preflight?
    ensures r.Query? <==> MethodOf(httpMethod) == "GET"
    ensures r.Invoke? <==> MethodOf(httpMethod) == "POST" && ParseAction(action).Some?
    ensures r.Invoke? ==> ActionName(r.action) == action
    ensures r.UnknownAction? <==> MethodOf(httpMethod) == "POST" && ParseAction(action).None?
    ensures r.NotAllowed? <==> !(MethodOf(httpMethod) in ["OPTIONS", "GET", "POST"])
  {
    Dispatch(httpMethod, ParseAction(action))
  }
}

=== FILE: store.dfy ===
/** The relational store shared by all handlers: one table per entity. Ids are
    positive; an id field holding 0 stands for SQL NULL (and for a request field
    that Python treats as falsy). */
module Store {
  import opened Tables
  import opened Http

  datatype Product = Product(
    sku: string, name: string, description: string, category: string, unit: string,
    purchasePrice: int, quantity: int, minQuantity: int, isActive: bool)

  datatype Supplier = Supplier(
    name: string, contactPerson: string, phone: string, email: string,
    inn: string, address: string, notes: string, isActive: bool)

  datatype Receipt = Receipt(
    number: string, supplierId: nat, documentNumber: string, documentDate: Option<string>,
    totalAmount: int, notes: string)

  datatype ReceiptItem = ReceiptItem(receiptId: nat, productId: nat, quantity: int, price: int)

  datatype WorkOrder = WorkOrder(
    orderId: nat, clientId: nat, carId: nat, clientName: string, carInfo: string,
    status: string, master: string, payerClientId: nat, payerName: string,
    employeeId: nat, issuedAt: Option<nat>)

  datatype Work = Work(
    workOrderId: nat, name: string, price: int, qty: int,
    normHours: int, normHourPrice: int, discount: int)

  datatype Part = Part(
    workOrderId: nat, name: string, qty: int, sellPrice: int, purchasePrice: int, productId: nat)

  datatype Cashbox = Cashbox(name: string, kind: string, balance: int, isActive: bool)

  datatype Payment = Payment(workOrderId: nat, cashboxId: nat, amount: int, paymentMethod: string, comment: string)

  datatype Employee = Employee(name: string, role: string, phone: string, email: string, isActive: bool)

  datatype Client = Client(name: string, phone: string, email: string, comment: string)

  datatype Car = Car(clientId: nat, brand: string, model: string, year: string, vin: string, isActive: bool)

  /** `source` is None where the insert leaves the column to its default. */
  datatype Order = Order(
    clientId: nat, clientName: string, phone: string, carInfo: string, service: string,
    status: string, comment: string, source: Option<string>)

  datatype SyncedChat = SyncedChat(chatId: string, avitoUserId: string, orderId: nat, lastMessageId: string)

  datatype Store = Store(
    products: Table<Product>, suppliers: Table<Supplier>,
    receipts: Table<Receipt>, receiptItems: Table<ReceiptItem>,
    workOrders: Table<WorkOrder>, works: Table<Work>, parts: Table<Part>,
    cashboxes: Table<Cashbox>, payments: Table<Payment>,
    employees: Table<Employee>, clients: Table<Client>, cars: Table<Car>,
    orders: Table<Order>, syncedChats: Table<SyncedChat>)
  {
    ghost predicate Valid() {
      && products.Valid() && suppliers.Valid() && receipts.Valid() && receiptItems.Valid()
      && workOrders.Valid() && works.Valid() && parts.Valid()
      && cashboxes.Valid() && payments.Valid()
      && employees.Valid() && clients.Valid() && cars.Valid()
      && orders.Valid() && syncedChats.Valid()
    }
  }

  /** A created or updated row with its id, as the handlers return it. */
  datatype Saved<T> = Saved(id: nat, row: T)

  /** The `{'success': True}` body. */
  datatype Ack = Success

  /** What a handler hands back: the store after the request, and the response. */
  datatype Reply<T> = Reply(store: Store, response: Response<T>)

  /** An error reply: the store is returned as it was. */
  function Reject<T>(s: Store, status: int, message: string): (r: Reply<T>)
    ensures r.store == s && r.response.Fail? && r.response.status == status
  {
    Reply(s, Fail(status, message))
  }

  /** `UPDATE products SET quantity = quantity + delta WHERE id = pid`: a missing id
      matches no row and changes nothing. */
  function AdjustQuantity(t: Table<Product>, pid: nat, delta: int): (r: Table<Product>)
    requires t.Valid()
    ensures r.Valid() && r.rows.Keys == t.rows.Keys && r.next == t.next
    ensures pid in t.rows ==> r.rows[pid] == t.rows[pid].(quantity := t.rows[pid].quantity + delta)
    ensures forall k :: k in t.rows && k != pid ==> r.rows[k] == t.rows[k]
    ensures pid !in t.rows ==> r == t
  {
    if pid in t.rows then t.Set(pid, t.rows[pid].(quantity := t.rows[pid].quantity + delta)) else t
  }

  /** Moving a quantity out and back in again restores the table. */
  lemma AdjustQuantityUndo(t: Table<Product>, pid: nat, delta: int)
    requires t.Valid()
    ensures AdjustQuantity(AdjustQuantity(t, pid, -delta), pid, delta) == t
  {
    var back := AdjustQuantity(AdjustQuantity(t, pid, -delta), pid, delta);
    assert back.rows == t.rows;
  }
}

=== FILE: tables.dfy ===
/** A relational table as the handlers see it: rows keyed by a positive id, plus
    the id sequence that hands out the next key (SQL `SERIAL`). Sums over a table
    are taken in ascending id order, which is what the ledger proofs count with. */
module Tables {

  datatype Option<+T> = None | Some(value: T) {
    function GetOr(default: T): T {
      match this
      case Some(v) => v
      case None => default
    }
  }

  datatype Table<T> = Table(rows: map<nat, T>, next: nat) {

    /** Every stored id is positive and below the sequence's next value. */
    ghost predicate Valid() {
      next >= 1 && forall k :: k in rows ==> 1 <= k < next
    }

    /** INSERT ... RETURNING id: the row lands under a fresh id. */
    function Insert(v: T): (r: (Table<T>, nat))
      requires Valid()
      ensures r.1 == next && r.0.next == next + 1
      ensures r.1 !in rows && r.1 >= 1
      ensures r.0.rows == rows[r.1 := v] && r.0.Valid()
      ensures |r.0.rows| == |rows| + 1
    {
      (Table(rows[next := v], next + 1), next)
    }

    /** UPDATE ... WHERE id = k on an existing row. */
    function Set(k: nat, v: T): (r: Table<T>)
      requires Valid() && k in rows
      ensures r.Valid() && r.rows.Keys == rows.Keys && r.rows[k] == v
      ensures forall j :: j in rows && j != k ==> r.rows[j] == rows[j]
    {
      Table(rows[k := v], next)
    }

    /** DELETE ... WHERE id = k; deleting a missing id changes nothing. */
    function Remove(k: nat): (r: Table<T>)
      requires Valid()
      ensures r.Valid() && r.rows.Keys == rows.Keys - {k}
      ensures forall j :: j in r.rows ==> r.rows[j] == rows[j]
      ensures k !in rows ==> r == this
    {
      if k in rows then Table(map j | j in rows && j != k :: rows[j], next) else this
    }

    /** Every id of the table, ascending (`ORDER BY id`). */
    function Ids(): (r: seq<nat>)
      ensures StrictlyIncreasing(r)
      ensures forall k :: k in r <==> k in rows && k < next
    {
      KeysBelow(rows, next)
    }

    /** The ids, highest (newest) first: `ORDER BY created_at DESC` with ids in creation order. */
    function Newest(): (r: seq<nat>)
      ensures |r| == |Ids()|
      ensures forall i :: 0 <= i < |r| ==> r[i] == Ids()[|r| - 1 - i]
    {
      var ids := Ids();
      seq(|ids|, i requires 0 <= i < |ids| => ids[|ids| - 1 - i])
    }

    /** `COALESCE(MAX(id), 0)`. */
    function MaxId(): (r: nat)
      requires Valid()
      ensures r == 0 <==> rows == map[]
      ensures r != 0 ==> r in rows && forall k :: k in rows ==> k <= r
    {
      var ids := Ids();
      if |ids| == 0 then
        assert forall k :: k in rows ==> k in ids;
        0
      else
        assert forall k :: k in rows ==> k in ids;
        assert forall i :: 0 <= i < |ids| ==> ids[i] <= ids[|ids| - 1];
        assert ids[|ids| - 1] in ids;
        assert ids[|ids| - 1] in rows && ids[|ids| - 1] >= 1;
        ids[|ids| - 1]
    }

    /** Σ f(row) over every row. */
    function Sum(f: T -> int): int {
      SumBelow(rows, f, next)
    }
  }

  /** Inserts `vs` one after another; they land under consecutive fresh ids. */
  function InsertAll<T>(t: Table<T>, vs: seq<T>): (r: (Table<T>, seq<nat>))
    requires t.Valid()
    ensures r.0.Valid() && r.0.next == t.next + |vs| && |r.1| == |vs|
    ensures forall k :: k in r.0.rows <==> k in t.rows || t.next <= k < t.next + |vs|
    ensures forall k :: k in t.rows ==> r.0.rows[k] == t.rows[k]
    ensures forall j :: 0 <= j < |vs| ==> r.1[j] == t.next + j && r.0.rows[t.next + j] == vs[j]
    decreases |vs|
  {
    if |vs| == 0 then (t, [])
    else
      var before := InsertAll(t, vs[..|vs| - 1]);
      var last := before.0.Insert(vs[|vs| - 1]);
      (last.0, before.1 + [last.1])
  }

  function Empty<T>(): (r: Table<T>)
    ensures r.Valid() && r.rows == map[]
  {
    Table(map[], 1)
  }

  predicate StrictlyIncreasing(s: seq<nat>) {
    forall i, j :: 0 <= i < j < |s| ==> s[i] < s[j]
  }

  predicate StrictlyDecreasing(s: seq<nat>) {
    forall i, j :: 0 <= i < j < |s| ==> s[i] > s[j]
  }

  /** Every position of the newest-first listing names a stored row. */
  lemma NewestInRows<T>(t: Table<T>)
    requires t.Valid()
    ensures forall i :: 0 <= i < |t.Newest()| ==> t.Newest()[i] in t.rows
  {
    var r, ids := t.Newest(), t.Ids();
    forall i | 0 <= i < |r| ensures r[i] in t.rows {
      assert r[i] == ids[|ids| - 1 - i] && ids[|ids| - 1 - i] in ids;
    }
  }

  /** Newest-first holds every id of the table once, in strictly descending order. */
  lemma NewestOrder<T>(t: Table<T>)
    requires t.Valid()
    ensures forall k :: k in t.rows <==> k in t.Newest()
    ensures StrictlyDecreasing(t.Newest())
  {
    var r, ids := t.Newest(), t.Ids();
    forall k | k in t.rows ensures k in r {
      assert k in ids;
      var j :| 0 <= j < |ids| && ids[j] == k;
      assert r[|ids| - 1 - j] == k;
    }
    forall k | k in r ensures k in t.rows {
      var j :| 0 <= j < |r| && r[j] == k;
      assert ids[|ids| - 1 - j] in ids;
    }
  }

  /** The keys of `m` below `n`, ascending. */
  function KeysBelow<T>(m: map<nat, T>, n: nat): (r: seq<nat>)
    ensures StrictlyIncreasing(r)
    ensures forall k :: k in r <==> k in m && k < n
    ensures forall i :: 0 <= i < |r| ==> r[i] < n
  {
    if n == 0 then []
    else if n - 1 in m then KeysBelow(m, n - 1) + [n - 1]
    else KeysBelow(m, n - 1)
  }

  /** Σ f(m[k]) for the keys k of `m` below `n`. */
  function SumBelow<T>(m: map<nat, T>, f: T -> int, n: nat): int {
    if n == 0 then 0
    else SumBelow(m, f, n - 1) + (if n - 1 in m then f(m[n - 1]) else 0)
  }

  /** Two maps that agree (for `f`) below `n` have the same sum below `n`. */
  lemma {:induction false} SumBelowAgree<T>(m: map<nat, T>, m': map<nat, T>, f: T -> int, n: nat)
    requires forall k :: k < n ==> (k in m <==> k in m')
    requires forall k :: k < n && k in m && k in m' ==> f(m[k]) == f(m'[k])
    ensures SumBelow(m, f, n) == SumBelow(m', f, n)
  {
    if n > 0 {
      SumBelowAgree(m, m', f, n - 1);
    }
  }

  /** Overwriting (or adding) the entry at `k < n` moves the sum by the difference. */
  lemma {:induction false} SumBelowSet<T>(m: map<nat, T>, f: T -> int, n: nat, k: nat, v: T)
    requires k < n
    ensures SumBelow(m[k := v], f, n) == SumBelow(m, f, n) - (if k in m then f(m[k]) else 0) + f(v)
  {
    if k == n - 1 {
      SumBelowAgree(m[k := v], m, f, n - 1);
    } else {
      SumBelowSet(m, f, n - 1, k, v);
    }
  }

  /** Dropping the entry at `k < n` takes its contribution out of the sum. */
  lemma {:induction false} SumBelowRemove<T>(m: map<nat, T>, f: T -> int, n: nat, k: nat)
    requires k < n && k in m
    ensures SumBelow(map j | j in m && j != k :: m[j], f, n) == SumBelow(m, f, n) - f(m[k])
  {
    var m' := map j | j in m && j != k :: m[j];
    if k == n - 1 {
      SumBelowAgree(m', m, f, n - 1);
    } else {
      SumBelowRemove(m, f, n - 1, k);
    }
  }

  /** A sum of contributions that are all zero is zero. */
  lemma {:induction false} SumBelowZero<T>(m: map<nat, T>, f: T -> int, n: nat)
    requires forall k :: k in m && k < n ==> f(m[k]) == 0
    ensures SumBelow(m, f, n) == 0
  {
    if n > 0 {
      SumBelowZero(m, f, n - 1);
    }
  }

  /** Inserting a row adds exactly its contribution to the table's sum. */
  lemma SumInsert<T>(t: Table<T>, v: T, f: T -> int)
    requires t.Valid()
    ensures t.Insert(v).0.Sum(f) == t.Sum(f) + f(v)
  {
    var t' := t.Insert(v).0;
    SumBelowAgree(t'.rows, t.rows, f, t.next);
  }

  /** Replacing a row moves the table's sum by the difference of contributions. */
  lemma SumSet<T>(t: Table<T>, k: nat, v: T, f: T -> int)
    requires t.Valid() && k in t.rows
    ensures t.Set(k, v).Sum(f) == t.Sum(f) - f(t.rows[k]) + f(v)
  {
    SumBelowSet(t.rows, f, t.next, k, v);
  }

  /** Deleting a row takes its contribution out of the table's sum. */
  lemma SumRemove<T>(t: Table<T>, k: nat, f: T -> int)
    requires t.Valid()
    ensures t.Remove(k).Sum(f) == t.Sum(f) - (if k in t.rows then f(t.rows[k]) else 0)
  {
    if k in t.rows {
      SumBelowRemove(t.rows, f, t.next, k);
    }
  }

  /** A table none of whose rows contributes has sum zero. */
  lemma SumZero<T>(t: Table<T>, f: T -> int)
    requires forall k :: k in t.rows ==> f(t.rows[k]) == 0
    ensures t.Sum(f) == 0
  {
    SumBelowZero(t.rows, f, t.next);
  }

  /** With no negative contributions, a sum below `n` is positive exactly when some
      row below `n` contributes. */
  lemma {:induction false} SumBelowPositive<T>(m: map<nat, T>, f: T -> int, n: nat)
    requires forall k :: k in m ==> f(m[k]) >= 0
    ensures SumBelow(m, f, n) >= 0
    ensures SumBelow(m, f, n) > 0 <==> exists k :: k < n && k in m && f(m[k]) > 0
  {
    if n > 0 {
      SumBelowPositive(m, f, n - 1);
      if SumBelow(m, f, n - 1) > 0 {
        var k :| k < n - 1 && k in m && f(m[k]) > 0;
        assert k < n;
      }
    }
  }

  /** A table sum of non-negative contributions is positive exactly when some row contributes. */
  lemma SumPositive<T>(t: Table<T>, f: T -> int)
    requires t.Valid() && forall k :: k in t.rows ==> f(t.rows[k]) >= 0
    ensures t.Sum(f) >= 0
    ensures t.Sum(f) > 0 <==> exists k :: k in t.rows && f(t.rows[k]) > 0
  {
    SumBelowPositive(t.rows, f, t.next);
  }

  /** Raising the bound past keys that are absent does not change the sum. */
  lemma {:induction false} SumBelowExtend<T>(m: map<nat, T>, f: T -> int, n: nat, n': nat)
    requires n <= n' && forall k :: k in m ==> k < n
    ensures SumBelow(m, f, n') == SumBelow(m, f, n)
    decreases n' - n
  {
    if n' > n {
      SumBelowExtend(m, f, n, n' - 1);
    }
  }

  /** The sum of a table depends only on its rows. */
  lemma SumSameRows<T>(t: Table<T>, u: Table<T>, f: T -> int)
    requires t.Valid() && u.Valid() && t.rows == u.rows
    ensures u.Sum(f) == t.Sum(f)
  {
    if t.next <= u.next {
      SumBelowExtend(t.rows, f, t.next, u.next);
    } else {
      SumBelowExtend(u.rows, f, u.next, t.next);
    }
  }

  /** Writing row `k` (new or replaced) moves the sum by the difference of contributions. */
  lemma SumWritten<T>(t: Table<T>, u: Table<T>, k: nat, v: T, f: T -> int)
    requires t.Valid() && u.Valid() && u.rows == t.rows[k := v]
    ensures u.Sum(f) == t.Sum(f) - (if k in t.rows then f(t.rows[k]) else 0) + f(v)
  {
    var n0 := if t.next <= k then k + 1 else t.next;
    var n := if n0 <= u.next then u.next else n0;
    SumBelowExtend(t.rows, f, t.next, n);
    SumBelowExtend(u.rows, f, u.next, n);
    SumBelowSet(t.rows, f, n, k, v);
  }

  /** Σ f over a sequence, left to right. */
  function SeqSum<T>(s: seq<T>, f: T -> int): int {
    if |s| == 0 then 0 else SeqSum(s[..|s| - 1], f) + f(s[|s| - 1])
  }

  lemma {:induction false} SeqSumAppend<T>(a: seq<T>, b: seq<T>, f: T -> int)
    ensures SeqSum(a + b, f) == SeqSum(a, f) + SeqSum(b, f)
  {
    if |b| == 0 {
      assert a + b == a;
    } else {
      assert (a + b)[..|a + b| - 1] == a + b[..|b| - 1];
      SeqSumAppend(a, b[..|b| - 1], f);
    }
  }

  /** Two sequences whose elements contribute the same, position by position, sum the same. */
  lemma {:induction false} SeqSumPointwise<A, B>(a: seq<A>, f: A -> int, b: seq<B>, g: B -> int)
    requires |a| == |b| && forall i :: 0 <= i < |a| ==> f(a[i]) == g(b[i])
    ensures SeqSum(a, f) == SeqSum(b, g)
  {
    if |a| > 0 {
      SeqSumPointwise(a[..|a| - 1], f, b[..|b| - 1], g);
    }
  }

  /** A row that `InsertAll` added holds the value inserted under that id. */
  lemma InsertedRow<T>(t: Table<T>, vs: seq<T>, k: nat)
    requires t.Valid() && k in InsertAll(t, vs).0.rows && k !in t.rows
    ensures t.next <= k < t.next + |vs| && InsertAll(t, vs).0.rows[k] == vs[k - t.next]
  {
    var j := k - t.next;
    assert InsertAll(t, vs).0.rows[t.next + j] == vs[j];
  }

  /** Σ f over a sequence, taken from the front. */
  lemma SeqSumCons<T>(x: T, s: seq<T>, f: T -> int)
    ensures SeqSum([x] + s, f) == f(x) + SeqSum(s, f)
  {
    SeqSumAppend([x], s, f);
    assert [x][..0] == [];
  }

  /** Inserting a sequence of rows adds their contributions to the table's sum. */
  lemma {:induction false} SumInsertAll<T>(t: Table<T>, vs: seq<T>, f: T -> int)
    requires t.Valid()
    ensures InsertAll(t, vs).0.Sum(f) == t.Sum(f) + SeqSum(vs, f)
    decreases |vs|
  {
    if |vs| > 0 {
      var before := InsertAll(t, vs[..|vs| - 1]);
      SumInsertAll(t, vs[..|vs| - 1], f);
      SumInsert(before.0, vs[|vs| - 1], f);
    }
  }

  /** The position of the first element of `s` that satisfies `p`, or `|s|` when none does. */
  function FirstIndex<T>(s: seq<T>, p: T -> bool): (r: nat)
    ensures r <= |s|
    ensures forall l :: 0 <= l < r ==> !p(s[l])
    ensures r < |s| ==> p(s[r])
  {
    if |s| == 0 || p(s[0]) then 0
    else
      var r := FirstIndex(s[1..], p);
      assert forall l :: 1 <= l < |s| ==> s[l] == s[1..][l - 1];
      r + 1
  }

  /** The elements of `s` that satisfy `p`, in order (a list comprehension with a filter). */
  function Filter<T>(s: seq<T>, p: T -> bool): (r: seq<T>)
    ensures |r| <= |s|
    ensures forall i :: 0 <= i < |r| ==> r[i] in s && p(r[i])
    ensures forall i :: 0 <= i < |s| && p(s[i]) ==> s[i] in r
  {
    if |s| == 0 then []
    else if p(s[0]) then [s[0]] + Filter(s[1..], p)
    else Filter(s[1..], p)
  }

  lemma {:induction false} FilterPreservesIncreasing(s: seq<nat>, p: nat -> bool)
    requires StrictlyIncreasing(s)
    ensures StrictlyIncreasing(Filter(s, p))
  {
    if |s| > 0 {
      FilterPreservesIncreasing(s[1..], p);
      var rest := Filter(s[1..], p);
      forall x | x in rest ensures s[0] < x {
        var i :| 0 <= i < |s[1..]| && s[1..][i] == x;
      }
    }
  }

  lemma {:induction false} FilterPreservesDecreasing(s: seq<nat>, p: nat -> bool)
    requires StrictlyDecreasing(s)
    ensures StrictlyDecreasing(Filter(s, p))
  {
    if |s| > 0 {
      FilterPreservesDecreasing(s[1..], p);
      var rest := Filter(s[1..], p);
      forall x | x in rest ensures s[0] > x {
        var i :| 0 <= i < |s[1..]| && s[1..][i] == x;
      }
    }
  }

  /** Filtering twice is filtering once by the conjunction. */
  lemma {:induction false} FilterFilter<T>(s: seq<T>, p: T -> bool, q: T -> bool, pq: T -> bool)
    requires forall x :: pq(x) == (p(x) && q(x))
    ensures Filter(Filter(s, p), q) == Filter(s, pq)
  {
    if |s| > 0 {
      FilterFilter(s[1..], p, q, pq);
      if p(s[0]) {
        assert Filter(s, p) == [s[0]] + Filter(s[1..], p);
        assert Filter(s, p)[1..] == Filter(s[1..], p);
      }
    }
  }
}

=== FILE: text.dfy ===
/** The string helpers the handlers lean on: Python's `str.strip`, `str.upper`,
    `str(n)`, `str.zfill`, slicing, and the `{:,}` thousands format. */
module Text {

  /** The characters Python's `str.strip()` removes: those `str.isspace()` accepts,
      namely tab to carriage return, the four separators U+001C..U+001F, the space,
      and the Unicode spaces and line and paragraph separators. */
  predicate IsSpace(c: char) {
    || ('\t' <= c <= '\r') || ('\U{1C}' <= c <= '\U{1F}') || c == ' '
    || c == '\U{85}' || c == '\U{A0}' || c == '\U{1680}'
    || ('\U{2000}' <= c <= '\U{200A}') || c == '\U{2028}' || c == '\U{2029}'
    || c == '\U{202F}' || c == '\U{205F}' || c == '\U{3000}'
  }

  predicate AllSpace(s: string) {
    forall i :: 0 <= i < |s| ==> IsSpace(s[i])
  }

  /** Number of whitespace characters at the front of `s`. */
  function Leading(s: string): (n: nat)
    ensures n <= |s| && AllSpace(s[..n])
    ensures n < |s| ==> !IsSpace(s[n])
  {
    if |s| > 0 && IsSpace(s[0]) then
      var n := 1 + Leading(s[1..]);
      assert s[..n] == [s[0]] + s[1..][..n - 1];
      n
    else 0
  }

  lemma AllSpaceAppend(s: string, c: char)
    requires AllSpace(s) && IsSpace(c)
    ensures AllSpace(s + [c])
  {
    assert forall i :: 0 <= i < |s| ==> (s + [c])[i] == s[i];
  }

  /** Number of whitespace characters at the back of `s`. */
  function Trailing(s: string): (n: nat)
    ensures n <= |s| && AllSpace(s[|s| - n..])
    ensures n < |s| ==> !IsSpace(s[|s| - n - 1])
  {
    if |s| > 0 && IsSpace(s[|s| - 1]) then
      var n := 1 + Trailing(s[..|s| - 1]);
      assert s[|s| - n..] == s[..|s| - 1][|s| - n..] + [s[|s| - 1]];
      AllSpaceAppend(s[..|s| - 1][|s| - n..], s[|s| - 1]);
      n
    else 0
  }

  /** `s.strip()`: `s` with its leading and trailing whitespace cut off. */
  function Strip(s: string): (r: string)
    ensures Leading(s) + |r| <= |s|
    ensures r == s[Leading(s)..Leading(s) + |r|]
    ensures AllSpace(s[..Leading(s)]) && AllSpace(s[Leading(s) + |r|..])
    ensures r == [] || (!IsSpace(r[0]) && !IsSpace(r[|r| - 1]))
  {
    var a := Leading(s);
    var tail := s[a..];
    var b := Trailing(tail);
    var r := tail[..|tail| - b];
    assert r == s[a..a + |r|];
    assert s[a + |r|..] == tail[|tail| - b..];
    assert r == [] || r[0] == s[a];
    r
  }

  /** `not s.strip()`: nothing but whitespace. */
  predicate IsBlank(s: string) {
    AllSpace(s)
  }

  /** A string is blank exactly when stripping it leaves nothing. */
  lemma BlankIffStripEmpty(s: string)
    ensures IsBlank(s) <==> Strip(s) == []
  {
    var r := Strip(s);
    assert r == [] || r[0] == s[Leading(s)];
    assert s == s[..Leading(s)] + s[Leading(s)..];
  }

  lemma {:induction false} LeadingOfStripped(s: string)
    requires s == [] || (!IsSpace(s[0]) && !IsSpace(s[|s| - 1]))
    ensures Leading(s) == 0 && Trailing(s) == 0
  {
  }

  /** Stripping twice strips nothing more. */
  lemma StripIdempotent(s: string)
    ensures Strip(Strip(s)) == Strip(s)
  {
    var r := Strip(s);
    LeadingOfStripped(r);
    assert r[0..] == r;
  }

  /** Trimming a non-blank string leaves it non-blank. */
  lemma StrippedIsNotBlank(v: string)
    ensures !IsBlank(v) ==> !IsBlank(Strip(v))
  {
    BlankIffStripEmpty(v);
    StripIdempotent(v);
    BlankIffStripEmpty(Strip(v));
  }

  /** The lower-case letters `Upper` maps one for one: a–z, the Latin-1 letters
      à–ö and ø–þ, and the Cyrillic а–я and ѐ–џ. */
  predicate CasedLower(c: char) {
    || ('a' <= c <= 'z') || ('\U{E0}' <= c <= '\U{F6}') || ('\U{F8}' <= c <= '\U{FE}')
    || ('\U{430}' <= c <= '\U{45F}')
  }

  /** Python's `str.upper()` on one of the letters above; every other character is
      kept as it is. */
  function UpperChar(c: char): (u: char)
    ensures !CasedLower(u)
    ensures ('a' <= c <= 'z') || ('\U{E0}' <= c <= '\U{FE}' && c != '\U{F7}') || ('\U{430}' <= c <= '\U{44F}')
      ==> u as int == c as int - 32
    ensures '\U{450}' <= c <= '\U{45F}' ==> u as int == c as int - 80
    ensures !CasedLower(c) ==> u == c
  {
    if ('\U{450}' <= c <= '\U{45F}') then (c as int - 80) as char
    else if CasedLower(c) then (c as int - 32) as char
    else c
  }

  /** `s.upper()`, character by character. */
  function Upper(s: string): (r: string)
    ensures |r| == |s|
    ensures forall i :: 0 <= i < |s| ==> r[i] == UpperChar(s[i])
    ensures forall i :: 0 <= i < |r| ==> !CasedLower(r[i])
  {
    seq(|s|, i requires 0 <= i < |s| => UpperChar(s[i]))
  }

  /** Python's `s[:n]`. */
  function Take(s: string, n: nat): (r: string)
    ensures |r| <= n && |r| <= |s|
    ensures |s| <= n ==> r == s
    ensures |s| > n ==> |r| == n
    ensures r == s[..|r|]
  {
    if |s| <= n then s else s[..n]
  }

  /** `sep.join(lines)`. */
  function Join(lines: seq<string>, sep: string): string {
    if |lines| == 0 then ""
    else if |lines| == 1 then lines[0]
    else lines[0] + sep + Join(lines[1..], sep)
  }

  // ---------------------------------------------------------------- decimals

  predicate IsDigit(c: char) {
    '0' <= c <= '9'
  }

  predicate AllDigits(s: string) {
    forall i :: 0 <= i < |s| ==> IsDigit(s[i])
  }

  function DigitChar(d: nat): (c: char)
    requires d < 10
    ensures IsDigit(c) && c as int - '0' as int == d
  {
    ('0' as int + d) as char
  }

  function DigitValue(c: char): nat
    requires IsDigit(c)
  {
    c as int - '0' as int
  }

  /** `str(n)` for a natural number: its decimal digits, without leading zeros. */
  function Decimal(n: nat): (r: string)
    ensures |r| >= 1 && AllDigits(r)
    ensures n > 0 ==> r[0] != '0'
    ensures n < 10 <==> |r| == 1
  {
    if n < 10 then [DigitChar(n)]
    else Decimal(n / 10) + [DigitChar(n % 10)]
  }

  /** The value of a digit string, read most-significant first. */
  function ParseDecimal(s: string): nat
    requires AllDigits(s)
  {
    if |s| == 0 then 0 else ParseDecimal(s[..|s| - 1]) * 10 + DigitValue(s[|s| - 1])
  }

  /** Reading `str(n)` back gives `n`. */
  lemma {:induction false} DecimalRoundTrip(n: nat)
    ensures ParseDecimal(Decimal(n)) == n
  {
    if n >= 10 {
      var d := Decimal(n);
      assert d[..|d| - 1] == Decimal(n / 10);
      DecimalRoundTrip(n / 10);
    }
  }

  function Zeros(k: nat): (r: string)
    ensures |r| == k && AllDigits(r)
    ensures forall i :: 0 <= i < k ==> r[i] == '0'
  {
    seq(k, i => '0')
  }

  /** Leading zeros do not change a digit string's value. */
  lemma {:induction false} ParseLeadingZeros(k: nat, s: string)
    requires AllDigits(s)
    ensures AllDigits(Zeros(k) + s) && ParseDecimal(Zeros(k) + s) == ParseDecimal(s)
  {
    var z := Zeros(k) + s;
    assert AllDigits(z) by {
      forall i | 0 <= i < |z| ensures IsDigit(z[i]) {
        if i < k { assert z[i] == '0'; } else { assert z[i] == s[i - k]; }
      }
    }
    if |s| == 0 {
      ParseZeros(k);
      assert z == Zeros(k);
    } else {
      assert z[..|z| - 1] == Zeros(k) + s[..|s| - 1];
      ParseLeadingZeros(k, s[..|s| - 1]);
    }
  }

  lemma {:induction false} ParseZeros(k: nat)
    ensures ParseDecimal(Zeros(k)) == 0
  {
    if k > 0 {
      assert Zeros(k)[..k - 1] == Zeros(k - 1);
      ParseZeros(k - 1);
    }
  }

  /** `s.zfill(w)` for a digit string: left-padded with zeros to at least `w`. */
  function ZFill(s: string, w: nat): (r: string)
    ensures |r| == if |s| >= w then |s| else w
    ensures r == Zeros(|r| - |s|) + s
  {
    if |s| >= w then
      assert Zeros(0) + s == s;
      s
    else Zeros(w - |s|) + s
  }

  /** A display number: `prefix` followed by the id zero-padded to at least four digits,
      as in `f"ЗН-{str(id).zfill(4)}"`. */
  function Label(prefix: string, id: nat): string {
    prefix + ZFill(Decimal(id), 4)
  }

  /** A label starts with its prefix, has at least four digits after it, and those
      digits read back as the id. */
  lemma LabelDecodes(prefix: string, id: nat)
    ensures |Label(prefix, id)| == |prefix| + (if id < 10000 then 4 else |Decimal(id)|)
    ensures Label(prefix, id)[..|prefix|] == prefix
    ensures AllDigits(Label(prefix, id)[|prefix|..])
    ensures ParseDecimal(Label(prefix, id)[|prefix|..]) == id
  {
    var d := Decimal(id);
    var z := ZFill(d, 4);
    assert Label(prefix, id)[|prefix|..] == z;
    ParseLeadingZeros(|z| - |d|, d);
    DecimalRoundTrip(id);
    DecimalLength(id);
  }

  lemma {:induction false} DecimalLength(n: nat)
    ensures n < 10000 <==> |Decimal(n)| <= 4
  {
    if n >= 10 {
      DecimalLength(n / 10);
    }
  }

  /** Distinct ids never share a label. */
  lemma LabelInjective(prefix: string, a: nat, b: nat)
    requires Label(prefix, a) == Label(prefix, b)
    ensures a == b
  {
    LabelDecodes(prefix, a);
    LabelDecodes(prefix, b);
  }

  /** `str(i)` for any integer. */
  function IntText(i: int): (r: string)
    ensures i >= 0 ==> r == Decimal(i)
    ensures i < 0 ==> r == "-" + Decimal(-i)
  {
    if i < 0 then "-" + Decimal(-i) else Decimal(i)
  }

  // ------------------------------------------------------ thousands grouping

  /** Digits split into groups of three from the right, joined by single spaces
      (`f"{n:,}".replace(",", " ")` on the digits of n). */
  function Group(ds: string): (r: string)
    ensures |ds| <= 3 ==> r == ds
  {
    if |ds| <= 3 then ds else Group(ds[..|ds| - 3]) + " " + ds[|ds| - 3..]
  }

  function WithoutSpaces(s: string): string {
    if |s| == 0 then "" else WithoutSpaces(s[..|s| - 1]) + (if s[|s| - 1] == ' ' then "" else [s[|s| - 1]])
  }

  lemma {:induction false} WithoutSpacesAppend(a: string, b: string)
    ensures WithoutSpaces(a + b) == WithoutSpaces(a) + WithoutSpaces(b)
  {
    if |b| > 0 {
      assert (a + b)[..|a + b| - 1] == a + b[..|b| - 1];
      WithoutSpacesAppend(a, b[..|b| - 1]);
    } else {
      assert a + b == a;
    }
  }

  lemma {:induction false} WithoutSpacesOfDigits(s: string)
    requires AllDigits(s)
    ensures WithoutSpaces(s) == s
  {
    if |s| > 0 {
      WithoutSpacesOfDigits(s[..|s| - 1]);
    }
  }

  /** Removing the separators from a grouped digit string gives the digits back. */
  lemma {:induction false} GroupRoundTrip(ds: string)
    requires AllDigits(ds)
    ensures WithoutSpaces(Group(ds)) == ds
  {
    if |ds| <= 3 {
      WithoutSpacesOfDigits(ds);
    } else {
      var head := ds[..|ds| - 3];
      var tail := ds[|ds| - 3..];
      GroupRoundTrip(head);
      WithoutSpacesAppend(Group(head) + " ", tail);
      WithoutSpacesAppend(Group(head), " ");
      WithoutSpacesOfDigits(tail);
      assert WithoutSpaces(" ") == "";
      assert head + tail == ds;
    }
  }

  /** `g` opens with one to three digits, followed by a space or the end. */
  predicate LeadingGroup(g: string) {
    exists k :: 1 <= k <= 3 && k <= |g| && AllDigits(g[..k]) && (k == |g| || g[k] == ' ')
  }

  /** A grouped string is digits and spaces; a space is always followed by exactly three digits
      before the next space or the end, and the first group has one to three digits. */
  lemma {:induction false} GroupShape(ds: string)
    requires AllDigits(ds) && |ds| >= 1
    ensures 1 <= |Group(ds)|
    ensures IsDigit(Group(ds)[0]) && IsDigit(Group(ds)[|Group(ds)| - 1])
    ensures forall i :: 0 <= i < |Group(ds)| ==> IsDigit(Group(ds)[i]) || Group(ds)[i] == ' '
    ensures forall i :: 0 <= i < |Group(ds)| && Group(ds)[i] == ' ' ==>
      i + 3 < |Group(ds)| && AllDigits(Group(ds)[i + 1..i + 4]) && (i + 4 == |Group(ds)| || Group(ds)[i + 4] == ' ')
    ensures LeadingGroup(Group(ds))
  {
    GroupChars(ds);
    GroupSeparators(ds);
    GroupLeads(ds);
  }

  /** A grouped string is non-empty, made of digits and spaces, and begins and ends with a digit. */
  lemma {:induction false} GroupChars(ds: string)
    requires AllDigits(ds) && |ds| >= 1
    ensures 1 <= |Group(ds)|
    ensures IsDigit(Group(ds)[0]) && IsDigit(Group(ds)[|Group(ds)| - 1])
    ensures forall i :: 0 <= i < |Group(ds)| ==> IsDigit(Group(ds)[i]) || Group(ds)[i] == ' '
  {
    if |ds| > 3 {
      var head := ds[..|ds| - 3];
      GroupChars(head);
      var g := Group(ds);
      var gh := Group(head);
      var tl := ds[|ds| - 3..];
      assert g == gh + " " + tl;
      forall i | 0 <= i < |g|
        ensures IsDigit(g[i]) || g[i] == ' '
      {
        if i < |gh| {
          assert g[i] == gh[i];
        } else if i > |gh| {
          assert g[i] == tl[i - |gh| - 1];
        }
      }
    }
  }

  /** Every space of a grouped string is followed by exactly three digits, then a space or the end. */
  lemma {:induction false} GroupSeparators(ds: string)
    requires AllDigits(ds) && |ds| >= 1
    ensures forall i :: 0 <= i < |Group(ds)| && Group(ds)[i] == ' ' ==>
      i + 3 < |Group(ds)| && AllDigits(Group(ds)[i + 1..i + 4]) && (i + 4 == |Group(ds)| || Group(ds)[i + 4] == ' ')
  {
    if |ds| <= 3 {
      assert Group(ds) == ds;
    } else {
      var head := ds[..|ds| - 3];
      GroupSeparators(head);
      var g := Group(ds);
      var gh := Group(head);
      var tl := ds[|ds| - 3..];
      assert g == gh + " " + tl;
      assert |g| == |gh| + 4;
      forall i | 0 <= i < |g| && g[i] == ' '
        ensures i + 3 < |g| && AllDigits(g[i + 1..i + 4]) && (i + 4 == |g| || g[i + 4] == ' ')
      {
        if i < |gh| {
          assert g[i] == gh[i];
          assert g[i + 1..i + 4] == gh[i + 1..i + 4];
          if i + 4 < |gh| {
            assert g[i + 4] == gh[i + 4];
          } else {
            assert g[i + 4] == ' ';
          }
        } else if i == |gh| {
          assert g[i + 1..i + 4] == tl;
        } else {
          assert false;
        }
      }
    }
  }

  /** The first group of a grouped digit string has one to three digits. */
  lemma {:induction false} GroupLeads(ds: string)
    requires AllDigits(ds) && |ds| >= 1
    ensures LeadingGroup(Group(ds))
  {
    if |ds| <= 3 {
      assert ds[..|ds|] == ds;
    } else {
      var head := ds[..|ds| - 3];
      GroupLeads(head);
      var g := Group(ds);
      var gh := Group(head);
      assert g == gh + " " + ds[|ds| - 3..];
      var k :| 1 <= k <= 3 && k <= |gh| && AllDigits(gh[..k]) && (k == |gh| || gh[k] == ' ');
      assert g[..k] == gh[..k];
      assert g[k] == (if k == |gh| then ' ' else gh[k]);
    }
  }
}

=== FILE: tgsend.dfy ===
/** Sending a work order to a client over Telegram (backend/tgsend/index.py): the
    request is checked, the order is looked up with its works and parts, and a
    message is composed listing them with subtotals and a grand total. The bot's
    answer, which arrives over the network, is a parameter here. */
module TgSend {
  import opened Tables
  import opened Text
  import opened Http
  import opened Store
  import WorkOrders
  import WorkTypes

  // ------------------------------------------------------------------ money

  /** `f"{int(n):,}".replace(",", " ")`: the whole amount with its thousands
      separated by spaces. */
  function Amount(n: int): string {
    var digits := Decimal(if n < 0 then -n else n);
    if n < 0 then "-" + Group(digits) else Group(digits)
  }

  /** Dropping the group separators gives back the plain decimal number. */
  lemma AmountDigits(n: int)
    ensures WithoutSpaces(Amount(n)) == IntText(n)
  {
    var digits := Decimal(if n < 0 then -n else n);
    GroupRoundTrip(digits);
    if n < 0 {
      WithoutSpacesAppend("-", Group(digits));
      assert WithoutSpaces("-") == "-";
    }
  }

  /** `price(n)`: the amount followed by the rouble sign. */
  function Price(n: int): (p: string)
    ensures |p| >= 3 && p[|p| - 2..] == " ₽"
  {
    AmountDigits(n);
    Amount(n) + " ₽"
  }

  /** A price reads back as its integer once the rouble sign and the group
      separators are dropped. */
  lemma PriceReadsBack(n: int)
    ensures var p := Price(n); WithoutSpaces(p[..|p| - 2]) == IntText(n)
  {
    AmountDigits(n);
    assert Price(n)[..|Price(n)| - 2] == Amount(n);
  }

  /** A non-negative amount is its digits in groups of three from the right, with
      one to three digits in the first group. */
  lemma AmountGroupsDigits(n: nat)
    ensures var a := Amount(n);
      && 1 <= |a| && IsDigit(a[0]) && IsDigit(a[|a| - 1])
      && (forall i :: 0 <= i < |a| ==> IsDigit(a[i]) || a[i] == ' ')
      && (forall i :: 0 <= i < |a| && a[i] == ' ' ==>
            i + 3 < |a| && AllDigits(a[i + 1..i + 4]) && (i + 4 == |a| || a[i + 4] == ' '))
      && LeadingGroup(a)
  {
    assert Amount(n) == Group(Decimal(n));
    GroupShape(Decimal(n));
  }

  // ---------------------------------------------------------------- message

  /** Σ price over the works: their quantity plays no part. */
  function WorkCharge(w: Work): int {
    w.price
  }

  /** sell price × quantity. */
  function PartCharge(p: Part): int {
    p.sellPrice * p.qty
  }

  /** Σ over the works of their price. */
  function WorksTotal(works: seq<Work>): int {
    SeqSum(works, WorkCharge)
  }

  /** Σ over the parts of sell price × quantity. */
  function PartsTotal(parts: seq<Part>): int {
    SeqSum(parts, PartCharge)
  }

  /** What the message bills: every work's price and every part's sell price × quantity. */
  function GrandTotal(works: seq<Work>, parts: seq<Part>): int {
    WorksTotal(works) + PartsTotal(parts)
  }

  const WorksHeading := "<b>Работы:</b>"
  const PartsHeading := "<b>Запчасти:</b>"

  function SubtotalLine(total: int): string {
    "<b>Итого: " + Price(total) + "</b>"
  }

  function GrandTotalLine(total: int): string {
    "\U{1F4B0} <b>ИТОГО: " + Price(total) + "</b>"
  }

  function WorkLine(n: nat, w: Work): string {
    "  " + Decimal(n) + ". " + w.name + " — " + Price(w.price)
  }

  function PartLine(n: nat, p: Part): string {
    "  " + Decimal(n) + ". " + p.name + " x" + IntText(p.qty) + " — " + Price(p.sellPrice * p.qty)
  }

  /** The title, date, client and car lines, then a blank line. A missing car shows as a dash. */
  function HeaderLines(id: nat, wo: WorkOrder, date: string): seq<string> {
    [ TitleLine(id),
      "\U{1F4C5} " + date,
      "\U{1F464} " + wo.clientName,
      "\U{1F697} " + (if wo.carInfo == "" then "—" else wo.carInfo),
      "" ]
  }

  /** The works, numbered from 1, one line each. */
  function WorkLines(works: seq<Work>): (r: seq<string>)
    ensures |r| == |works| && forall i :: 0 <= i < |works| ==> r[i] == WorkLine(i + 1, works[i])
  {
    seq(|works|, i requires 0 <= i < |works| => WorkLine(i + 1, works[i]))
  }

  /** The parts, numbered from 1, one line each. */
  function PartLines(parts: seq<Part>): (r: seq<string>)
    ensures |r| == |parts| && forall i :: 0 <= i < |parts| ==> r[i] == PartLine(i + 1, parts[i])
  {
    seq(|parts|, i requires 0 <= i < |parts| => PartLine(i + 1, parts[i]))
  }

  /** A section: its heading, its numbered lines, the subtotal and a blank line;
      nothing at all when it has no lines. */
  function Section(heading: string, items: seq<string>, subtotal: int): (r: seq<string>)
    ensures |r| == (if items == [] then 0 else |items| + 3)
    ensures items != [] ==>
      && r[0] == heading
      && (forall i :: 0 <= i < |items| ==> r[1 + i] == items[i])
      && r[1 + |items|] == SubtotalLine(subtotal)
      && r[|r| - 1] == ""
  {
    if items == [] then [] else [heading] + items + [SubtotalLine(subtotal), ""]
  }

  function WorksSection(works: seq<Work>): seq<string> {
    Section(WorksHeading, WorkLines(works), WorksTotal(works))
  }

  function PartsSection(parts: seq<Part>): seq<string> {
    Section(PartsHeading, PartLines(parts), PartsTotal(parts))
  }

  function TitleLine(id: nat): string {
    "\U{1F4CB} <b>Заказ-наряд " + WorkOrders.Number(id) + "</b>"
  }

  function FooterLines(total: int): seq<string> {
    [GrandTotalLine(total), "", "<i>Smartline</i>"]
  }

  /** Every line of the message, before they are joined with newlines. */
  function MessageLines(id: nat, wo: WorkOrder, date: string, works: seq<Work>, parts: seq<Part>): (r: seq<string>)
    ensures |r| == |HeaderLines(id, wo, date)| + |WorksSection(works)| + |PartsSection(parts)| + 3
    ensures r[..|HeaderLines(id, wo, date)|] == HeaderLines(id, wo, date)
    ensures r[|HeaderLines(id, wo, date)|..|r| - 3] == WorksSection(works) + PartsSection(parts)
    ensures r[|r| - 3..] == FooterLines(GrandTotal(works, parts))
  {
    var head := HeaderLines(id, wo, date);
    var foot := FooterLines(GrandTotal(works, parts));
    var body := WorksSection(works) + PartsSection(parts);
    var r := head + body + foot;
    assert r[..|head|] == head;
    assert r[|head|..|r| - 3] == body;
    assert r[|r| - 3..] == foot;
    r
  }

  /** The message's frame: five header lines, the title first; the works section
      only when there are works and the parts section only when there are parts;
      then the three footer lines, the signature last. */
  lemma MessageFrame(id: nat, wo: WorkOrder, date: string, works: seq<Work>, parts: seq<Part>)
    ensures var lines := MessageLines(id, wo, date, works, parts);
      && |lines| == 5 + (if works == [] then 0 else |works| + 3) + (if parts == [] then 0 else |parts| + 3) + 3
      && lines[0] == TitleLine(id)
      && lines[|lines| - 1] == "<i>Smartline</i>"
  {
    PiecesAt(HeaderLines(id, wo, date), WorksSection(works), PartsSection(parts),
             FooterLines(GrandTotal(works, parts)));
  }

  /** The first footer line, right after the sections, is the grand total: the sum of
      the two subtotals. */
  lemma MessageGrandTotal(id: nat, wo: WorkOrder, date: string, works: seq<Work>, parts: seq<Part>)
    ensures var lines := MessageLines(id, wo, date, works, parts);
      var at := 5 + (if works == [] then 0 else |works| + 3) + (if parts == [] then 0 else |parts| + 3);
      && at < |lines|
      && lines[at] == GrandTotalLine(GrandTotal(works, parts))
  {
    var f := FooterLines(GrandTotal(works, parts));
    PiecesAt(HeaderLines(id, wo, date), WorksSection(works), PartsSection(parts), f);
    assert f[0] == GrandTotalLine(GrandTotal(works, parts));
  }

  /** With works, the line after the header is the works heading, and the works'
      subtotal follows their lines. */
  lemma MessageWorksSection(id: nat, wo: WorkOrder, date: string, works: seq<Work>, parts: seq<Part>)
    requires works != []
    ensures var lines := MessageLines(id, wo, date, works, parts);
      && |lines| > 6 + |works|
      && lines[5] == WorksHeading
      && lines[6 + |works|] == SubtotalLine(WorksTotal(works))
  {
    var lines := MessageLines(id, wo, date, works, parts);
    var ws := WorksSection(works);
    PiecesAt(HeaderLines(id, wo, date), ws, PartsSection(parts), FooterLines(GrandTotal(works, parts)));
    assert lines[5 + 0] == ws[0] == WorksHeading;
    assert lines[5 + (1 + |works|)] == ws[1 + |works|] == SubtotalLine(WorksTotal(works));
  }

  /** The `i`-th work (from 0) is on line 6 + i, numbered i + 1. */
  lemma MessageWorkLine(id: nat, wo: WorkOrder, date: string, works: seq<Work>, parts: seq<Part>, i: nat)
    requires i < |works|
    ensures var lines := MessageLines(id, wo, date, works, parts);
      6 + i < |lines| && lines[6 + i] == WorkLine(i + 1, works[i])
  {
    var ws := WorksSection(works);
    PiecesAt(HeaderLines(id, wo, date), ws, PartsSection(parts), FooterLines(GrandTotal(works, parts)));
    var lines := MessageLines(id, wo, date, works, parts);
    assert lines[5 + (1 + i)] == ws[1 + i] == WorkLine(i + 1, works[i]);
  }

  /** With parts, the parts section follows the works section (if any): its heading,
      and after the parts' lines their subtotal. */
  lemma MessagePartsSection(id: nat, wo: WorkOrder, date: string, works: seq<Work>, parts: seq<Part>)
    requires parts != []
    ensures var lines := MessageLines(id, wo, date, works, parts);
      var w := if works == [] then 0 else |works| + 3;
      && |lines| > 6 + w + |parts|
      && lines[5 + w] == PartsHeading
      && lines[6 + w + |parts|] == SubtotalLine(PartsTotal(parts))
  {
    var lines := MessageLines(id, wo, date, works, parts);
    var ws, ps := WorksSection(works), PartsSection(parts);
    PiecesAt(HeaderLines(id, wo, date), ws, ps, FooterLines(GrandTotal(works, parts)));
    assert lines[5 + |ws| + 0] == ps[0] == PartsHeading;
    assert lines[5 + |ws| + (1 + |parts|)] == ps[1 + |parts|] == SubtotalLine(PartsTotal(parts));
  }

  /** The `i`-th part (from 0) is on the line i + 1 after the parts heading, numbered i + 1. */
  lemma MessagePartLine(id: nat, wo: WorkOrder, date: string, works: seq<Work>, parts: seq<Part>, i: nat)
    requires i < |parts|
    ensures var lines := MessageLines(id, wo, date, works, parts);
      var w := if works == [] then 0 else |works| + 3;
      6 + w + i < |lines| && lines[6 + w + i] == PartLine(i + 1, parts[i])
  {
    var h, ws, ps, f := HeaderLines(id, wo, date), WorksSection(works), PartsSection(parts),
      FooterLines(GrandTotal(works, parts));
    assert |h| + |ws| == 5 + (if works == [] then 0 else |works| + 3);
    ThirdPieceAt(h, ws, ps, f, 1 + i);
    assert ps[1 + i] == PartLine(i + 1, parts[i]);
  }

  /** Indexing into the third of four concatenated pieces. */
  lemma ThirdPieceAt<T>(a: seq<T>, b: seq<T>, c: seq<T>, d: seq<T>, k: nat)
    requires k < |c|
    ensures |a| + |b| + k < |a + b + c + d| && (a + b + c + d)[|a| + |b| + k] == c[k]
  {
  }

  /** Indexing into the four pieces of a message: a five-line header, two sections
      and a three-line footer. */
  lemma PiecesAt<T>(h: seq<T>, ws: seq<T>, ps: seq<T>, f: seq<T>)
    requires |h| == 5 && |f| == 3
    ensures var all := h + ws + ps + f;
      && |all| == 8 + |ws| + |ps|
      && all[0] == h[0] && all[5 + |ws| + |ps|] == f[0] && all[|all| - 1] == f[2]
      && (forall i :: 0 <= i < |ws| ==> all[5 + i] == ws[i])
      && (forall i :: 0 <= i < |ps| ==> all[5 + |ws| + i] == ps[i])
  {
  }

  /** The stored works with the given ids, in that order. */
  function WorkRows(s: Store, ids: seq<nat>): (r: seq<Work>)
    requires forall i :: 0 <= i < |ids| ==> ids[i] in s.works.rows
    ensures |r| == |ids| && forall j :: 0 <= j < |r| ==> r[j] == s.works.rows[ids[j]]
  {
    seq(|ids|, j requires 0 <= j < |ids| => s.works.rows[ids[j]])
  }

  function PartRows(s: Store, ids: seq<nat>): (r: seq<Part>)
    requires forall i :: 0 <= i < |ids| ==> ids[i] in s.parts.rows
    ensures |r| == |ids| && forall j :: 0 <= j < |r| ==> r[j] == s.parts.rows[ids[j]]
  {
    seq(|ids|, j requires 0 <= j < |ids| => s.parts.rows[ids[j]])
  }

  /** The works of a work order, ascending by id, as the handler reads them. */
  function OrderWorks(s: Store, id: nat): (r: seq<Work>)
    requires s.Valid()
    ensures var ids := WorkOrders.ChildIds(s.works, WorkOrders.WorkParent, id);
      |r| == |ids| && forall j :: 0 <= j < |r| ==> ids[j] in s.works.rows && r[j] == s.works.rows[ids[j]]
  {
    var ids := WorkOrders.ChildIds(s.works, WorkOrders.WorkParent, id);
    assert forall j :: 0 <= j < |ids| ==> ids[j] in ids;
    WorkRows(s, ids)
  }


  /** The parts of a work order, ascending by id. */
  function OrderParts(s: Store, id: nat): (r: seq<Part>)
    requires s.Valid()
    ensures var ids := WorkOrders.ChildIds(s.parts, WorkOrders.PartParent, id);
      |r| == |ids| && forall j :: 0 <= j < |r| ==> ids[j] in s.parts.rows && r[j] == s.parts.rows[ids[j]]
  {
    var ids := WorkOrders.ChildIds(s.parts, WorkOrders.PartParent, id);
    assert forall j :: 0 <= j < |ids| ==> ids[j] in ids;
    PartRows(s, ids)
  }


  /** The works' charges add up to what the client sums over the aggregate's works. */
  lemma WorkChargesMatchClient(s: Store, id: nat)
    requires s.Valid() && id in s.workOrders.rows
    ensures SeqSum(OrderWorks(s, id), WorkCharge) == SeqSum(WorkOrders.Aggregate(s, id).works, WorkTypes.WorkPrice)
  {
    var ids := WorkOrders.ChildIds(s.works, WorkOrders.WorkParent, id);
    assert forall i :: 0 <= i < |ids| ==> ids[i] in s.works.rows by {
      assert forall i :: 0 <= i < |ids| ==> ids[i] in ids;
    }
    var mine, views := OrderWorks(s, id), WorkOrders.WorkViews(s, ids);
    assert WorkOrders.Aggregate(s, id).works == views;
    forall i | 0 <= i < |mine|
      ensures WorkCharge(mine[i]) == WorkTypes.WorkPrice(views[i])
    {
    }
    SeqSumPointwise(mine, WorkCharge, views, WorkTypes.WorkPrice);
  }

  /** The parts' charges add up to what the client sums over the aggregate's parts. */
  lemma PartChargesMatchClient(s: Store, id: nat)
    requires s.Valid() && id in s.workOrders.rows
    ensures SeqSum(OrderParts(s, id), PartCharge) == SeqSum(WorkOrders.Aggregate(s, id).parts, WorkTypes.PartAmount)
  {
    var ids := WorkOrders.ChildIds(s.parts, WorkOrders.PartParent, id);
    assert forall i :: 0 <= i < |ids| ==> ids[i] in s.parts.rows by {
      assert forall i :: 0 <= i < |ids| ==> ids[i] in ids;
    }
    var mine, views := OrderParts(s, id), WorkOrders.PartViews(s, ids);
    assert WorkOrders.Aggregate(s, id).parts == views;
    forall i | 0 <= i < |mine|
      ensures PartCharge(mine[i]) == WorkTypes.PartAmount(views[i])
    {
    }
    SeqSumPointwise(mine, PartCharge, views, WorkTypes.PartAmount);
  }

  /** The grand total in the message is the total the web client shows for the same
      work order. */
  lemma GrandTotalMatchesClient(s: Store, id: nat)
    requires s.Valid() && id in s.workOrders.rows
    ensures GrandTotal(OrderWorks(s, id), OrderParts(s, id)) == WorkTypes.GetTotal(WorkOrders.Aggregate(s, id))
  {
    WorkTypes.GetTotalIsSum(WorkOrders.Aggregate(s, id));
    WorkChargesMatchClient(s, id);
    PartChargesMatchClient(s, id);
  }

  // ----------------------------------------------------------------- handler

  /** What the bot API answered: accepted; refused with an optional description; or
      an HTTP error whose body was JSON (with an optional description) or was not. */
  datatype BotAnswer =
    | Accepted
    | Refused(description: Option<string>)
    | HttpError(code: int, json: bool, errorDescription: Option<string>)

  /** The message handed to the bot: the chat and the text. */
  datatype Outgoing = Outgoing(chatId: string, text: string)

  datatype SendReply = SendReply(response: Response<Ack>, sent: Option<Outgoing>)

  datatype SendRequest = SendRequest(workOrderId: nat, telegramId: Option<string>)

  /** How the bot's answer is reported. */
  function AnswerResponse(answer: BotAnswer): (r: Response<Ack>)
    ensures r.Ok? <==> answer.Accepted?
    ensures r.Ok? ==> r == Ok(OK, Success)
    ensures r.Fail? ==> r.status == BAD_REQUEST
  {
    match answer
    case Accepted => Ok(OK, Success)
    case Refused(d) => Fail(BAD_REQUEST, d.GetOr("Error"))
    case HttpError(code, json, d) =>
      if json then Fail(BAD_REQUEST, d.GetOr("Telegram error")) else Fail(BAD_REQUEST, "HTTP " + IntText(code))
  }

  /** POST: the work order id and a non-blank chat id are required, then the bot
      token, then an existing work order. Only then is a message sent, and the
      bot's answer decides the response. `date` is how the order's creation date
      prints; `token` is the configured bot token. */
  function Send(s: Store, req: SendRequest, token: string, date: string, answer: BotAnswer): (r: SendReply)
    requires s.Valid()
    ensures req.workOrderId == 0 ==> r == SendReply(Fail(BAD_REQUEST, "work_order_id is required"), None)
    ensures req.workOrderId != 0 && IsBlank(req.telegramId.GetOr("")) ==>
      r == SendReply(Fail(BAD_REQUEST, "telegram_id is required"), None)
    ensures req.workOrderId != 0 && !IsBlank(req.telegramId.GetOr("")) && token == "" ==>
      r == SendReply(Fail(SERVER_ERROR, "TELEGRAM_BOT_TOKEN not configured"), None)
    ensures req.workOrderId != 0 && !IsBlank(req.telegramId.GetOr("")) && token != "" && req.workOrderId !in s.workOrders.rows ==>
      r == SendReply(Fail(NOT_FOUND, "Not found"), None)
    ensures r.sent.Some? <==>
      req.workOrderId != 0 && !IsBlank(req.telegramId.GetOr("")) && token != "" && req.workOrderId in s.workOrders.rows
    ensures r.sent.Some? ==>
      && r.response == AnswerResponse(answer)
      && r.sent.value.chatId == Strip(req.telegramId.GetOr("")) && r.sent.value.chatId != ""
      && r.sent.value.text == Join(MessageLines(req.workOrderId, s.workOrders.rows[req.workOrderId], date,
                                                OrderWorks(s, req.workOrderId), OrderParts(s, req.workOrderId)), "\n")
  {
    var chatId := Strip(req.telegramId.GetOr(""));
    BlankIffStripEmpty(req.telegramId.GetOr(""));
    if req.workOrderId == 0 then SendReply(Fail(BAD_REQUEST, "work_order_id is required"), None)
    else if chatId == "" then SendReply(Fail(BAD_REQUEST, "telegram_id is required"), None)
    else if token == "" then SendReply(Fail(SERVER_ERROR, "TELEGRAM_BOT_TOKEN not configured"), None)
    else if req.workOrderId !in s.workOrders.rows then SendReply(Fail(NOT_FOUND, "Not found"), None)
    else
      var id := req.workOrderId;
      var text := Join(MessageLines(id, s.workOrders.rows[id], date, OrderWorks(s, id), OrderParts(s, id)), "\n");
      SendReply(AnswerResponse(answer), Some(Outgoing(chatId, text)))
  }

  datatype Action = SendAction

  /** OPTIONS is the preflight; only POST sends; every other method, and a missing
      one, is refused with 405. */
  function RouteRequest(httpMethod: Option<string>): (r: Route<Action>)
    ensures r.Preflight? <==> httpMethod == Some("OPTIONS")
    ensures r.Invoke? <==> httpMethod == Some("POST")
    ensures r.NotAllowed? <==> httpMethod != Some("OPTIONS") && httpMethod != Some("POST")
  {
    if httpMethod == Some("OPTIONS") then Preflight
    else if httpMethod == Some("POST") then Invoke(SendAction)
    else NotAllowed
  }
}

=== FILE: warehouse.dfy ===
/** Stock keeping (backend/warehouse/index.py): the product catalogue, suppliers,
    and stock receipts, which raise product quantities and reprice products. */
module Warehouse {
  import opened Tables
  import opened Text
  import opened Http
  import opened Store

  // --------------------------------------------------------------- products

  datatype ProductRequest = ProductRequest(
    sku: string, name: string, description: Option<string>, category: Option<string>,
    unit: Option<string>, purchasePrice: Option<int>, quantity: Option<int>, minQuantity: Option<int>)

  /** Some stored product already carries this sku. */
  predicate SkuTaken(t: Table<Product>, sku: string) {
    exists k :: k in t.rows && t.rows[k].sku == sku
  }

  /** No two products share a sku. */
  ghost predicate SkusUnique(t: Table<Product>) {
    forall a, b :: a in t.rows && b in t.rows && t.rows[a].sku == t.rows[b].sku ==> a == b
  }

  /** The row `create_product` stores: sku and name trimmed; unit 'шт', prices and
      quantities 0 unless given; active. */
  function NewProduct(req: ProductRequest): Product {
    Product(Strip(req.sku), Strip(req.name), req.description.GetOr(""), req.category.GetOr(""),
            req.unit.GetOr("шт"), req.purchasePrice.GetOr(0), req.quantity.GetOr(0),
            req.minQuantity.GetOr(0), true)
  }

  /** `create_product`: refuses a blank sku or name and a sku already in use. */
  function CreateProduct(s: Store, req: ProductRequest): (r: Reply<Saved<Product>>)
    requires s.Valid()
    ensures r.store.Valid()
    ensures r.response.Fail? ==> r.store == s && r.response.status == BAD_REQUEST
    ensures r.response.Ok? <==>
      !IsBlank(req.sku) && !IsBlank(req.name) && !SkuTaken(s.products, Strip(req.sku))
    ensures r.response.Ok? ==>
      && r.response.status == CREATED
      && var id := r.response.body.id;
      && id !in s.products.rows
      && r.store == s.(products := r.store.products)
      && r.store.products.rows == s.products.rows[id := r.response.body.row]
      && var p := r.response.body.row;
      && p.sku == Strip(req.sku) && p.name == Strip(req.name) && p.isActive
      && p.description == req.description.GetOr("")
      && p.category == req.category.GetOr("")
      && p.unit == req.unit.GetOr("шт")
      && p.purchasePrice == req.purchasePrice.GetOr(0)
      && p.quantity == req.quantity.GetOr(0)
      && p.minQuantity == req.minQuantity.GetOr(0)
  {
    var sku := Strip(req.sku);
    if IsBlank(req.sku) || IsBlank(req.name) then Reject(s, BAD_REQUEST, "sku and name are required")
    else if SkuTaken(s.products, sku) then
      Reject(s, BAD_REQUEST, "Товар с артикулом " + sku + " уже существует")
    else
      var row := NewProduct(req);
      var (products, id) := s.products.Insert(row);
      Reply(s.(products := products), Ok(CREATED, Saved(id, row)))
  }

  /** Creating products keeps skus unique. */
  lemma CreateProductKeepsSkusUnique(s: Store, req: ProductRequest)
    requires s.Valid() && SkusUnique(s.products)
    ensures SkusUnique(CreateProduct(s, req).store.products)
  {
    var r := CreateProduct(s, req);
    if r.response.Ok? {
      forall a, b | a in r.store.products.rows && b in r.store.products.rows
        && r.store.products.rows[a].sku == r.store.products.rows[b].sku
        ensures a == b
      {
      }
    }
  }

  /** An `update_product` field as it arrives: a string field, or `is_active` as any JSON scalar. */
  datatype ProductUpdate = ProductUpdate(
    productId: nat, sku: Option<string>, name: Option<string>, description: Option<string>,
    category: Option<string>, unit: Option<string>, purchasePrice: Option<int>,
    quantity: Option<int>, minQuantity: Option<int>, isActive: Option<Json>)

  /** A field counts as given unless it is a blank sku or name. */
  predicate NoProductChange(u: ProductUpdate) {
    && (u.sku.None? || IsBlank(u.sku.value)) && (u.name.None? || IsBlank(u.name.value))
    && u.description.None? && u.category.None? && u.unit.None?
    && u.purchasePrice.None? && u.quantity.None? && u.minQuantity.None? && u.isActive.None?
  }

  /** A given string field, trimmed, or the stored value. */
  function StrippedOr(v: Option<string>, current: string): string {
    if v.Some? then Strip(v.value) else current
  }

  /** A given sku or name, trimmed, unless it is blank. */
  function NonBlankOr(v: Option<string>, current: string): string {
    if v.Some? && !IsBlank(v.value) then Strip(v.value) else current
  }

  function ApplyProductUpdate(p: Product, u: ProductUpdate): Product {
    p.(sku := NonBlankOr(u.sku, p.sku), name := NonBlankOr(u.name, p.name),
       description := StrippedOr(u.description, p.description),
       category := StrippedOr(u.category, p.category), unit := StrippedOr(u.unit, p.unit),
       purchasePrice := u.purchasePrice.GetOr(p.purchasePrice), quantity := u.quantity.GetOr(p.quantity),
       minQuantity := u.minQuantity.GetOr(p.minQuantity),
       isActive := if u.isActive.Some? then Truthy(u.isActive.value) else p.isActive)
  }

  /** `update_product`: a sparse update that skips a blank sku or name, trims the
      string fields and coerces `is_active` to a boolean. */
  function UpdateProduct(s: Store, u: ProductUpdate): (r: Reply<Saved<Product>>)
    requires s.Valid()
    ensures r.store.Valid()
    ensures r.response.Fail? ==> r.store == s
    ensures u.productId == 0 ==> r.response == Fail(BAD_REQUEST, "product_id is required")
    ensures u.productId != 0 && NoProductChange(u) ==> r.response == Fail(BAD_REQUEST, "Nothing to update")
    ensures u.productId != 0 && !NoProductChange(u) && u.productId !in s.products.rows
      ==> r.response == Fail(NOT_FOUND, "Product not found")
    ensures r.response.Ok? <==> u.productId != 0 && !NoProductChange(u) && u.productId in s.products.rows
    ensures r.response.Ok? ==>
      && u.productId in s.products.rows && r.response.body.id == u.productId
      && r.response.status == OK
      && r.store == s.(products := r.store.products)
      && r.store.products.rows == s.products.rows[u.productId := r.response.body.row]
      && var before := s.products.rows[u.productId];
      && var after := r.response.body.row;
      && (u.sku.None? || IsBlank(u.sku.value) ==> after.sku == before.sku)
      && (u.sku.Some? && !IsBlank(u.sku.value) ==> after.sku == Strip(u.sku.value))
      && (u.name.None? || IsBlank(u.name.value) ==> after.name == before.name)
      && (u.name.Some? && !IsBlank(u.name.value) ==> after.name == Strip(u.name.value))
      && (u.description.Some? ==> after.description == Strip(u.description.value))
      && (u.description.None? ==> after.description == before.description)
      && (u.category.Some? ==> after.category == Strip(u.category.value))
      && (u.category.None? ==> after.category == before.category)
      && (u.unit.Some? ==> after.unit == Strip(u.unit.value))
      && (u.unit.None? ==> after.unit == before.unit)
      && after.purchasePrice == u.purchasePrice.GetOr(before.purchasePrice)
      && after.quantity == u.quantity.GetOr(before.quantity)
      && after.minQuantity == u.minQuantity.GetOr(before.minQuantity)
      && (u.isActive.Some? ==> after.isActive == Truthy(u.isActive.value))
      && (u.isActive.None? ==> after.isActive == before.isActive)
  {
    if u.productId == 0 then Reject(s, BAD_REQUEST, "product_id is required")
    else if NoProductChange(u) then Reject(s, BAD_REQUEST, "Nothing to update")
    else if u.productId !in s.products.rows then Reject(s, NOT_FOUND, "Product not found")
    else
      var row := ApplyProductUpdate(s.products.rows[u.productId], u);
      Reply(s.(products := s.products.Set(u.productId, row)), Ok(OK, Saved(u.productId, row)))
  }

  /** `update_product` does not re-check the sku: uniqueness survives only when the new
      sku is not held by another product. */
  lemma UpdateProductKeepsSkusUnique(s: Store, u: ProductUpdate)
    requires s.Valid() && SkusUnique(s.products)
    requires u.sku.Some? && !IsBlank(u.sku.value) ==>
      forall k :: k in s.products.rows && k != u.productId ==> s.products.rows[k].sku != Strip(u.sku.value)
    ensures SkusUnique(UpdateProduct(s, u).store.products)
  {
    var r := UpdateProduct(s, u);
    if r.response.Ok? {
      forall a, b | a in r.store.products.rows && b in r.store.products.rows
        && r.store.products.rows[a].sku == r.store.products.rows[b].sku
        ensures a == b
      {
      }
    }
  }

  // -------------------------------------------------------------- suppliers

  datatype SupplierRequest = SupplierRequest(
    name: string, contactPerson: Option<string>, phone: Option<string>, email: Option<string>,
    inn: Option<string>, address: Option<string>, notes: Option<string>)

  /** `create_supplier`: only the name is required (and trimmed); the other fields are
      stored as given. */
  function CreateSupplier(s: Store, req: SupplierRequest): (r: Reply<Saved<Supplier>>)
    requires s.Valid()
    ensures r.store.Valid()
    ensures r.response.Fail? <==> IsBlank(req.name)
    ensures r.response.Fail? ==> r.store == s && r.response == Fail(BAD_REQUEST, "name is required")
    ensures r.response.Ok? ==>
      && r.response.status == CREATED
      && r.response.body.id !in s.suppliers.rows
      && r.store == s.(suppliers := r.store.suppliers)
      && r.store.suppliers.rows == s.suppliers.rows[r.response.body.id := r.response.body.row]
      && var row := r.response.body.row;
      && row.name == Strip(req.name) && row.isActive
      && row.contactPerson == req.contactPerson.GetOr("")
      && row.phone == req.phone.GetOr("")
      && row.email == req.email.GetOr("")
      && row.inn == req.inn.GetOr("")
      && row.address == req.address.GetOr("")
      && row.notes == req.notes.GetOr("")
  {
    if IsBlank(req.name) then Reject(s, BAD_REQUEST, "name is required")
    else
      var row := Supplier(Strip(req.name), req.contactPerson.GetOr(""), req.phone.GetOr(""),
                          req.email.GetOr(""), req.inn.GetOr(""), req.address.GetOr(""),
                          req.notes.GetOr(""), true);
      var (suppliers, id) := s.suppliers.Insert(row);
      Reply(s.(suppliers := suppliers), Ok(CREATED, Saved(id, row)))
  }

  datatype SupplierUpdate = SupplierUpdate(
    supplierId: nat, name: Option<string>, contactPerson: Option<string>, phone: Option<string>,
    email: Option<string>, inn: Option<string>, address: Option<string>, notes: Option<string>,
    isActive: Option<Json>)

  predicate NoSupplierChange(u: SupplierUpdate) {
    && (u.name.None? || IsBlank(u.name.value))
    && u.contactPerson.None? && u.phone.None? && u.email.None? && u.inn.None?
    && u.address.None? && u.notes.None? && u.isActive.None?
  }

  function ApplySupplierUpdate(p: Supplier, u: SupplierUpdate): Supplier {
    p.(name := NonBlankOr(u.name, p.name),
       contactPerson := StrippedOr(u.contactPerson, p.contactPerson), phone := StrippedOr(u.phone, p.phone),
       email := StrippedOr(u.email, p.email), inn := StrippedOr(u.inn, p.inn),
       address := StrippedOr(u.address, p.address), notes := StrippedOr(u.notes, p.notes),
       isActive := if u.isActive.Some? then Truthy(u.isActive.value) else p.isActive)
  }

  /** `update_supplier`: a sparse update; a blank name is skipped, not applied. */
  function UpdateSupplier(s: Store, u: SupplierUpdate): (r: Reply<Saved<Supplier>>)
    requires s.Valid()
    ensures r.store.Valid()
    ensures r.response.Fail? ==> r.store == s
    ensures u.supplierId == 0 ==> r.response == Fail(BAD_REQUEST, "supplier_id is required")
    ensures u.supplierId != 0 && NoSupplierChange(u) ==> r.response == Fail(BAD_REQUEST, "Nothing to update")
    ensures u.supplierId != 0 && !NoSupplierChange(u) && u.supplierId !in s.suppliers.rows
      ==> r.response == Fail(NOT_FOUND, "Supplier not found")
    ensures r.response.Ok? <==> u.supplierId != 0 && !NoSupplierChange(u) && u.supplierId in s.suppliers.rows
    ensures r.response.Ok? ==>
      && u.supplierId in s.suppliers.rows && r.response.body.id == u.supplierId
      && r.response.status == OK
      && r.store == s.(suppliers := r.store.suppliers)
      && r.store.suppliers.rows == s.suppliers.rows[u.supplierId := r.response.body.row]
      && var before := s.suppliers.rows[u.supplierId];
      && var after := r.response.body.row;
      && (u.name.None? || IsBlank(u.name.value) ==> after.name == before.name)
      && (u.name.Some? && !IsBlank(u.name.value) ==> after.name == Strip(u.name.value))
      && (u.contactPerson.Some? ==> after.contactPerson == Strip(u.contactPerson.value))
      && (u.contactPerson.None? ==> after.contactPerson == before.contactPerson)
      && (u.phone.Some? ==> after.phone == Strip(u.phone.value))
      && (u.phone.None? ==> after.phone == before.phone)
      && (u.email.Some? ==> after.email == Strip(u.email.value))
      && (u.email.None? ==> after.email == before.email)
      && (u.inn.Some? ==> after.inn == Strip(u.inn.value))
      && (u.inn.None? ==> after.inn == before.inn)
      && (u.address.Some? ==> after.address == Strip(u.address.value))
      && (u.address.None? ==> after.address == before.address)
      && (u.notes.Some? ==> after.notes == Strip(u.notes.value))
      && (u.notes.None? ==> after.notes == before.notes)
      && (u.isActive.Some? ==> after.isActive == Truthy(u.isActive.value))
      && (u.isActive.None? ==> after.isActive == before.isActive)
  {
    if u.supplierId == 0 then Reject(s, BAD_REQUEST, "supplier_id is required")
    else if NoSupplierChange(u) then Reject(s, BAD_REQUEST, "Nothing to update")
    else if u.supplierId !in s.suppliers.rows then Reject(s, NOT_FOUND, "Supplier not found")
    else
      var row := ApplySupplierUpdate(s.suppliers.rows[u.supplierId], u);
      Reply(s.(suppliers := s.suppliers.Set(u.supplierId, row)), Ok(OK, Saved(u.supplierId, row)))
  }

  // --------------------------------------------------------------- receipts

  datatype ItemInput = ItemInput(productId: nat, quantity: Option<int>, price: Option<int>)

  datatype ReceiptRequest = ReceiptRequest(
    supplierId: nat, documentNumber: string, documentDate: Option<string>, notes: string,
    items: seq<ItemInput>)

  /** An item that is booked: it names a product and its quantity is positive. */
  predicate Books(it: ItemInput) {
    it.productId != 0 && it.quantity.GetOr(0) > 0
  }

  /** A booked item for product `pid`. */
  predicate BooksFor(it: ItemInput, pid: nat) {
    Books(it) && it.productId == pid
  }

  /** Σ quantity × price over every submitted item, booked or not (absent values count 0). */
  function ItemsTotal(items: seq<ItemInput>): int {
    if |items| == 0 then 0
    else items[0].quantity.GetOr(0) * items[0].price.GetOr(0) + ItemsTotal(items[1..])
  }

  /** Total booked quantity for product `pid`. */
  function Received(items: seq<ItemInput>, pid: nat): int {
    if |items| == 0 then 0
    else (if BooksFor(items[0], pid) then items[0].quantity.GetOr(0) else 0) + Received(items[1..], pid)
  }

  /** The price of the last booked item for product `pid`, if any. */
  function LastPrice(items: seq<ItemInput>, pid: nat): Option<int> {
    if |items| == 0 then None
    else
      var later := LastPrice(items[1..], pid);
      if later.Some? then later
      else if BooksFor(items[0], pid) then Some(items[0].price.GetOr(0))
      else None
  }

  /** LastPrice picks the price of the booked item for `pid` that no later booked
      item for `pid` follows, and is None exactly when no item books `pid`. */
  lemma {:induction false} LastPriceIsLast(items: seq<ItemInput>, pid: nat)
    ensures LastPrice(items, pid).None? <==> forall i :: 0 <= i < |items| ==> !BooksFor(items[i], pid)
    ensures LastPrice(items, pid).Some? ==>
      exists i :: (0 <= i < |items| && BooksFor(items[i], pid)
        && LastPrice(items, pid).value == items[i].price.GetOr(0)
        && forall j :: i < j < |items| ==> !BooksFor(items[j], pid))
  {
    if |items| > 0 {
      var rest := items[1..];
      LastPriceIsLast(rest, pid);
      assert forall i :: 1 <= i < |items| ==> items[i] == rest[i - 1];
      if LastPrice(rest, pid).Some? {
        var i :| 0 <= i < |rest| && BooksFor(rest[i], pid) && LastPrice(rest, pid).value == rest[i].price.GetOr(0)
          && forall j :: i < j < |rest| ==> !BooksFor(rest[j], pid);
        assert BooksFor(items[i + 1], pid);
        assert forall j :: i + 1 < j < |items| ==> !BooksFor(items[j], pid);
      } else if BooksFor(items[0], pid) {
        assert forall j :: 0 < j < |items| ==> !BooksFor(items[j], pid);
      }
    }
  }

  /** The receipt-item rows a receipt stores: one per booked item, in order. */
  function ReceiptRows(receiptId: nat, items: seq<ItemInput>): (r: seq<ReceiptItem>)
    ensures |r| == |Filter(items, Books)|
    ensures forall j :: 0 <= j < |r| ==>
      var it := Filter(items, Books)[j];
      r[j] == ReceiptItem(receiptId, it.productId, it.quantity.GetOr(0), it.price.GetOr(0))
  {
    var booked := Filter(items, Books);
    seq(|booked|, j requires 0 <= j < |booked| =>
      ReceiptItem(receiptId, booked[j].productId, booked[j].quantity.GetOr(0), booked[j].price.GetOr(0)))
  }

  /** The product update of one item: a booked item for a stored product adds its
      quantity and sets the purchase price; any other item changes nothing. */
  function BookItem(t: Table<Product>, it: ItemInput): (r: Table<Product>)
    requires t.Valid()
    ensures r.Valid() && r.rows.Keys == t.rows.Keys && r.next == t.next
    ensures forall pid :: pid in t.rows ==>
      r.rows[pid] == if BooksFor(it, pid)
                     then t.rows[pid].(quantity := t.rows[pid].quantity + it.quantity.GetOr(0),
                                       purchasePrice := it.price.GetOr(0))
                     else t.rows[pid]
  {
    if Books(it) && it.productId in t.rows
    then t.Set(it.productId, t.rows[it.productId].(quantity := t.rows[it.productId].quantity + it.quantity.GetOr(0),
                                                   purchasePrice := it.price.GetOr(0)))
    else t
  }

  /** The product updates of a receipt, one per booked item: each product gains the
      quantity booked for it, and its purchase price becomes the last booked price. */
  function Restock(t: Table<Product>, items: seq<ItemInput>): (r: Table<Product>)
    requires t.Valid()
    ensures r.Valid() && r.rows.Keys == t.rows.Keys && r.next == t.next
    ensures forall pid :: pid in t.rows ==>
      r.rows[pid] == t.rows[pid].(quantity := t.rows[pid].quantity + Received(items, pid),
                                  purchasePrice := LastPrice(items, pid).GetOr(t.rows[pid].purchasePrice))
    decreases |items|
  {
    if |items| == 0 then t
    else Restock(BookItem(t, items[0]), items[1..])
  }

  /** `ПН-` and the next receipt number: one past the highest receipt id so far. */
  function ReceiptNumber(receipts: Table<Receipt>): (n: string)
    requires receipts.Valid()
    ensures |n| >= 7 && n[..3] == "ПН-" && n[3..] == ZFill(Decimal(receipts.MaxId() + 1), 4)
  {
    Label("ПН-", receipts.MaxId() + 1)
  }

  /** The receipt number decodes to one past the highest receipt id (1 for the first
      receipt), so it exceeds every existing receipt id. */
  lemma ReceiptNumberIsNext(receipts: Table<Receipt>)
    requires receipts.Valid()
    ensures var n := ReceiptNumber(receipts);
      && n[..3] == "ПН-" && |n| >= 7 && AllDigits(n[3..])
      && ParseDecimal(n[3..]) == receipts.MaxId() + 1
      && (receipts.rows != map[] ==> ParseDecimal(n[3..]) - 1 in receipts.rows)
      && (forall k :: k in receipts.rows ==> ParseDecimal(n[3..]) > k)
      && (receipts.rows == map[] ==> ParseDecimal(n[3..]) == 1)
  {
    LabelDecodes("ПН-", receipts.MaxId() + 1);
  }

  /** `create_receipt`: refuses an empty item list; otherwise stores the receipt with the
      total over all items, one receipt item per booked item, and restocks. */
  function CreateReceipt(s: Store, req: ReceiptRequest): (r: Reply<Saved<Receipt>>)
    requires s.Valid()
    ensures r.store.Valid()
    ensures r.response.Fail? <==> |req.items| == 0
    ensures r.response.Fail? ==> r.store == s && r.response == Fail(BAD_REQUEST, "Items are required")
    ensures r.response.Ok? ==>
      && r.response.status == CREATED
      && var id := r.response.body.id;
      && var rec := r.response.body.row;
      && id !in s.receipts.rows
      && r.store == s.(receipts := r.store.receipts, receiptItems := r.store.receiptItems, products := r.store.products)
      && r.store.receipts.rows == s.receipts.rows[id := rec]
      && rec.number == ReceiptNumber(s.receipts)
      && rec.totalAmount == ItemsTotal(req.items)
      && rec.supplierId == req.supplierId && rec.documentNumber == Strip(req.documentNumber)
      && rec.documentDate == req.documentDate && rec.notes == req.notes
      && r.store.products == Restock(s.products, req.items)
      && r.store.receiptItems == InsertAll(s.receiptItems, ReceiptRows(id, req.items)).0
  {
    if |req.items| == 0 then Reject(s, BAD_REQUEST, "Items are required")
    else
      var rec := Receipt(ReceiptNumber(s.receipts), req.supplierId, Strip(req.documentNumber),
                         req.documentDate, ItemsTotal(req.items), req.notes);
      var (receipts, id) := s.receipts.Insert(rec);
      var (items, _) := InsertAll(s.receiptItems, ReceiptRows(id, req.items));
      Reply(s.(receipts := receipts, receiptItems := items, products := Restock(s.products, req.items)),
            Ok(CREATED, Saved(id, rec)))
  }

  // ---------------------------------------------------------------- routing

  datatype Action = CreateProductAction | UpdateProductAction | CreateSupplierAction
                  | UpdateSupplierAction | CreateReceiptAction

  function ActionName(a: Action): string {
    match a
    case CreateProductAction => "create_product"
    case UpdateProductAction => "update_product"
    case CreateSupplierAction => "create_supplier"
    case UpdateSupplierAction => "update_supplier"
    case CreateReceiptAction => "create_receipt"
  }

  /** The `actions_map` table: a name selects the action that bears it, and only that one. */
  function ParseAction(name: string): (r: Option<Action>)
    ensures r.Some? ==> ActionName(r.value) == name
    ensures forall a :: ActionName(a) == name ==> r == Some(a)
  {
    if name == "create_product" then Some(CreateProductAction)
    else if name == "update_product" then Some(UpdateProductAction)
    else if name == "create_supplier" then Some(CreateSupplierAction)
    else if name == "update_supplier" then Some(UpdateSupplierAction)
    else if name == "create_receipt" then Some(CreateReceiptAction)
    else None
  }

  /** `handler`: OPTIONS is answered, GET reads a section, POST dispatches on `action`,
      and any other method is refused with 405. */
  function RouteRequest(httpMethod: Option<string>, action: string): (r: Route<Action>)
    ensures httpMethod == Some("OPTIONS") <==> r.Preflight?
    ensures MethodOf(httpMethod) == "POST" ==> (r.Invoke? <==> ParseAction(action).Some?)
    ensures r.Invoke? ==> ActionName(r.action) == action
    ensures r.NotAllowed? <==> !(MethodOf(httpMethod) in {"OPTIONS", "GET", "POST"})
  {
    if httpMethod == Some("OPTIONS") then Preflight
    else if MethodOf(httpMethod) == "GET" then Query
    else if MethodOf(httpMethod) == "POST" then
      match ParseAction(action)
      case Some(a) => Invoke(a)
      case None => UnknownAction
    else NotAllowed
  }
}

=== FILE: workorders.dfy ===
/** The work-order aggregate (backend/work-orders/index.py): a header with its
    works (labour lines) and parts (material lines); adding, re-quantifying and
    deleting a part linked to a product moves that product's stock. */
module WorkOrders {
  import opened Tables
  import opened Text
  import opened Http
  import opened Store

  /** The statuses `update` accepts, in the order the source lists them. */
  const Statuses: seq<string> := ["new", "in-progress", "done", "issued"]

  predicate ValidStatus(st: string) {
    st in Statuses
  }

  // ------------------------------------------------------------------ views

  datatype WorkView = WorkView(
    id: nat, name: string, price: int, qty: int, normHours: int, normHourPrice: int, discount: int)

  datatype PartView = PartView(
    id: nat, name: string, qty: int, price: int, purchasePrice: int, productId: nat)

  datatype OrderView = OrderView(
    id: nat, number: string, issuedAt: Option<nat>, client: string, clientId: nat, carId: nat,
    car: string, status: string, master: string, orderId: nat, payerClientId: nat,
    payerName: string, employeeId: nat, employeeName: string,
    works: seq<WorkView>, parts: seq<PartView>)

  /** A listing entry also carries the car's VIN and the client's phone. */
  datatype ListedOrder = ListedOrder(order: OrderView, carVin: string, clientPhone: string)

  /** A work as the API reports it: a zero quantity is reported as 1. */
  function FormatWork(id: nat, w: Work): (v: WorkView)
    ensures v.id == id && v.name == w.name && v.price == w.price
    ensures w.qty == 0 ==> v.qty == 1
    ensures w.qty != 0 ==> v.qty == w.qty
    ensures v.normHours == w.normHours && v.normHourPrice == w.normHourPrice && v.discount == w.discount
  {
    WorkView(id, w.name, w.price, if w.qty == 0 then 1 else w.qty, w.normHours, w.normHourPrice, w.discount)
  }

  /** The reported quantity is the stored one exactly when the stored one is not
      falsy; a falsy one is reported as the default of one unit. */
  lemma FormatWorkKeepsQty(id: nat, w: Work)
    ensures FormatWork(id, w).qty == w.qty <==> w.qty != 0
    ensures FormatWork(id, w).qty != 0
  {
  }

  /** A part as the API reports it: its sell price is reported as `price`. */
  function FormatPart(id: nat, p: Part): PartView {
    PartView(id, p.name, p.qty, p.sellPrice, p.purchasePrice, p.productId)
  }

  /** "ЗН-" followed by the id, zero-padded to four digits. */
  function Number(id: nat): (n: string)
    ensures |n| >= 7 && n[..3] == "ЗН-" && n[3..] == ZFill(Decimal(id), 4)
  {
    Label("ЗН-", id)
  }

  /** The display number starts with "ЗН-", has at least four digits, and decodes to the id. */
  lemma NumberDecodes(id: nat)
    ensures Number(id)[..3] == "ЗН-"
    ensures |Number(id)| >= 7
    ensures AllDigits(Number(id)[3..]) && ParseDecimal(Number(id)[3..]) == id
  {
    LabelDecodes("ЗН-", id);
  }

  function FormatOrder(id: nat, wo: WorkOrder, employeeName: string,
                       works: seq<WorkView>, parts: seq<PartView>): OrderView
  {
    OrderView(id, Number(id), wo.issuedAt, wo.clientName, wo.clientId, wo.carId, wo.carInfo,
              wo.status, wo.master, wo.orderId, wo.payerClientId, wo.payerName,
              wo.employeeId, employeeName, works, parts)
  }

  /** The assigned employee's name, or '' when none is assigned or the row is gone. */
  function EmployeeName(s: Store, employeeId: nat): string {
    if employeeId != 0 && employeeId in s.employees.rows then s.employees.rows[employeeId].name else ""
  }

  // -------------------------------------------------------- child grouping

  function WorkParent(w: Work): nat { w.workOrderId }
  function PartParent(p: Part): nat { p.workOrderId }

  lemma {:induction false} FilterExt<T>(s: seq<T>, p: T -> bool, q: T -> bool)
    requires forall x :: p(x) == q(x)
    ensures Filter(s, p) == Filter(s, q)
  {
    if |s| > 0 {
      FilterExt(s[1..], p, q);
    }
  }

  /** Whether row `k` of `t` belongs to `parent`. */
  function ChildOf<T>(t: Table<T>, parentOf: T -> nat, parent: nat): nat -> bool {
    k => k in t.rows && parentOf(t.rows[k]) == parent
  }

  /** Whether row `k` of `t` belongs to any of `parents`. */
  function ChildOfAny<T>(t: Table<T>, parentOf: T -> nat, parents: set<nat>): nat -> bool {
    k => k in t.rows && parentOf(t.rows[k]) in parents
  }

  /** The ids of the rows whose parent is `parent`, ascending: what
      `SELECT ... WHERE work_order_id = %s ORDER BY id` returns. */
  function ChildIds<T>(t: Table<T>, parentOf: T -> nat, parent: nat): (r: seq<nat>)
    requires t.Valid()
    ensures StrictlyIncreasing(r)
    ensures forall k :: k in r <==> k in t.rows && parentOf(t.rows[k]) == parent
  {
    FilterPreservesIncreasing(t.Ids(), ChildOf(t, parentOf, parent));
    Filter(t.Ids(), ChildOf(t, parentOf, parent))
  }

  /** First pass of the listing: every child of any of the listed parents, ascending. */
  function Batch<T>(t: Table<T>, parentOf: T -> nat, parents: set<nat>): seq<nat> {
    Filter(t.Ids(), ChildOfAny(t, parentOf, parents))
  }

  /** Second pass: the children of one parent, picked out of the batch. */
  function GroupOf<T>(batch: seq<nat>, t: Table<T>, parentOf: T -> nat, parent: nat): (r: seq<nat>)
    ensures forall i :: 0 <= i < |r| ==> r[i] in t.rows && parentOf(t.rows[r[i]]) == parent
  {
    Filter(batch, ChildOf(t, parentOf, parent))
  }

  /** Grouping the batch gives each listed parent exactly what a per-parent query would. */
  lemma GroupOfBatch<T>(t: Table<T>, parentOf: T -> nat, parents: set<nat>, parent: nat)
    requires t.Valid() && parent in parents
    ensures GroupOf(Batch(t, parentOf, parents), t, parentOf, parent) == ChildIds(t, parentOf, parent)
  {
    var p := ChildOfAny(t, parentOf, parents);
    var q := ChildOf(t, parentOf, parent);
    var pq := k => p(k) && q(k);
    FilterFilter(t.Ids(), p, q, pq);
    FilterExt(t.Ids(), pq, q);
  }

  function WorkViews(s: Store, ids: seq<nat>): (r: seq<WorkView>)
    requires forall i :: 0 <= i < |ids| ==> ids[i] in s.works.rows
    ensures |r| == |ids| && forall j :: 0 <= j < |ids| ==> r[j] == FormatWork(ids[j], s.works.rows[ids[j]])
  {
    seq(|ids|, j requires 0 <= j < |ids| => FormatWork(ids[j], s.works.rows[ids[j]]))
  }

  function PartViews(s: Store, ids: seq<nat>): (r: seq<PartView>)
    requires forall i :: 0 <= i < |ids| ==> ids[i] in s.parts.rows
    ensures |r| == |ids| && forall j :: 0 <= j < |ids| ==> r[j] == FormatPart(ids[j], s.parts.rows[ids[j]])
  {
    seq(|ids|, j requires 0 <= j < |ids| => FormatPart(ids[j], s.parts.rows[ids[j]]))
  }

  /** A stored work order with the given works and parts attached. */
  function OrderWith(s: Store, id: nat, workIds: seq<nat>, partIds: seq<nat>): (v: OrderView)
    requires id in s.workOrders.rows
    requires forall i :: 0 <= i < |workIds| ==> workIds[i] in s.works.rows
    requires forall i :: 0 <= i < |partIds| ==> partIds[i] in s.parts.rows
    ensures v.id == id && |v.works| == |workIds| && |v.parts| == |partIds|
  {
    var wo := s.workOrders.rows[id];
    FormatOrder(id, wo, EmployeeName(s, wo.employeeId), WorkViews(s, workIds), PartViews(s, partIds))
  }

  /** The full aggregate of one stored work order. */
  function Aggregate(s: Store, id: nat): OrderView
    requires s.Valid() && id in s.workOrders.rows
  {
    var works := ChildIds(s.works, WorkParent, id);
    var parts := ChildIds(s.parts, PartParent, id);
    assert forall i :: 0 <= i < |works| ==> works[i] in works;
    assert forall i :: 0 <= i < |parts| ==> parts[i] in parts;
    OrderWith(s, id, works, parts)
  }

  /** Every work order id, newest (highest id) first. */
  function NewestFirst(s: Store): (r: seq<nat>)
    requires s.Valid()
    ensures |r| == |s.workOrders.Ids()|
    ensures forall i :: 0 <= i < |r| ==> r[i] == s.workOrders.Ids()[|r| - 1 - i]
  {
    s.workOrders.Newest()
  }

  /** GET: every work order, newest first, with its works and parts attached by
      grouping one batched fetch of children in memory. */
  function ListWorkOrders(s: Store): (r: seq<ListedOrder>)
    requires s.Valid()
    ensures |r| == |NewestFirst(s)|
    ensures forall i :: 0 <= i < |r| ==> r[i].order.id == NewestFirst(s)[i]
  {
    var ids := NewestFirst(s);
    var parents := set k | k in s.workOrders.rows;
    var works := Batch(s.works, WorkParent, parents);
    var parts := Batch(s.parts, PartParent, parents);
    assert forall i :: 0 <= i < |ids| ==> ids[i] in s.workOrders.Ids();
    seq(|ids|, i requires 0 <= i < |ids| => ListedEntry(s, works, parts, ids[i]))
  }

  /** One listing entry: the order with its children picked out of the batches, plus
      the joined car VIN and client phone ('' when the join finds nothing). */
  function ListedEntry(s: Store, works: seq<nat>, parts: seq<nat>, id: nat): (e: ListedOrder)
    requires id in s.workOrders.rows
    ensures e.order.id == id
  {
    var wo := s.workOrders.rows[id];
    ListedOrder(
      OrderWith(s, id, GroupOf(works, s.works, WorkParent, id), GroupOf(parts, s.parts, PartParent, id)),
      if wo.carId in s.cars.rows then s.cars.rows[wo.carId].vin else "",
      if wo.clientId in s.clients.rows then s.clients.rows[wo.clientId].phone else "")
  }

  /** The i-th listing entry is the aggregate a separate per-order query would build:
      exactly the works and parts whose `work_order_id` is its id, ascending. */
  lemma ListedEntryIsAggregate(s: Store, i: nat)
    requires s.Valid() && i < |ListWorkOrders(s)|
    ensures var r := ListWorkOrders(s);
      r[i].order.id in s.workOrders.rows && r[i].order == Aggregate(s, r[i].order.id)
  {
    var r := ListWorkOrders(s);
    var parents := set k | k in s.workOrders.rows;
    var id := r[i].order.id;
    assert id in s.workOrders.Ids();
    GroupOfBatch(s.works, WorkParent, parents, id);
    GroupOfBatch(s.parts, PartParent, parents, id);
  }

  /** Newest-first holds every work order id once, in strictly descending order. */
  lemma NewestFirstOrder(s: Store)
    requires s.Valid()
    ensures var r := NewestFirst(s);
      && (forall k :: k in s.workOrders.rows <==> k in r)
      && (forall i, j :: 0 <= i < j < |r| ==> r[i] > r[j])
  {
    NewestOrder(s.workOrders);
  }

  /** The listing holds every work order exactly once, highest id first, and each
      entry is that order's full aggregate. */
  lemma ListingGroupsChildren(s: Store)
    requires s.Valid()
    ensures var r := ListWorkOrders(s);
      && (forall k :: k in s.workOrders.rows ==> exists i :: 0 <= i < |r| && r[i].order.id == k)
      && (forall i :: 0 <= i < |r| ==> r[i].order.id in s.workOrders.rows && r[i].order == Aggregate(s, r[i].order.id))
      && (forall i, j :: 0 <= i < j < |r| ==> r[i].order.id > r[j].order.id)
  {
    var r := ListWorkOrders(s);
    var ids := NewestFirst(s);
    NewestFirstOrder(s);
    forall k | k in s.workOrders.rows ensures exists i :: 0 <= i < |r| && r[i].order.id == k {
      var j :| 0 <= j < |ids| && ids[j] == k;
      assert r[j].order.id == k;
    }
    forall i | 0 <= i < |r|
      ensures r[i].order.id in s.workOrders.rows && r[i].order == Aggregate(s, r[i].order.id)
    {
      ListedEntryIsAggregate(s, i);
    }
  }

  // ----------------------------------------------------------------- create

  datatype WorkInput = WorkInput(
    name: string, price: Option<int>, qty: Option<int>,
    normHours: Option<int>, normHourPrice: Option<int>, discount: Option<int>)

  datatype PartInput = PartInput(
    name: string, qty: Option<int>, price: Option<int>, purchasePrice: Option<int>, productId: nat)

  datatype CreateRequest = CreateRequest(
    client: string, car: string, master: string, clientId: nat, carId: nat, orderId: nat,
    payerClientId: nat, payerName: string, employeeId: nat,
    works: seq<WorkInput>, parts: seq<PartInput>)

  /** The row a submitted work becomes: name trimmed, defaults price 0, qty 1, rest 0. */
  function WorkRow(woId: nat, w: WorkInput): Work {
    Work(woId, Strip(w.name), w.price.GetOr(0), w.qty.GetOr(1),
         w.normHours.GetOr(0), w.normHourPrice.GetOr(0), w.discount.GetOr(0))
  }

  /** The row a submitted part becomes: name trimmed, defaults qty 1, prices 0. */
  function PartRow(woId: nat, p: PartInput): Part {
    Part(woId, Strip(p.name), p.qty.GetOr(1), p.price.GetOr(0), p.purchasePrice.GetOr(0), p.productId)
  }

  function NamedWorks(works: seq<WorkInput>): seq<WorkInput> {
    Filter(works, (w: WorkInput) => !IsBlank(w.name))
  }

  function NamedParts(parts: seq<PartInput>): seq<PartInput> {
    Filter(parts, (p: PartInput) => !IsBlank(p.name))
  }

  /** The rows `create` inserts for its works: one per work with a non-blank name, in order. */
  function WorkRows(woId: nat, works: seq<WorkInput>): (r: seq<Work>)
    ensures |r| == |NamedWorks(works)|
    ensures forall j :: 0 <= j < |r| ==> r[j] == WorkRow(woId, NamedWorks(works)[j])
  {
    var named := NamedWorks(works);
    seq(|named|, j requires 0 <= j < |named| => WorkRow(woId, named[j]))
  }

  /** The rows `create` inserts for its parts: one per part with a non-blank name, in order. */
  function PartRows(woId: nat, parts: seq<PartInput>): (r: seq<Part>)
    ensures |r| == |NamedParts(parts)|
    ensures forall j :: 0 <= j < |r| ==> r[j] == PartRow(woId, NamedParts(parts)[j])
  {
    var named := NamedParts(parts);
    seq(|named|, j requires 0 <= j < |named| => PartRow(woId, named[j]))
  }

  /** Whether creating the order takes this part out of stock: it is kept (non-blank
      name), linked to a product, and its quantity is positive. */
  predicate TakesStock(p: PartInput) {
    !IsBlank(p.name) && p.productId != 0 && p.qty.GetOr(1) > 0
  }

  /** Total quantity the creation takes out of product `pid`'s stock. */
  function StockTaken(parts: seq<PartInput>, pid: nat): int {
    if |parts| == 0 then 0
    else (if TakesStock(parts[0]) && parts[0].productId == pid then parts[0].qty.GetOr(1) else 0)
         + StockTaken(parts[1..], pid)
  }

  /** The stock movements of `create`, one product update per part that takes stock;
      each product ends up lowered by the total its parts take. */
  function TakeStock(t: Table<Product>, parts: seq<PartInput>): (r: Table<Product>)
    requires t.Valid()
    ensures r.Valid() && r.rows.Keys == t.rows.Keys && r.next == t.next
    ensures forall pid :: pid in t.rows ==>
      r.rows[pid] == t.rows[pid].(quantity := t.rows[pid].quantity - StockTaken(parts, pid))
    decreases |parts|
  {
    if |parts| == 0 then t
    else
      var t1 := if TakesStock(parts[0]) then AdjustQuantity(t, parts[0].productId, -parts[0].qty.GetOr(1)) else t;
      TakeStock(t1, parts[1..])
  }

  /** Inserts work rows under fresh ids and reports each as the API does. */
  function InsertWorks(t: Table<Work>, rows: seq<Work>): (r: (Table<Work>, seq<WorkView>))
    requires t.Valid()
    ensures r.0.Valid() && |r.1| == |rows|
    ensures forall k :: k in t.rows ==> k in r.0.rows && r.0.rows[k] == t.rows[k]
    ensures forall j :: 0 <= j < |rows| ==>
      && r.1[j].id !in t.rows && r.1[j].id in r.0.rows && r.0.rows[r.1[j].id] == rows[j]
      && r.1[j] == FormatWork(r.1[j].id, rows[j])
  {
    var (t2, ids) := InsertAll(t, rows);
    (t2, seq(|ids|, j requires 0 <= j < |ids| => FormatWork(ids[j], rows[j])))
  }

  /** Inserts part rows under fresh ids and reports each as the API does. */
  function InsertParts(t: Table<Part>, rows: seq<Part>): (r: (Table<Part>, seq<PartView>))
    requires t.Valid()
    ensures r.0.Valid() && |r.1| == |rows|
    ensures forall k :: k in t.rows ==> k in r.0.rows && r.0.rows[k] == t.rows[k]
    ensures forall j :: 0 <= j < |rows| ==>
      && r.1[j].id !in t.rows && r.1[j].id in r.0.rows && r.0.rows[r.1[j].id] == rows[j]
      && r.1[j] == FormatPart(r.1[j].id, rows[j])
    ensures r.0 == InsertAll(t, rows).0
  {
    var (t2, ids) := InsertAll(t, rows);
    (t2, seq(|ids|, j requires 0 <= j < |ids| => FormatPart(ids[j], rows[j])))
  }

  /** The writes of `create` once the client is known to be given: the header is
      stored with status "new", its named works and parts follow under fresh ids,
      and linked parts take their quantity out of stock. */
  function OpenWorkOrder(s: Store, req: CreateRequest): (r: (Store, OrderView))
    requires s.Valid()
    ensures r.0.Valid()
    ensures r.0 == s.(workOrders := r.0.workOrders, works := r.0.works, parts := r.0.parts, products := r.0.products)
    ensures var v := r.1;
      && v.id !in s.workOrders.rows && v.id in r.0.workOrders.rows
      && r.0.workOrders.rows == s.workOrders.rows[v.id := r.0.workOrders.rows[v.id]]
      && var h := r.0.workOrders.rows[v.id];
      && h.orderId == req.orderId && h.clientId == req.clientId && h.carId == req.carId
      && h.clientName == Strip(req.client) && h.carInfo == Strip(req.car)
      && h.status == "new" && h.master == Strip(req.master)
      && h.payerClientId == req.payerClientId && h.payerName == Strip(req.payerName)
      && h.employeeId == req.employeeId && h.issuedAt.None?
      && v == FormatOrder(v.id, h, "", v.works, v.parts)
      && v.status == "new" && v.issuedAt.None?
      && v.client == Strip(req.client) && v.car == Strip(req.car) && v.master == Strip(req.master)
      && v.payerName == Strip(req.payerName)
      && |v.works| == |NamedWorks(req.works)| && |v.parts| == |NamedParts(req.parts)|
    ensures var v := r.1;
      forall j :: 0 <= j < |v.works| ==>
        && v.works[j].id !in s.works.rows
        && v.works[j].name == Strip(NamedWorks(req.works)[j].name)
        && v.works[j].id in r.0.works.rows && r.0.works.rows[v.works[j].id] == WorkRow(v.id, NamedWorks(req.works)[j])
    ensures var v := r.1;
      forall j :: 0 <= j < |v.parts| ==>
        && v.parts[j].id !in s.parts.rows
        && v.parts[j].name == Strip(NamedParts(req.parts)[j].name)
        && v.parts[j].id in r.0.parts.rows && r.0.parts.rows[v.parts[j].id] == PartRow(v.id, NamedParts(req.parts)[j])
    ensures forall k :: k in s.works.rows ==> k in r.0.works.rows && r.0.works.rows[k] == s.works.rows[k]
    ensures forall k :: k in s.parts.rows ==> k in r.0.parts.rows && r.0.parts.rows[k] == s.parts.rows[k]
    ensures r.0.products == TakeStock(s.products, req.parts)
    ensures r.0.parts == InsertAll(s.parts, PartRows(r.1.id, req.parts)).0
  {
    var header := WorkOrder(req.orderId, req.clientId, req.carId, Strip(req.client), Strip(req.car),
                            "new", Strip(req.master), req.payerClientId, Strip(req.payerName),
                            req.employeeId, None);
    var (wos, id) := s.workOrders.Insert(header);
    var (works, wv) := InsertWorks(s.works, WorkRows(id, req.works));
    var (parts, pv) := InsertParts(s.parts, PartRows(id, req.parts));
    (s.(workOrders := wos, works := works, parts := parts, products := TakeStock(s.products, req.parts)),
     FormatOrder(id, header, "", wv, pv))
  }

  /** `create`: a blank client is refused with no write; otherwise the order is opened. */
  function CreateWorkOrder(s: Store, req: CreateRequest): (r: Reply<OrderView>)
    requires s.Valid()
    ensures r.store.Valid()
    ensures r.response.Fail? <==> IsBlank(req.client)
    ensures r.response.Fail? ==> r.store == s && r.response.status == BAD_REQUEST
    ensures r.response.Ok? ==> r.response.status == CREATED && (r.store, r.response.body) == OpenWorkOrder(s, req)
  {
    if IsBlank(req.client) then Reject(s, BAD_REQUEST, "client is required")
    else
      var (s2, v) := OpenWorkOrder(s, req);
      Reply(s2, Ok(CREATED, v))
  }

  /** Opening an order moves each product's stock down by what its parts take. */
  lemma OpenTakesStock(s: Store, req: CreateRequest)
    requires s.Valid()
    ensures var s2 := OpenWorkOrder(s, req).0;
      && s2.products.rows.Keys == s.products.rows.Keys
      && forall pid :: pid in s.products.rows ==>
           s2.products.rows[pid].quantity == s.products.rows[pid].quantity - StockTaken(req.parts, pid)
  {
  }

  // ----------------------------------------------------------- update header

  datatype UpdateRequest = UpdateRequest(
    workOrderId: nat, status: Option<string>, master: Option<string>,
    payerClientId: Option<nat>, payerName: Option<string>, employeeId: Option<nat>)

  predicate NothingToUpdate(req: UpdateRequest) {
    req.status.None? && req.master.None? && req.payerClientId.None? && req.payerName.None? && req.employeeId.None?
  }

  /** The header after a sparse update; setting status "issued" stamps `issued_at`. */
  function ApplyUpdate(wo: WorkOrder, req: UpdateRequest, now: nat): WorkOrder {
    wo.(status := req.status.GetOr(wo.status),
        issuedAt := if req.status == Some("issued") then Some(now) else wo.issuedAt,
        master := if req.master.Some? then Strip(req.master.value) else wo.master,
        payerClientId := req.payerClientId.GetOr(wo.payerClientId),
        payerName := if req.payerName.Some? then Strip(req.payerName.value) else wo.payerName,
        employeeId := req.employeeId.GetOr(wo.employeeId))
  }

  /** `update`: validates before writing; answers with the refreshed aggregate. */
  function UpdateWorkOrder(s: Store, req: UpdateRequest, now: nat): (r: Reply<OrderView>)
    requires s.Valid()
    ensures r.store.Valid()
    ensures r.response.Fail? ==> r.store == s
    ensures req.workOrderId == 0 ==> r.response.Fail? && r.response.status == BAD_REQUEST
    ensures req.status.Some? && !ValidStatus(req.status.value) ==> r.response.Fail? && r.response.status == BAD_REQUEST
    ensures NothingToUpdate(req) ==> r.response.Fail? && r.response.status == BAD_REQUEST
    ensures req.workOrderId != 0 && req.workOrderId !in s.workOrders.rows
      && !NothingToUpdate(req) && (req.status.Some? ==> ValidStatus(req.status.value))
      ==> r.response == Fail(NOT_FOUND, "Work order not found")
    ensures r.response.Ok? <==>
      && req.workOrderId != 0 && (req.status.Some? ==> ValidStatus(req.status.value))
      && !NothingToUpdate(req) && req.workOrderId in s.workOrders.rows
    ensures r.response.Ok? ==>
      && req.workOrderId in s.workOrders.rows
      && r.response.status == OK
      && r.store == s.(workOrders := r.store.workOrders)
      && r.store.workOrders.rows.Keys == s.workOrders.rows.Keys
      && (forall k :: k in s.workOrders.rows && k != req.workOrderId ==> r.store.workOrders.rows[k] == s.workOrders.rows[k])
      && var before := s.workOrders.rows[req.workOrderId];
      && var after := r.store.workOrders.rows[req.workOrderId];
      && (req.status == Some("issued") ==> after.issuedAt == Some(now))
      && (req.status != Some("issued") ==> after.issuedAt == before.issuedAt)
      && after.status == req.status.GetOr(before.status)
      && (req.master.Some? ==> after.master == Strip(req.master.value))
      && (req.master.None? ==> after.master == before.master)
      && after.payerClientId == req.payerClientId.GetOr(before.payerClientId)
      && (req.payerName.Some? ==> after.payerName == Strip(req.payerName.value))
      && (req.payerName.None? ==> after.payerName == before.payerName)
      && after.employeeId == req.employeeId.GetOr(before.employeeId)
      && after.orderId == before.orderId && after.clientId == before.clientId && after.carId == before.carId
      && after.clientName == before.clientName && after.carInfo == before.carInfo
      && r.response.body == Aggregate(r.store, req.workOrderId)
  {
    if req.workOrderId == 0 then Reject(s, BAD_REQUEST, "work_order_id is required")
    else if req.status.Some? && !ValidStatus(req.status.value) then Reject(s, BAD_REQUEST, "status must be one of ('new', 'in-progress', 'done', 'issued')")
    else if NothingToUpdate(req) then Reject(s, BAD_REQUEST, "Nothing to update")
    else if req.workOrderId !in s.workOrders.rows then Reject(s, NOT_FOUND, "Work order not found")
    else
      var wo := ApplyUpdate(s.workOrders.rows[req.workOrderId], req, now);
      var s2 := s.(workOrders := s.workOrders.Set(req.workOrderId, wo));
      Reply(s2, Ok(OK, Aggregate(s2, req.workOrderId)))
  }

  // ------------------------------------------------------------------ works

  datatype AddWorkRequest = AddWorkRequest(workOrderId: nat, work: WorkInput)

  /** `add_work`: needs a work order id and a non-blank name. */
  function AddWork(s: Store, req: AddWorkRequest): (r: Reply<WorkView>)
    requires s.Valid()
    ensures r.store.Valid()
    ensures r.response.Fail? <==> req.workOrderId == 0 || IsBlank(req.work.name)
    ensures r.response.Fail? ==> r.store == s && r.response.status == BAD_REQUEST
    ensures r.response.Ok? ==>
      && r.response.status == CREATED
      && var id := r.response.body.id;
      && id !in s.works.rows
      && r.store == s.(works := r.store.works)
      && r.store.works.rows == s.works.rows[id := WorkRow(req.workOrderId, req.work)]
      && r.response.body.name == Strip(req.work.name)
  {
    if req.workOrderId == 0 || IsBlank(req.work.name) then
      Reject(s, BAD_REQUEST, "work_order_id and name are required")
    else
      var row := WorkRow(req.workOrderId, req.work);
      var (works, id) := s.works.Insert(row);
      Reply(s.(works := works), Ok(CREATED, FormatWork(id, row)))
  }

  datatype UpdateWorkRequest = UpdateWorkRequest(
    workId: nat, name: Option<string>, price: Option<int>, qty: Option<int>,
    normHours: Option<int>, normHourPrice: Option<int>, discount: Option<int>)

  /** A supplied name counts only when it is not blank. */
  predicate NoWorkChange(req: UpdateWorkRequest) {
    (req.name.None? || IsBlank(req.name.value)) && req.price.None? && req.qty.None?
    && req.normHours.None? && req.normHourPrice.None? && req.discount.None?
  }

  function ApplyWorkUpdate(w: Work, req: UpdateWorkRequest): Work {
    w.(name := if req.name.Some? && !IsBlank(req.name.value) then Strip(req.name.value) else w.name,
       price := req.price.GetOr(w.price), qty := req.qty.GetOr(w.qty),
       normHours := req.normHours.GetOr(w.normHours), normHourPrice := req.normHourPrice.GetOr(w.normHourPrice),
       discount := req.discount.GetOr(w.discount))
  }

  /** `update_work`: a blank name is ignored rather than applied. */
  function UpdateWork(s: Store, req: UpdateWorkRequest): (r: Reply<WorkView>)
    requires s.Valid()
    ensures r.store.Valid()
    ensures r.response.Fail? ==> r.store == s
    ensures req.workId == 0 || NoWorkChange(req) ==> r.response.Fail? && r.response.status == BAD_REQUEST
    ensures req.workId != 0 && !NoWorkChange(req) && req.workId !in s.works.rows ==> r.response == Fail(NOT_FOUND, "Work not found")
    ensures r.response.Ok? <==> req.workId != 0 && !NoWorkChange(req) && req.workId in s.works.rows
    ensures r.response.Ok? ==>
      && req.workId in s.works.rows
      && r.response.status == OK
      && r.store == s.(works := r.store.works)
      && r.store.works.rows.Keys == s.works.rows.Keys
      && (forall k :: k in s.works.rows && k != req.workId ==> r.store.works.rows[k] == s.works.rows[k])
      && var before := s.works.rows[req.workId];
      && var after := r.store.works.rows[req.workId];
      && (req.name.None? || IsBlank(req.name.value) ==> after.name == before.name)
      && (req.name.Some? && !IsBlank(req.name.value) ==> after.name == Strip(req.name.value))
      && after.price == req.price.GetOr(before.price) && after.qty == req.qty.GetOr(before.qty)
      && after.normHours == req.normHours.GetOr(before.normHours)
      && after.normHourPrice == req.normHourPrice.GetOr(before.normHourPrice)
      && after.discount == req.discount.GetOr(before.discount)
      && after.workOrderId == before.workOrderId
      && r.response.body == FormatWork(req.workId, after)
  {
    if req.workId == 0 then Reject(s, BAD_REQUEST, "work_id is required")
    else if NoWorkChange(req) then Reject(s, BAD_REQUEST, "Nothing to update")
    else if req.workId !in s.works.rows then Reject(s, NOT_FOUND, "Work not found")
    else
      var w := ApplyWorkUpdate(s.works.rows[req.workId], req);
      Reply(s.(works := s.works.Set(req.workId, w)), Ok(OK, FormatWork(req.workId, w)))
  }

  /** `delete_work`: unconditional; a missing id still answers success. */
  function DeleteWork(s: Store, workId: nat): (r: Reply<Ack>)
    requires s.Valid()
    ensures r.store.Valid()
    ensures workId == 0 <==> r.response.Fail?
    ensures r.response.Fail? ==> r.store == s && r.response.status == BAD_REQUEST
    ensures r.response.Ok? ==>
      && r.store == s.(works := r.store.works)
      && r.store.works.rows.Keys == s.works.rows.Keys - {workId}
      && forall k :: k in r.store.works.rows ==> r.store.works.rows[k] == s.works.rows[k]
  {
    if workId == 0 then Reject(s, BAD_REQUEST, "work_id is required")
    else Reply(s.(works := s.works.Remove(workId)), Ok(OK, Success))
  }

  // ------------------------------------------------------------------ parts

  datatype AddPartRequest = AddPartRequest(workOrderId: nat, part: PartInput)

  /** The product a part request links to, when it names one that exists. */
  function LinkedProduct(s: Store, pid: nat): (r: Option<Product>)
    ensures r.Some? <==> pid != 0 && pid in s.products.rows
    ensures r.Some? ==> r.value == s.products.rows[pid]
  {
    if pid != 0 && pid in s.products.rows then Some(s.products.rows[pid]) else None
  }

  /** The row `add_part` stores: a linked product supplies the name when none is
      given and the purchase price when the given one is falsy. */
  function AddedPartRow(woId: nat, p: PartInput, linked: Option<Product>): (row: Part)
    ensures row.workOrderId == woId && row.productId == p.productId
    ensures row.qty == p.qty.GetOr(1) && row.sellPrice == p.price.GetOr(0)
    ensures !IsBlank(p.name) ==> row.name == Strip(p.name)
    ensures IsBlank(p.name) && linked.Some? ==> row.name == linked.value.name
    ensures linked.Some? && p.purchasePrice.GetOr(0) == 0 ==> row.purchasePrice == linked.value.purchasePrice
    ensures linked.None? || p.purchasePrice.GetOr(0) != 0 ==> row.purchasePrice == p.purchasePrice.GetOr(0)
  {
    var name := if IsBlank(p.name) && linked.Some? then linked.value.name else Strip(p.name);
    var purchase := if linked.Some? && p.purchasePrice.GetOr(0) == 0 then linked.value.purchasePrice
                    else p.purchasePrice.GetOr(0);
    Part(woId, name, p.qty.GetOr(1), p.price.GetOr(0), purchase, p.productId)
  }

  /** `add_part`: a linked part needs an existing product and takes `qty` out of its
      stock with no lower bound; an unlinked part needs a name. */
  function AddPart(s: Store, req: AddPartRequest): (r: Reply<PartView>)
    requires s.Valid()
    ensures r.store.Valid()
    ensures r.response.Fail? ==> r.store == s
    ensures r.response.Ok? <==>
      req.workOrderId != 0 && (if req.part.productId != 0 then req.part.productId in s.products.rows else !IsBlank(req.part.name))
    ensures req.workOrderId == 0 ==> r.response == Fail(BAD_REQUEST, "work_order_id is required")
    ensures req.workOrderId != 0 && req.part.productId != 0 && req.part.productId !in s.products.rows
      ==> r.response == Fail(NOT_FOUND, "Product not found")
    ensures req.workOrderId != 0 && req.part.productId == 0 && IsBlank(req.part.name)
      ==> r.response == Fail(BAD_REQUEST, "name or product_id is required")
    ensures r.response.Ok? ==>
      && r.response.status == CREATED
      && var id := r.response.body.id;
      && id !in s.parts.rows
      && r.store == s.(parts := r.store.parts, products := r.store.products)
      && r.store.parts.rows == s.parts.rows[id := AddedPartRow(req.workOrderId, req.part, LinkedProduct(s, req.part.productId))]
      && r.store.products == AdjustQuantity(s.products, req.part.productId, -req.part.qty.GetOr(1))
      && r.response.body == FormatPart(id, r.store.parts.rows[id])
  {
    var p := req.part;
    if req.workOrderId == 0 then Reject(s, BAD_REQUEST, "work_order_id is required")
    else if p.productId != 0 && p.productId !in s.products.rows then Reject(s, NOT_FOUND, "Product not found")
    else if p.productId == 0 && IsBlank(p.name) then Reject(s, BAD_REQUEST, "name or product_id is required")
    else
      var row := AddedPartRow(req.workOrderId, p, LinkedProduct(s, p.productId));
      var (parts, id) := s.parts.Insert(row);
      Reply(s.(parts := parts, products := AdjustQuantity(s.products, p.productId, -p.qty.GetOr(1))),
            Ok(CREATED, FormatPart(id, row)))
  }

  datatype UpdatePartRequest = UpdatePartRequest(
    partId: nat, name: Option<string>, qty: Option<int>, price: Option<int>, purchasePrice: Option<int>)

  predicate NoPartChange(req: UpdatePartRequest) {
    (req.name.None? || IsBlank(req.name.value)) && req.qty.None? && req.price.None? && req.purchasePrice.None?
  }

  function ApplyPartUpdate(p: Part, req: UpdatePartRequest): Part {
    p.(name := if req.name.Some? && !IsBlank(req.name.value) then Strip(req.name.value) else p.name,
       qty := req.qty.GetOr(p.qty), sellPrice := req.price.GetOr(p.sellPrice),
       purchasePrice := req.purchasePrice.GetOr(p.purchasePrice))
  }

  /** `update_part`: a quantity change on a linked part gives the product back
      `old_qty - new_qty`; the link itself never changes. */
  function UpdatePart(s: Store, req: UpdatePartRequest): (r: Reply<PartView>)
    requires s.Valid()
    ensures r.store.Valid()
    ensures r.response.Fail? ==> r.store == s
    ensures req.partId == 0 ==> r.response == Fail(BAD_REQUEST, "part_id is required")
    ensures req.partId != 0 && req.partId !in s.parts.rows ==> r.response == Fail(NOT_FOUND, "Part not found")
    ensures req.partId in s.parts.rows && NoPartChange(req) ==> r.response == Fail(BAD_REQUEST, "Nothing to update")
    ensures r.response.Ok? <==> req.partId != 0 && req.partId in s.parts.rows && !NoPartChange(req)
    ensures r.response.Ok? ==>
      && req.partId in s.parts.rows
      && r.response.status == OK
      && r.store == s.(parts := r.store.parts, products := r.store.products)
      && r.store.parts.rows.Keys == s.parts.rows.Keys
      && (forall k :: k in s.parts.rows && k != req.partId ==> r.store.parts.rows[k] == s.parts.rows[k])
      && var before := s.parts.rows[req.partId];
      && var after := r.store.parts.rows[req.partId];
      && after.productId == before.productId && after.workOrderId == before.workOrderId
      && after.qty == req.qty.GetOr(before.qty)
      && (req.name.None? || IsBlank(req.name.value) ==> after.name == before.name)
      && (req.name.Some? && !IsBlank(req.name.value) ==> after.name == Strip(req.name.value))
      && after.sellPrice == req.price.GetOr(before.sellPrice)
      && after.purchasePrice == req.purchasePrice.GetOr(before.purchasePrice)
      && (before.productId == 0 || after.qty == before.qty ==> r.store.products == s.products)
      && (before.productId != 0 ==> r.store.products == AdjustQuantity(s.products, before.productId, before.qty - after.qty))
      && r.response.body == FormatPart(req.partId, after)
  {
    if req.partId == 0 then Reject(s, BAD_REQUEST, "part_id is required")
    else if req.partId !in s.parts.rows then Reject(s, NOT_FOUND, "Part not found")
    else if NoPartChange(req) then Reject(s, BAD_REQUEST, "Nothing to update")
    else
      var before := s.parts.rows[req.partId];
      var after := ApplyPartUpdate(before, req);
      var products := if req.qty.Some? && before.productId != 0 && req.qty.value != before.qty
                      then AdjustQuantity(s.products, before.productId, before.qty - req.qty.value)
                      else s.products;
      assert before.productId != 0 && after.qty == before.qty ==> AdjustQuantity(s.products, before.productId, 0) == s.products;
      Reply(s.(parts := s.parts.Set(req.partId, after), products := products),
            Ok(OK, FormatPart(req.partId, after)))
  }

  /** `delete_part`: a linked part's whole quantity goes back to its product, then the
      row is removed; a missing id still answers success and changes nothing. */
  function DeletePart(s: Store, partId: nat): (r: Reply<Ack>)
    requires s.Valid()
    ensures r.store.Valid()
    ensures partId == 0 <==> r.response.Fail?
    ensures r.response.Fail? ==> r.store == s && r.response.status == BAD_REQUEST
    ensures partId != 0 && partId !in s.parts.rows ==> r.store == s
    ensures r.response.Ok? ==>
      && r.store == s.(parts := r.store.parts, products := r.store.products)
      && r.store.parts.rows.Keys == s.parts.rows.Keys - {partId}
      && (forall k :: k in r.store.parts.rows ==> r.store.parts.rows[k] == s.parts.rows[k])
      && (partId in s.parts.rows ==>
            r.store.products == AdjustQuantity(s.products, s.parts.rows[partId].productId, s.parts.rows[partId].qty))
  {
    if partId == 0 then Reject(s, BAD_REQUEST, "part_id is required")
    else
      var products := if partId in s.parts.rows && s.parts.rows[partId].productId != 0
                      then AdjustQuantity(s.products, s.parts.rows[partId].productId, s.parts.rows[partId].qty)
                      else s.products;
      Reply(s.(parts := s.parts.Remove(partId), products := products), Ok(OK, Success))
  }

  // ---------------------------------------------------------------- routing

  datatype Action = Create | Update | AddWorkAction | AddPartAction | UpdateWorkAction
                  | DeleteWorkAction | UpdatePartAction | DeletePartAction

  function ActionName(a: Action): string {
    match a
    case Create => "create"
    case Update => "update"
    case AddWorkAction => "add_work"
    case AddPartAction => "add_part"
    case UpdateWorkAction => "update_work"
    case DeleteWorkAction => "delete_work"
    case UpdatePartAction => "update_part"
    case DeletePartAction => "delete_part"
  }

  /** The `actions` table: a name selects the action that bears it, and only that one. */
  function ParseAction(name: string): (r: Option<Action>)
    ensures r.Some? ==> ActionName(r.value) == name
    ensures forall a :: ActionName(a) == name ==> r == Some(a)
  {
    if name == "create" then Some(Create)
    else if name == "update" then Some(Update)
    else if name == "add_work" then Some(AddWorkAction)
    else if name == "add_part" then Some(AddPartAction)
    else if name == "update_work" then Some(UpdateWorkAction)
    else if name == "delete_work" then Some(DeleteWorkAction)
    else if name == "update_part" then Some(UpdatePartAction)
    else if name == "delete_part" then Some(DeletePartAction)
    else None
  }

  /** `handler`: OPTIONS is answered, GET lists, POST dispatches on `action`; any other
      method falls off the end of the function without an answer. */
  function RouteRequest(httpMethod: Option<string>, action: string): (r: Route<Action>)
    ensures httpMethod == Some("OPTIONS") <==> r.Preflight?
    ensures MethodOf(httpMethod) == "POST" ==> (r.Invoke? <==> ParseAction(action).Some?)
    ensures r.Invoke? ==> ActionName(r.action) == action
    ensures !(MethodOf(httpMethod) in {"OPTIONS", "GET", "POST"}) ==> r.NoAnswer?
  {
    if httpMethod == Some("OPTIONS") then Preflight
    else if MethodOf(httpMethod) == "GET" then Query
    else if MethodOf(httpMethod) == "POST" then
      match ParseAction(action)
      case Some(a) => Invoke(a)
      case None => UnknownAction
    else NoAnswer
  }
}

=== FILE: worktypes.dfy ===
/** The work-order shapes the web client uses (src/components/work-orders/types.ts):
    the label shown for each status, and the order total the screens display. The
    client's work and part items are the views the work-order handler returns. */
module WorkTypes {
  import opened Tables
  import WorkOrders

  /** How a status is shown: its label (`caption`) and the badge's style classes. */
  datatype StatusStyle = StatusStyle(caption: string, className: string)

  /** `statusConfig`. */
  const StatusConfig: map<string, StatusStyle> := map[
    "new" := StatusStyle("Новый", "bg-purple-100 text-purple-700"),
    "in-progress" := StatusStyle("В работе", "bg-blue-100 text-blue-700"),
    "done" := StatusStyle("Готов", "bg-green-100 text-green-700"),
    "issued" := StatusStyle("Выдан", "bg-gray-100 text-gray-700")]

  /** The client has a style for exactly the statuses the handler accepts, and no two
      statuses share a label. */
  lemma StatusConfigMatchesStatuses()
    ensures forall st :: st in StatusConfig <==> WorkOrders.ValidStatus(st)
    ensures forall a, b :: a in StatusConfig && b in StatusConfig && a != b ==> StatusConfig[a].caption != StatusConfig[b].caption
  {
  }

  // ------------------------------------------------------------------ total

  function WorkPrice(w: WorkOrders.WorkView): int {
    w.price
  }

  function PartAmount(p: WorkOrders.PartView): int {
    p.price * p.qty
  }

  /** `works.reduce((s, w) => s + w.price, acc)`. */
  function ReduceWorks(acc: int, works: seq<WorkOrders.WorkView>): int
    decreases |works|
  {
    if |works| == 0 then acc else ReduceWorks(acc + works[0].price, works[1..])
  }

  /** `parts.reduce((s, p) => s + p.price * p.qty, acc)`. */
  function ReduceParts(acc: int, parts: seq<WorkOrders.PartView>): int
    decreases |parts|
  {
    if |parts| == 0 then acc else ReduceParts(acc + parts[0].price * parts[0].qty, parts[1..])
  }

  /** `getTotal`: what the client shows as the order's total. */
  function GetTotal(wo: WorkOrders.OrderView): (t: int)
    ensures wo.works == [] && wo.parts == [] ==> t == 0
  {
    ReduceWorks(0, wo.works) + ReduceParts(0, wo.parts)
  }

  lemma {:induction false} ReduceWorksIsSum(acc: int, works: seq<WorkOrders.WorkView>)
    ensures ReduceWorks(acc, works) == acc + SeqSum(works, WorkPrice)
    decreases |works|
  {
    if |works| > 0 {
      ReduceWorksIsSum(acc + works[0].price, works[1..]);
      assert works == [works[0]] + works[1..];
      SeqSumCons(works[0], works[1..], WorkPrice);
    }
  }

  lemma {:induction false} ReducePartsIsSum(acc: int, parts: seq<WorkOrders.PartView>)
    ensures ReduceParts(acc, parts) == acc + SeqSum(parts, PartAmount)
    decreases |parts|
  {
    if |parts| > 0 {
      ReducePartsIsSum(acc + parts[0].price * parts[0].qty, parts[1..]);
      assert parts == [parts[0]] + parts[1..];
      SeqSumCons(parts[0], parts[1..], PartAmount);
    }
  }

  /** The total is Σ work price plus Σ part price × quantity. */
  lemma GetTotalIsSum(wo: WorkOrders.OrderView)
    ensures GetTotal(wo) == SeqSum(wo.works, WorkPrice) + SeqSum(wo.parts, PartAmount)
  {
    ReduceWorksIsSum(0, wo.works);
    ReducePartsIsSum(0, wo.parts);
  }

  /** A work's quantity, norm hours, norm-hour price and discount never move the total:
      two orders whose works agree on price, and whose parts agree, total the same. */
  lemma WorkExtrasIgnored(wo: WorkOrders.OrderView, works: seq<WorkOrders.WorkView>)
    requires |works| == |wo.works|
    requires forall i :: 0 <= i < |works| ==> works[i].price == wo.works[i].price
    ensures GetTotal(wo.(works := works)) == GetTotal(wo)
  {
    SamePricesSameReduce(0, works, wo.works);
  }

  lemma {:induction false} SamePricesSameReduce(acc: int, a: seq<WorkOrders.WorkView>, b: seq<WorkOrders.WorkView>)
    requires |a| == |b| && forall i :: 0 <= i < |a| ==> a[i].price == b[i].price
    ensures ReduceWorks(acc, a) == ReduceWorks(acc, b)
    decreases |a|
  {
    if |a| > 0 {
      SamePricesSameReduce(acc + a[0].price, a[1..], b[1..]);
    }
  }

  /** Adding one part adds its price × quantity to the total. */
  lemma AddingPartAddsAmount(wo: WorkOrders.OrderView, p: WorkOrders.PartView)
    ensures GetTotal(wo.(parts := wo.parts + [p])) == GetTotal(wo) + p.price * p.qty
  {
    GetTotalIsSum(wo);
    GetTotalIsSum(wo.(parts := wo.parts + [p]));
    assert (wo.parts + [p])[..|wo.parts|] == wo.parts;
  }
}
